=== FILE: README.md ===
# fx utilities in Dafny

A model of the sequential core of the `Bearz` standard library: the array
and span helpers (`ArrayOps`, `SpanOps`, `SpanExtensions`,
`ArrayExtensions`, `EnumerableExtensions`), the `DynamicList` list
operations, the path helpers (`PathSpan`, `PathBuf`, `FsPath.Resolve`),
the environment helpers (`Env.Path`, `Env.Variables`,
`Env.AppDirectory`, `VirtualEnvironment`), the logging `ScopeBag`,
`TextReaderExtensions.ReadLineAsArray` and the process description
`CommandStartInfo` with its fluent extensions.

Everything is a value: an array, span or list is a `seq`, a `ref`
parameter becomes a returned sequence, a thrown exception becomes
`Err(kind)` of the `Result` datatype in `Wrappers`, and `default(T)` is
a parameter `dflt`. The .NET primitives the code is built from
(`Array.Copy`, `Array.Resize`, `Array.Clear`, `Span.CopyTo`,
`Span.Slice`) are modelled once in `Buffers`, with their documented
error conditions, and each operation is written as the sequence of those
steps the source takes; its contract then says what the steps amount to.
Case-insensitive dictionaries are `Dictionaries.Dict` (a map from the
folded name to the stored name and value, see `CaseFold`); the process
environment, the host's path rules and the clock are parameters.

Modules and files:

| module | file | models |
|---|---|---|
| Wrappers | wrappers.dfy | `Option`, `Result` and the exception kinds |
| Buffers | buffers.dfy | the .NET copy, resize, clear and slice primitives |
| ArrayOps | array_ops.dfy | Standard/src/Extra/Arrays/ArrayOps.cs |
| SpanOps | span_ops.dfy | Standard/src/Extra/Memory/SpanOps.cs |
| SpanExtensions | span_extensions.dfy | Standard/src/Extra/Memory/SpanExtensions.cs |
| ArrayExtensions | array_extensions.dfy | Standard/src/Extra/Arrays/ArrayExtensions.cs |
| EnumerableExtensions | enumerable_extensions.dfy | Standard/src/Extra/Collections/EnumerableExtensions.cs |
| DynamicList | dynamic_list.dfy | Dynamic/src/DynamicList.cs |
| HostPath | host_path.dfy | the `System.IO.Path` rules the path code relies on |
| PathSpan | path_span.dfy | Standard/src/Std/PathSpan.cs |
| PathBuf | path_buf.dfy | Standard/src/Std/PathBuf.cs |
| FsPath | fs_path.dfy | Standard/src/Std/FsPath.cs (`Resolve`) |
| CaseFold, Dictionaries | case_fold.dfy, dictionaries.dfy | ordinal and ordinal-ignore-case dictionaries |
| EnvVariables | env_variables.dfy | Standard/src/Std/Env.Variables.cs |
| EnvPath | env_path.dfy | Standard/src/Std/Env.Path.cs |
| AppDirectory | app_directory.dfy | Standard/src/Std/Env.AppDirectory.cs |
| VirtualEnv | virtual_environment.dfy | Standard/src/Virtual/VirtualEnvironment.cs |
| ScopeBag | scope_bag.dfy | Extensions.Logging.Abstractions/src/ScopeBag.cs |
| TextReader | text_reader.dfy | Standard/src/Extra/IO/TextReaderExtensions.cs |
| StartInfo | command_start_info.dfy | Standard/src/Std/CommandStartInfo.cs and CommandStartInfoExtensions.cs |

## Model

| member | source | states |
|---|---|---|
| ArrayOps.Concat2 | Standard/src/Extra/Arrays/ArrayOps.cs:15-21 | the result is the first array followed by the second |
| ArrayOps.Concat3 | Standard/src/Extra/Arrays/ArrayOps.cs:31-38 | the result is the three arrays in order |
| ArrayOps.ConcatAll | Standard/src/Extra/Arrays/ArrayOps.cs:46-57 | the copy loop at a running offset produces the concatenation of all arrays |
| ArrayOps.PrefixTotalBound | Standard/src/Extra/Arrays/ArrayOps.cs:46-57 | the arrays before any index fit in the total length, so every copy of the loop stays in bounds |
| ArrayOps.Pop | Standard/src/Extra/Arrays/ArrayOps.cs:66-76 | an empty array throws ArgumentException; otherwise the result is the last element and the array without it, which together rebuild the input |
| ArrayOps.Shift | Standard/src/Extra/Arrays/ArrayOps.cs:398-408 | an empty array throws ArgumentException; otherwise the first element and the rest, which together rebuild the input |
| ArrayOps.TryPop | Standard/src/Extra/Arrays/ArrayOps.cs:993-1006 | true exactly for a non-empty array, with the last element removed; false leaves the array and gives default |
| ArrayOps.TryShift | Standard/src/Extra/Arrays/ArrayOps.cs:1015-1028 | true exactly for a non-empty array, with the first element removed; false leaves the array and gives default |
| ArrayOps.PopRange | Standard/src/Extra/Arrays/ArrayOps.cs:334-348 | succeeds exactly for a non-empty array and 0 <= count <= Length; the popped elements keep their order and with the remainder rebuild the input; a negative count overflows, anything else is ArgumentException |
| ArrayOps.Resize | Standard/src/Extra/Arrays/ArrayOps.cs:195-198 | a negative size throws; otherwise the new length, truncating or padding with default |
| ArrayOps.Grow | Standard/src/Extra/Arrays/ArrayOps.cs:210-228 | succeeds exactly when Length + amount lies in [0, Array.MaxLength]; a non-negative amount pads the array with that many defaults, a negative one truncates it to its first Length + amount elements |
| ArrayOps.Shrink | Standard/src/Extra/Arrays/ArrayOps.cs:267-285 | succeeds exactly when Length - amount lies in [0, Array.MaxLength]; a non-negative amount truncates the array to its first Length - amount elements, a negative one pads it with -amount defaults |
| ArrayOps.ShrinkUndoesGrow | Standard/src/Extra/Arrays/ArrayOps.cs:210-285 | shrinking by the amount just grown restores the array |
| ArrayOps.RaiseBlocks | Standard/src/Extra/Arrays/ArrayOps.cs:247-256 | the growing loop ends on the least block count whose size reaches the target |
| ArrayOps.LowerBlocks | Standard/src/Extra/Arrays/ArrayOps.cs:310-319 | the shrinking loop ends on the greatest block count whose size does not exceed the minimum |
| ArrayOps.GrowBy | Standard/src/Extra/Arrays/ArrayOps.cs:238-259 | a block size below one throws; otherwise the length is a multiple of the block size, the least one reaching the target (Length + blockSize by default) unless the rounded-down length already exceeds it, and the elements are kept and padded with default |
| ArrayOps.ShrinkBlocks | Standard/src/Extra/Arrays/ArrayOps.cs:295-322 | the block count ShrinkBy reaches: a multiple not above the length, the greatest not above the minimum when the rounded-down length reaches it |
| ArrayOps.ShrinkBy | Standard/src/Extra/Arrays/ArrayOps.cs:295-322 | returns at once when the minimum equals the length (even for a bad block size); otherwise a bad block size or a negative minimum throws, and the result is a prefix whose length is the greatest block multiple not above the minimum |
| ArrayOps.ShrinkByExamples | Standard/src/Extra/Arrays/ArrayOps.cs:295-322 | a 32-element array shrinks to 16, 0 and 32 for minimums 16, 0 and 32 with blocks of 16 |
| ArrayOps.Clear | Standard/src/Extra/Arrays/ArrayOps.cs:361-375 | a length of -1 clears to the end; out-of-range bounds throw (ArgumentOutOfRange for a too-long length, IndexOutOfRange otherwise); exactly the range becomes default, the rest is kept |
| ArrayOps.ClearAllIsFresh | Standard/src/Extra/Arrays/ArrayOps.cs:361-375 | clearing with the default bounds gives an all-default array of the same length |
| ArrayOps.ClearIdempotent | Standard/src/Extra/Arrays/ArrayOps.cs:361-375 | clearing a range twice is clearing it once |
| ArrayOps.Swap | Standard/src/Extra/Arrays/ArrayOps.cs:384-387 | both indices in range or IndexOutOfRange; the two elements trade places and no other moves |
| ArrayOps.SwapInvolution | Standard/src/Extra/Arrays/ArrayOps.cs:384-387 | swapping twice restores the array |
| ArrayOps.SwapPermutes | Standard/src/Extra/Arrays/ArrayOps.cs:384-387 | a swap keeps the multiset of elements |
| ArrayOps.EqualByComparer | Standard/src/Extra/Arrays/ArrayOps.cs:98-154 | equal iff the same reference (or both null), or both non-null of one length with every pair comparing to zero |
| ArrayOps.EqualByEquality | Standard/src/Extra/Arrays/ArrayOps.cs:164-187 | equal iff the same reference, or both non-null of one length with every pair equal by the comparer |
| ArrayOps.Equal | Standard/src/Extra/Arrays/ArrayOps.cs:85-88 | with the default comparer, equal iff both null or both non-null with the same elements |
| ArrayOps.Append1 | Standard/src/Extra/Arrays/ArrayOps.cs:416-422 | the element is added at the end |
| ArrayOps.Append2 | Standard/src/Extra/Arrays/ArrayOps.cs:431-438 | the two elements are added at the end in order |
| ArrayOps.Append3 | Standard/src/Extra/Arrays/ArrayOps.cs:448-456 | the three elements are added at the end in order |
| ArrayOps.AppendParams | Standard/src/Extra/Arrays/ArrayOps.cs:464-470 | the elements are added at the end in order |
| ArrayOps.AppendSpan | Standard/src/Extra/Arrays/ArrayOps.cs:478-498 | the span's elements are added at the end in order |
| ArrayOps.AppendByEnumerating | Standard/src/Extra/Arrays/ArrayOps.cs:506-554 | the enumerating branch's allocate, copy and fill loop adds the items at the end in order |
| ArrayOps.AppendEnumerable | Standard/src/Extra/Arrays/ArrayOps.cs:506-554 | whichever branch the argument's type selects, the items are added at the end in order |
| ArrayOps.Insert1 | Standard/src/Extra/Arrays/ArrayOps.cs:563-570 | succeeds exactly for 0 <= index <= Length (negative: ArgumentOutOfRange, beyond: ArgumentException); the element lands at index between the two halves |
| ArrayOps.Insert2 | Standard/src/Extra/Arrays/ArrayOps.cs:580-588 | as Insert1 with two elements |
| ArrayOps.Insert3 | Standard/src/Extra/Arrays/ArrayOps.cs:599-608 | as Insert1 with three elements |
| ArrayOps.InsertParams | Standard/src/Extra/Arrays/ArrayOps.cs:617-624 | as Insert1 with the elements in order |
| ArrayOps.InsertSpan | Standard/src/Extra/Arrays/ArrayOps.cs:633-656 | as Insert1 with the span's elements in order |
| ArrayOps.InsertByEnumerating | Standard/src/Extra/Arrays/ArrayOps.cs:665-717 | the enumerating branch inserts the items at index in order |
| ArrayOps.InsertEnumerable | Standard/src/Extra/Arrays/ArrayOps.cs:665-717 | every branch inserts the items at index in order, with the same index checks |
| ArrayOps.Prepend1 | Standard/src/Extra/Arrays/ArrayOps.cs:725-731 | the element is put in front |
| ArrayOps.Prepend2 | Standard/src/Extra/Arrays/ArrayOps.cs:740-747 | the two elements are put in front in order |
| ArrayOps.Prepend3 | Standard/src/Extra/Arrays/ArrayOps.cs:757-765 | the three elements are put in front in order |
| ArrayOps.PrependParams | Standard/src/Extra/Arrays/ArrayOps.cs:773-779 | the elements are put in front in order |
| ArrayOps.PrependSpan | Standard/src/Extra/Arrays/ArrayOps.cs:787-807 | the span's elements are put in front in order |
| ArrayOps.PrependEnumerable | Standard/src/Extra/Arrays/ArrayOps.cs:815-850 | every branch puts the items in front in order |
| ArrayOps.AsSegment | Standard/src/Extra/Arrays/ArrayOps.cs:926-941 | a negative start or length or a window past the end throws ArgumentOutOfRange; otherwise a segment of the same array over exactly that window |
| ArrayOps.AsSegmentAll | Standard/src/Extra/Arrays/ArrayOps.cs:897-898 | a segment over the whole array |
| ArrayOps.AsSegmentFrom | Standard/src/Extra/Arrays/ArrayOps.cs:907-908 | for a start in range, a segment over everything from it; any other start throws ArgumentOutOfRange |
| ArrayOps.Slice | Standard/src/Extra/Arrays/ArrayOps.cs:969-984 | the same bounds as AsSegment; the span holds the window's elements |
| ArrayOps.SliceFrom | Standard/src/Extra/Arrays/ArrayOps.cs:950-951 | for a start in range, the span from it, which after the prefix rebuilds the array; any other start throws ArgumentOutOfRange |
| ArrayOps.PopUndoesAppend | Standard/src/Extra/Arrays/ArrayOps.cs:66-76 | Pop takes back what Append added |
| ArrayOps.ShiftUndoesPrepend | Standard/src/Extra/Arrays/ArrayOps.cs:398-408 | Shift takes back what Prepend added |
| ArrayOps.PopRangeUndoesAppend | Standard/src/Extra/Arrays/ArrayOps.cs:334-348 | PopRange takes back the elements Append(params) added, in order |
| ArrayOps.InsertAtEnds | Standard/src/Extra/Arrays/ArrayOps.cs:617-624 | inserting at Length is appending and at 0 is prepending |
| ArrayOps.ConcatAgrees | Standard/src/Extra/Arrays/ArrayOps.cs:15-57 | the two- and three-array Concat agree with the general one |
| ArrayOps.SegmentMatchesSlice | Standard/src/Extra/Arrays/ArrayOps.cs:926-984 | a segment and a slice over the same window succeed together and see the same elements |
| SpanOps.AppendSpan | Standard/src/Extra/Memory/SpanOps.cs:15-35 | the span is followed by the value's elements |
| SpanOps.AppendValue | Standard/src/Extra/Memory/SpanOps.cs:43-81 | the value is added at the end (the params overloads with one element alike) |
| SpanOps.AppendEnumerable | Standard/src/Extra/Memory/SpanOps.cs:89-185 | whichever branch the argument's type selects, the items are added at the end in order |
| SpanOps.InsertValue | Standard/src/Extra/Memory/SpanOps.cs:224-247 | succeeds exactly for 0 <= index <= Length, else ArgumentOutOfRange; the value lands at index between the two halves |
| SpanOps.InsertSpan | Standard/src/Extra/Memory/SpanOps.cs:256-299 | as InsertValue with the value's elements in order |
| SpanOps.InsertEnumerable | Standard/src/Extra/Memory/SpanOps.cs:308-403 | the items are inserted at index in order; a bad index throws ArgumentOutOfRange, except IndexOutOfRange from the read-only-collection branch when there are items |
| SpanOps.PrependSpan | Standard/src/Extra/Memory/SpanOps.cs:411-431 | the value's elements are put in front |
| SpanOps.PrependValue | Standard/src/Extra/Memory/SpanOps.cs:439-475 | the value is put in front |
| SpanOps.PrependEnumerable | Standard/src/Extra/Memory/SpanOps.cs:483-571 | every branch puts the items in front in order |
| SpanOps.Pop | Standard/src/Extra/Memory/SpanOps.cs:581-607 | an empty span throws ArgumentException; otherwise the last element and the shortened span, which rebuild the input |
| SpanOps.Shift | Standard/src/Extra/Memory/SpanOps.cs:617-643 | an empty span throws ArgumentException; otherwise the first element and the rest |
| SpanOps.TryPop | Standard/src/Extra/Memory/SpanOps.cs:653-685 | true exactly for a non-empty span, with the last element removed; false leaves the span and gives default |
| SpanOps.TryShift | Standard/src/Extra/Memory/SpanOps.cs:696-725 | true exactly for a non-empty span, with the first element removed; false leaves the span and gives default |
| SpanOps.PopAllReverses | Standard/src/Extra/Memory/SpanOps.cs:581-607 | popping until empty yields the elements in reverse order |
| SpanOps.ShiftAllInOrder | Standard/src/Extra/Memory/SpanOps.cs:617-643 | shifting until empty yields the elements in order |
| SpanOps.PopAndShiftUndo | Standard/src/Extra/Memory/SpanOps.cs:43-63 | Pop takes back what Append added, Shift what Prepend added |
| SpanOps.InsertAtEnds | Standard/src/Extra/Memory/SpanOps.cs:256-279 | inserting at Length is appending, at 0 prepending |
| SpanExtensions.Pop | Standard/src/Extra/Memory/SpanExtensions.cs:19-35 | an empty span throws ArgumentException; otherwise the span without its last element and that element, which rebuild the input |
| SpanExtensions.PrependInto | Standard/src/Extra/Memory/SpanExtensions.cs:51-67 | the destination must be exactly one longer (else ArgumentOutOfRange) and then holds the value followed by the span |
| SpanExtensions.Prepend | Standard/src/Extra/Memory/SpanExtensions.cs:37-49 | a new span holding the value followed by the span |
| SpanExtensions.PrependRangeInto | Standard/src/Extra/Memory/SpanExtensions.cs:83-99 | the destination must be exactly as long as both (else ArgumentOutOfRange) and then holds the items followed by the span |
| SpanExtensions.PrependRange | Standard/src/Extra/Memory/SpanExtensions.cs:69-81 | the items followed by the span |
| SpanExtensions.AppendRangeInto | Standard/src/Extra/Memory/SpanExtensions.cs:115-131 | the destination must be exactly as long as both and then holds the span followed by the items |
| SpanExtensions.AppendRange | Standard/src/Extra/Memory/SpanExtensions.cs:101-113 | the span followed by the items |
| SpanExtensions.AppendInto | Standard/src/Extra/Memory/SpanExtensions.cs:147-163 | the destination must be exactly one longer and then holds the span followed by the value |
| SpanExtensions.Append | Standard/src/Extra/Memory/SpanExtensions.cs:140-145 | the span followed by the value |
| SpanExtensions.AppendIgnoringIndex | Standard/src/Extra/Memory/SpanExtensions.cs:133-138 | the Span overload ignores its index argument and appends the value |
| SpanExtensions.InsertRangeInto | Standard/src/Extra/Memory/SpanExtensions.cs:179-225 | as written: succeeds exactly for 0 <= index < Length with room in the destination; the destination then holds the prefix, the items, the suffix, and its own tail; errors are ArgumentOutOfRange for the index, ArgumentException for room |
| SpanExtensions.InsertRange | Standard/src/Extra/Memory/SpanExtensions.cs:165-177 | as written: succeeds exactly for 0 <= index < Length, inserting the items there (so never at the end) |
| SpanExtensions.InsertInto | Standard/src/Extra/Memory/SpanExtensions.cs:235-283 | as InsertRangeInto with one value |
| SpanExtensions.InsertNew | Standard/src/Extra/Memory/SpanExtensions.cs:227-233 | as written, every call fails: ArgumentOutOfRange for a bad index, ArgumentException otherwise |
| SpanExtensions.InsertNewFixed | Standard/src/Extra/Memory/SpanExtensions.cs:227-233 | with a destination one longer than the span, the value is inserted at any index in [0, Length) |
| SpanExtensions.InsertNewNeverSucceeds | Standard/src/Extra/Memory/SpanExtensions.cs:227-233 | inserting 9 at index 1 of [1, 2] fails as written and gives [1, 9, 2] corrected |
| SpanExtensions.InsertRangeIntoFixed | Standard/src/Extra/Memory/SpanExtensions.cs:179-225 | with the index bound relaxed to index <= Length, the items are inserted at any index in [0, Length] |
| SpanExtensions.InsertRangeFixed | Standard/src/Extra/Memory/SpanExtensions.cs:165-177 | corrected InsertRange: any index in [0, Length] inserts the items there |
| SpanExtensions.InsertRangeAtEnd | Standard/src/Extra/Memory/SpanExtensions.cs:179-225 | as written, inserting at the end of [1, 2] or into an empty span fails; corrected, it appends |
| SpanExtensions.InsertRangeFixedAtEnds | Standard/src/Extra/Memory/SpanExtensions.cs:165-177 | corrected InsertRange at Length is AppendRange and at 0 PrependRange |
| SpanExtensions.Splice | Standard/src/Extra/Memory/SpanExtensions.cs:285-365 | succeeds exactly for 0 <= index < Length and 0 <= deleteCount <= Length - index; the deleted window is replaced by the items |
| SpanExtensions.SpliceInto | Standard/src/Extra/Memory/SpanExtensions.cs:367-441 | the destination form's exact acceptance condition; the destination holds the spliced span followed by its own tail; a bad index or (for a non-zero count) a bad count throws ArgumentOutOfRange, and a destination too short for the copies throws ArgumentException |
| SpanExtensions.SpliceSameIsIdentity | Standard/src/Extra/Memory/SpanExtensions.cs:285-365 | splicing back the elements that are deleted leaves the span unchanged |
| SpanExtensions.SpliceIntoAgrees | Standard/src/Extra/Memory/SpanExtensions.cs:285-441 | whenever the destination form succeeds, the allocating form does too and the destination starts with its result |
| SpanExtensions.RemoveAt | Standard/src/Extra/Memory/SpanExtensions.cs:443-449 | as written, every call throws ArgumentOutOfRange, because the second slice starts past its own end |
| SpanExtensions.RemoveRange | Standard/src/Extra/Memory/SpanExtensions.cs:451-464 | as written, a zero count returns the span and any other count throws ArgumentOutOfRange |
| SpanExtensions.RemoveAtFixed | Standard/src/Extra/Memory/SpanExtensions.cs:443-449 | corrected: for an index in range, the span without that element, the others in order |
| SpanExtensions.RemoveRangeFixed | Standard/src/Extra/Memory/SpanExtensions.cs:451-464 | corrected: a zero count returns the span; otherwise a window in range is cut out |
| SpanExtensions.RemoveAtRoundTrip | Standard/src/Extra/Memory/SpanExtensions.cs:443-449 | as written RemoveAt fails on every index in range; corrected, removing the element just inserted restores the span |
| SpanExtensions.RemoveRangeInto | Standard/src/Extra/Memory/SpanExtensions.cs:466-518 | a zero count leaves the destination; otherwise its exact acceptance condition, and the destination holds the span without the window followed by its own tail; a bad index or count throws ArgumentOutOfRange, and a destination too short for the copies throws ArgumentException |
| SpanExtensions.RemoveRangeIntoAgrees | Standard/src/Extra/Memory/SpanExtensions.cs:451-518 | whenever the destination form succeeds, the corrected allocating form does too and the destination starts with its result |
| SpanExtensions.Concat | Standard/src/Extra/Memory/SpanExtensions.cs:520-550 | the span followed by the other span or array |
| SpanExtensions.ConcatValue | Standard/src/Extra/Memory/SpanExtensions.cs:536-542 | the span followed by the value |
| SpanExtensions.Join1 | Standard/src/Extra/Memory/SpanExtensions.cs:552-559 | the two parts with the delimiter between them |
| SpanExtensions.Join2 | Standard/src/Extra/Memory/SpanExtensions.cs:561-570 | the three parts with one delimiter between neighbours |
| SpanExtensions.Join3 | Standard/src/Extra/Memory/SpanExtensions.cs:572-588 | the four parts with one delimiter between neighbours |
| SpanExtensions.Join4 | Standard/src/Extra/Memory/SpanExtensions.cs:590-609 | the five parts with one delimiter between neighbours |
| SpanExtensions.Join5 | Standard/src/Extra/Memory/SpanExtensions.cs:611-633 | the six parts with one delimiter between neighbours |
| SpanExtensions.JoinUnfold2 | Standard/src/Extra/Memory/SpanExtensions.cs:561-570 | joining three parts is the parts with the delimiter written out between them |
| ArrayExtensions.AsSegment | Standard/src/Extra/Arrays/ArrayExtensions.cs:42-57 | a negative start or length or a window past the end throws ArgumentOutOfRange; otherwise a segment of the same array over that window |
| ArrayExtensions.AsSegmentAll | Standard/src/Extra/Arrays/ArrayExtensions.cs:13-14 | a segment over the whole array |
| ArrayExtensions.AsSegmentFrom | Standard/src/Extra/Arrays/ArrayExtensions.cs:23-24 | for a start in range, a segment over the rest, which after the prefix rebuilds the array; any other start throws ArgumentOutOfRange |
| ArrayExtensions.Concat2 | Standard/src/Extra/Arrays/ArrayExtensions.cs:66-67 | the source followed by the array |
| ArrayExtensions.Concat3 | Standard/src/Extra/Arrays/ArrayExtensions.cs:77-79 | the source followed by the two arrays |
| ArrayExtensions.ConcatMany | Standard/src/Extra/Arrays/ArrayExtensions.cs:89-103 | the source followed by every array in order |
| ArrayExtensions.Clear | Standard/src/Extra/Arrays/ArrayExtensions.cs:113-125 | as written: succeeds exactly when index >= 0 and, for a negative length, index == 0, or index + length <= Length; the range becomes default |
| ArrayExtensions.ClearFixed | Standard/src/Extra/Arrays/ArrayExtensions.cs:113-125 | corrected: a negative length clears from index to the end for any index in [0, Length] |
| ArrayExtensions.ClearToEndFails | Standard/src/Extra/Arrays/ArrayExtensions.cs:113-125 | clearing [1, 2, 3] from 1 to the end throws IndexOutOfRange as written and gives [1, default, default] corrected |
| ArrayExtensions.ClearFixedAgreesWithArrayOps | Standard/src/Extra/Arrays/ArrayExtensions.cs:113-125 | corrected Clear succeeds exactly when ArrayOps.Clear does and gives the same array |
| ArrayExtensions.EqualTo | Standard/src/Extra/Arrays/ArrayExtensions.cs:134-135 | with the default comparer, equal iff both null or both non-null with the same elements |
| ArrayExtensions.EqualToWith | Standard/src/Extra/Arrays/ArrayExtensions.cs:145-146 | equal iff the same reference, or of one length with every pair equal by the comparer |
| ArrayExtensions.EqualToBy | Standard/src/Extra/Arrays/ArrayExtensions.cs:156-168 | equal iff the same reference, or of one length with every pair comparing to zero |
| ArrayExtensions.CopyFrom | Standard/src/Extra/Arrays/ArrayExtensions.cs:180-192 | an index outside [0, Length) throws ArgumentOutOfRange; otherwise the elements from index, which after the prefix rebuild the source |
| ArrayExtensions.Copy | Standard/src/Extra/Arrays/ArrayExtensions.cs:206-220 | succeeds exactly for an index in [0, Length) and a length in [0, Length - index]; the copy holds that window |
| ArrayExtensions.CopyTo | Standard/src/Extra/Arrays/ArrayExtensions.cs:240-258 | the window of the source replaces the head of the destination, which keeps its tail; out-of-range bounds throw ArgumentOutOfRange |
| ArrayExtensions.CopyToAt | Standard/src/Extra/Arrays/ArrayExtensions.cs:279-294 | the window of the source replaces the destination at destinationIndex, the rest kept; the exact error for each bad bound |
| ArrayExtensions.CopyToAgrees | Standard/src/Extra/Arrays/ArrayExtensions.cs:240-294 | copying to destination index 0 is the four-argument CopyTo |
| ArrayExtensions.Slice | Standard/src/Extra/Arrays/ArrayExtensions.cs:322-334 | a window in range or ArgumentOutOfRange; prefix, slice and suffix rebuild the array |
| ArrayExtensions.SliceFrom | Standard/src/Extra/Arrays/ArrayExtensions.cs:303-304 | for a start in range, the span that after the prefix rebuilds the array; any other start throws ArgumentOutOfRange |
| ArrayExtensions.SliceMatchesSegment | Standard/src/Extra/Arrays/ArrayExtensions.cs:322-334 | a slice and a segment over the same window succeed together and see the same elements |
| ArrayExtensions.Step | Standard/src/Extra/Arrays/ArrayExtensions.cs:364-381 | ArrayTraverse.Step moves to the position whose rank (first index varying fastest) is one more, and reports false only at the last position, which it leaves as is |
| ArrayExtensions.CarryIncrements | Standard/src/Extra/Arrays/ArrayExtensions.cs:366-378 | resetting the saturated lower dimensions and bumping the next one adds one to the rank |
| ArrayExtensions.LastPosition | Standard/src/Extra/Arrays/ArrayExtensions.cs:364-381 | a position where every index is at its maximum is the last one |
| ArrayExtensions.FirstPosition | Standard/src/Extra/Arrays/ArrayExtensions.cs:351-360 | the all-zero starting position has rank zero |
| ArrayExtensions.RankBound | Standard/src/Extra/Arrays/ArrayExtensions.cs:364-381 | every valid position's rank lies in [0, element count) |
| ArrayExtensions.ForEach | Standard/src/Extra/Arrays/ArrayExtensions.cs:336-344 | the action is called once per element, on the positions in rank order with the first index varying fastest, each valid; an empty array gets no call |
| ArrayExtensions.ZeroIsValid | Standard/src/Extra/Arrays/ArrayExtensions.cs:336-344 | a non-empty array's starting position is valid |
| ArrayExtensions.NonEmptyDimension | Standard/src/Extra/Arrays/ArrayExtensions.cs:336-344 | a non-empty array has no empty dimension |
| EnumerableExtensions.ToSpanLoop | Standard/src/Extra/Collections/EnumerableExtensions.cs:14-33 | the copy loop skips the first index items without advancing, and a call that skips leaves the destination as it is; the destination keeps its length |
| EnumerableExtensions.ToSpanLoopWrites | Standard/src/Extra/Collections/EnumerableExtensions.cs:14-33 | from the loop counter on, the loop writes as many items as fit before the counter reaches length - 1 or Length - 1, and leaves the rest of the destination |
| EnumerableExtensions.ToSpanWindow | Standard/src/Extra/Collections/EnumerableExtensions.cs:14-33 | as written: a positive index or non-positive length changes nothing; otherwise at most length - 1 items land at the start; an empty destination throws when there is something to write |
| EnumerableExtensions.ToSpanWindowFixed | Standard/src/Extra/Collections/EnumerableExtensions.cs:14-33 | corrected: the length items from index land at the start of the destination, as many as fit, and the rest is kept |
| EnumerableExtensions.ToSpanWindowExamples | Standard/src/Extra/Collections/EnumerableExtensions.cs:14-33 | copying [1, 2, 3] into three slots gives [1, 2, 0] as written and [1, 2, 3] corrected; from index 1 nothing is copied as written and [2, 3] corrected |
| EnumerableExtensions.ToSpanWindowFixedIsCopy | Standard/src/Extra/Collections/EnumerableExtensions.cs:14-33 | for a window inside the source that fits the destination, corrected ToSpan is the array CopyTo of that window |
| EnumerableExtensions.ToSpan | Standard/src/Extra/Collections/EnumerableExtensions.cs:35-74 | every branch yields the items in order |
| EnumerableExtensions.EqualToBy | Standard/src/Extra/Collections/EnumerableExtensions.cs:76-134 | equal iff both null, or both non-null of one length with every pair comparing to zero |
| EnumerableExtensions.EqualTo | Standard/src/Extra/Collections/EnumerableExtensions.cs:136-176 | equal iff both null, or both non-null of one length where each pair passes the IEquatable, IComparable and null-aware Equals checks in that order |
| EnumerableExtensions.LawfulAgreesWithEquality | Standard/src/Extra/Collections/EnumerableExtensions.cs:136-176 | for an element type whose comparisons all mean equality, the pairwise check holds exactly for equal sequences |
| DynamicList.BaseGet | Dynamic/src/DynamicList.cs:47 | the underlying List indexer: an index outside the list throws ArgumentOutOfRange |
| DynamicList.Get | Dynamic/src/DynamicList.cs:34-48 | as written: an index at or past Count reads default, an index in range reads its element, and every negative index throws, because Count - index lies past the end |
| DynamicList.GetFixed | Dynamic/src/DynamicList.cs:34-48 | corrected: a negative index above -Count counts from the end |
| DynamicList.NegativeIndexExample | Dynamic/src/DynamicList.cs:41-45 | index -1 of [10, 20, 30] throws as written and reads 30 corrected |
| DynamicList.GetFixedNegativeMirrors | Dynamic/src/DynamicList.cs:41-45 | corrected, index -k reads what index Count - k reads |
| DynamicList.Set | Dynamic/src/DynamicList.cs:50 | an index in range is replaced and nothing else changes; otherwise ArgumentOutOfRange |
| DynamicList.SetThenGet | Dynamic/src/DynamicList.cs:32-51 | reading an index just written gives the written value |
| DynamicList.MatchAll | Dynamic/src/DynamicList.cs:53-64 | true iff every element passes the predicate |
| DynamicList.MatchOne | Dynamic/src/DynamicList.cs:66-77 | true iff some element passes the predicate |
| DynamicList.ConvertAll | Dynamic/src/DynamicList.cs:79-80 | a list of the same length with each element converted |
| DynamicList.Fill | Dynamic/src/DynamicList.cs:85-93 | the count is capped at Count and used as an end position, not a length; a negative start below that cap throws ArgumentOutOfRange; otherwise exactly the positions from start up to the cap take the value |
| DynamicList.FillAll | Dynamic/src/DynamicList.cs:82-83 | every element becomes the value |
| DynamicList.Pop | Dynamic/src/DynamicList.cs:95-104 | an empty list gives default and stays empty; otherwise the last element, removed |
| DynamicList.PopUndoesAdd | Dynamic/src/DynamicList.cs:95-104 | Pop takes back the element just added |
| DynamicList.Reduce | Dynamic/src/DynamicList.cs:106-115 | the left fold of the reducer over the list from the seed |
| DynamicList.Reduce1 | Dynamic/src/DynamicList.cs:117-129 | an empty list gives default; otherwise the left fold from the first element over the rest |
| DynamicList.FoldLeftAppend | Dynamic/src/DynamicList.cs:106-129 | folding over two lists is folding over the second from the first's result |
| DynamicList.ReduceSeedInFront | Dynamic/src/DynamicList.cs:106-129 | reducing with a seed is reducing, without one, the list with the seed put in front |
| DynamicList.RemoveFirst | Dynamic/src/DynamicList.cs:131-141 | List.Remove: true iff the item occurs; then the list loses exactly the element at the first position holding the item and keeps the rest in order, so one copy leaves the multiset; otherwise the list is unchanged |
| DynamicList.RemoveRange | Dynamic/src/DynamicList.cs:131-141 | the remaining list is the multiset difference, and the result is true iff the list shared an element with the items |
| DynamicList.RemoveRangeAppend | Dynamic/src/DynamicList.cs:131-141 | removing a concatenation of items is removing the first part, then the second from what is left; true iff either part removed something |
| DynamicList.RemoveRangeLast | Dynamic/src/DynamicList.cs:131-141 | the items are removed in order: the result is the first-occurrence removal of the last item applied after removing all the others |
| HostPath.ExtensionBefore | Standard/src/Std/PathSpan.cs:66-73 | the backward scan for the extension: empty or a dot followed by non-dot, non-separator characters that end the path; empty only when the path ends in a dot or every dot is followed by a separator |
| HostPath.GetExtension | Standard/src/Std/PathSpan.cs:66-73 | Path.GetExtension as Extension() uses it: the same characterisation for the whole path |
| HostPath.ExtensionOfSuffix | Standard/src/Std/PathSpan.cs:66-73 | a path ending in a well-formed extension has that extension |
| PathSpan.Join1 | Standard/src/Std/PathSpan.cs:162-185 | an empty segment returns the path, an empty path returns the segment; otherwise one trailing separator of the path and one leading separator of the segment are dropped and one DirectorySeparator joins them |
| PathSpan.TrimSeparators | Standard/src/Std/PathSpan.cs:205-215 | a segment loses one leading and one trailing separator; a lone separator makes the slice throw ArgumentOutOfRange |
| PathSpan.Join2 | Standard/src/Std/PathSpan.cs:187-224 | the empty cases as Join1; otherwise succeeds exactly when path2 is non-empty and path1 is not a lone separator (IndexOutOfRange, ArgumentOutOfRange), giving path, path1 and path2 trimmed and joined with DirectorySeparator |
| PathSpan.TrimSecondAsWritten | Standard/src/Std/PathSpan.cs:258-268 | as written: when path2 ends but does not start with a separator, path1 is cut to path2's length minus one (throwing when that is longer than path1) and path2 keeps its separator; otherwise path2 is trimmed |
| PathSpan.Join3 | Standard/src/Std/PathSpan.cs:226-277 | as written: the empty cases as Join1, an empty path2 or path3 throws IndexOutOfRange, and whenever path2 does not end in a separator without starting with one the result is exactly that of the corrected Join3Fixed |
| PathSpan.Join3Fixed | Standard/src/Std/PathSpan.cs:226-277 | corrected: succeeds exactly when path2 and path3 are non-empty and neither path1 nor path2 is a lone separator; the four parts trimmed and joined |
| PathSpan.Join4 | Standard/src/Std/PathSpan.cs:279-348 | as written: the empty cases as Join1, an empty later segment throws IndexOutOfRange, and whenever path2 does not end in a separator without starting with one the result is exactly that of the corrected Join4Fixed |
| PathSpan.Join4Fixed | Standard/src/Std/PathSpan.cs:279-348 | corrected: the five parts trimmed and joined, with the exact acceptance condition |
| PathSpan.JoinPlain | Standard/src/Std/PathSpan.cs:162-224 | segments without separators at their ends are joined with exactly one separator |
| PathSpan.SeamSeparatorOnce | Standard/src/Std/PathSpan.cs:162-185 | a separator at the seam, on either side or both, appears once in the result |
| PathSpan.Join2IsJoinTwice | Standard/src/Std/PathSpan.cs:162-224 | joining two segments is joining one and then the other |
| PathSpan.Join3FixedIsJoinThrice | Standard/src/Std/PathSpan.cs:226-277 | corrected three-segment join is joining one segment at a time |
| PathSpan.Join3SecondSegment | Standard/src/Std/PathSpan.cs:265-268 | as written, a path2 with only a trailing separator cuts path1 to path2's length (or throws) and keeps the separator; corrected, the segments join whole |
| PathSpan.Join4SecondSegment | Standard/src/Std/PathSpan.cs:324-327 | the same defect in the four-segment join, and its correction |
| PathSpan.ChangeExtension | Standard/src/Std/PathSpan.cs:75-89 | the current extension (possibly empty) is replaced by the new one |
| PathSpan.ChangeExtensionSets | Standard/src/Std/PathSpan.cs:75-89 | after the change the path's extension is the new one |
| PathSpan.ChangeExtensionTwice | Standard/src/Std/PathSpan.cs:75-89 | changing the extension twice is changing it once to the second |
| PathBuf.LastIndexOf | Standard/src/Std/PathBuf.cs:99-115 | the last position of the character, or -1 when it does not occur |
| PathBuf.Empty | Standard/src/Std/PathBuf.cs:13-16 | a new buffer holds the empty path |
| PathBuf.FromSpan | Standard/src/Std/PathBuf.cs:18-21 | as written: the path is copied into the buffer but Length stays 0, so the buffer reads as empty |
| PathBuf.FromSpanFixed | Standard/src/Std/PathBuf.cs:18-21 | corrected: the buffer reads as the path |
| PathBuf.ToString | Standard/src/Std/PathBuf.cs:94-97 | exactly the first Length characters of the buffer |
| PathBuf.Resize | Standard/src/Std/PathBuf.cs:117-126 | as written: when Length + growth reaches the capacity the capacity doubles, whatever the growth; the content is kept |
| PathBuf.ResizeFixed | Standard/src/Std/PathBuf.cs:117-126 | corrected: the capacity grows to at least Length + growth, keeping the content |
| PathBuf.Add | Standard/src/Std/PathBuf.cs:34-39 | as written: the path is copied after Length when it fits the resized buffer (else ArgumentException), but Length is not updated, so the content reads unchanged |
| PathBuf.AddFixed | Standard/src/Std/PathBuf.cs:34-39 | corrected: the content becomes the old content followed by the path |
| PathBuf.Join | Standard/src/Std/PathBuf.cs:41-49 | as written: succeeds exactly when separator and path fit the doubled capacity, with IndexOutOfRange when even the separator does not; then the content is followed by DirectorySeparator and the path |
| PathBuf.JoinFixed | Standard/src/Std/PathBuf.cs:41-49 | corrected: always the content, DirectorySeparator and the path |
| PathBuf.GetExtensionSpan | Standard/src/Std/PathBuf.cs:99-115 | as written: a suffix of the content, empty without a dot; without separators, a dot and no further dot |
| PathBuf.GetExtensionSpanFixed | Standard/src/Std/PathBuf.cs:99-115 | corrected: a suffix starting with the last dot and free of dots and separators, empty only when every dot is followed by a separator |
| PathBuf.GetExtension | Standard/src/Std/PathBuf.cs:63-86 | the string form of the extension span, with the same shape |
| PathBuf.ChangeExtension | Standard/src/Std/PathBuf.cs:68-77 | the buffer stays valid (see ChangeExtensionIsNoOp for what it does) |
| PathBuf.ChangeExtensionFixed | Standard/src/Std/PathBuf.cs:68-77 | corrected: with no extension the buffer is unchanged, otherwise the extension is replaced by the new one |
| PathBuf.ConstructorLosesPath | Standard/src/Std/PathBuf.cs:18-21 | a buffer built from "abc" reads as empty as written and as "abc" corrected |
| PathBuf.JoinOutgrowsDoubling | Standard/src/Std/PathBuf.cs:41-49 | joining "a" onto an empty buffer throws IndexOutOfRange and "cdefg" onto "ab" throws ArgumentException as written; corrected they give "/a" and "ab/cdefg" |
| PathBuf.AddIsLost | Standard/src/Std/PathBuf.cs:34-39 | adding "c" to "ab" succeeds yet reads "ab" as written and "abc" corrected |
| PathBuf.ExtensionAfterSeparator | Standard/src/Std/PathBuf.cs:99-115 | the extension of "a/b.txt" is "b.txt" as written (an index relative to the slice is used on the whole) and ".txt" corrected |
| PathBuf.CopyOntoItself | Standard/src/Std/PathBuf.cs:68-77 | copying a window of the buffer back to where it came from changes nothing |
| PathBuf.ChangeExtensionIsNoOp | Standard/src/Std/PathBuf.cs:68-77 | as written the extension's own characters are copied back in place, so the buffer is unchanged for every argument |
| PathBuf.JoinFixedAgreesWithPathSpan | Standard/src/Std/PathBuf.cs:41-49 | corrected join of plain segments agrees with PathSpan.Join(path1) |
| PathBuf.JoinAgreesWhenItSucceeds | Standard/src/Std/PathBuf.cs:41-49 | whenever the written Join succeeds it reads the same as the corrected one |
| FsPath.Resolve | Standard/src/Std/FsPath.cs:44-99 | a base that is not rooted throws InvalidOperation; "", "." and "./" give the base; "~" and "~/" give home; "~/x" and "./x" resolve x against home and base; ".." paths resolve against the base; another one-character path is combined but not normalised; any other path is normalised as is when rooted or when it starts with '.', '~' or a slash, and against the base otherwise |
| FsPath.DotSlashIsCurrent | Standard/src/Std/FsPath.cs:79-95 | a plain relative name resolves the same with or without a leading "./" |
| FsPath.TildeSlashIsHome | Standard/src/Std/FsPath.cs:73-95 | "~/name" resolves as name against home |
| FsPath.RootedIgnoresBase | Standard/src/Std/FsPath.cs:91-93 | a rooted path resolves the same against any base |
| FsPath.ShortNameNotNormalised | Standard/src/Std/FsPath.cs:55-63 | a one-character name other than '~' and '.' is combined with the base and not normalised |
| EnvVariables.Get | Standard/src/Std/Env.Variables.cs:18-21 | Some exactly when the variable is set, and the same answer for every spelling the system treats as the same name |
| EnvVariables.GetAll | Standard/src/Std/Env.Variables.cs:23-41 | a map with exactly the stored names, each holding the variable's value |
| EnvVariables.GetRequired | Standard/src/Std/Env.Variables.cs:43-50 | the value when the variable is set; otherwise InvalidOperationException |
| EnvVariables.Has | Standard/src/Std/Env.Variables.cs:52-55 | true exactly when the variable is set |
| EnvVariables.TryGet | Standard/src/Std/Env.Variables.cs:57-81 | true with the value when set; false with the empty string otherwise |
| EnvVariables.Remove | Standard/src/Std/Env.Variables.cs:83-86 | a valid name is no longer set afterwards and other variables are untouched; an invalid name throws ArgumentException |
| EnvVariables.Set | Standard/src/Std/Env.Variables.cs:138-141 | a valid name then reads the value, or is deleted when the value is empty or starts with NUL; other variables are untouched; an invalid name throws |
| EnvVariables.SetEach | Standard/src/Std/Env.Variables.cs:95-110 | the loop succeeds exactly when every pair it does not skip has a valid name, and the first invalid one throws ArgumentException |
| EnvVariables.SetAll | Standard/src/Std/Env.Variables.cs:88-136 | as written: with overwrite every pair is written; without it, pairs whose name is a key of the case-sensitive GetAll snapshot are skipped; fails exactly on an invalid name that is not skipped |
| EnvVariables.SetAllFixed | Standard/src/Std/Env.Variables.cs:88-136 | corrected: without overwrite a pair is skipped when its variable is set under the system's own name comparison |
| EnvVariables.SetEachEffect | Standard/src/Std/Env.Variables.cs:95-110 | for distinct valid pairs, each pair's variable holds its value unless skipped, and variables no pair names are untouched |
| EnvVariables.SetAllOverwrites | Standard/src/Std/Env.Variables.cs:93-100 | with overwrite, every pair's variable holds the pair's value |
| EnvVariables.SetAllFixedKeepsExisting | Standard/src/Std/Env.Variables.cs:103-110 | corrected, without overwrite a variable already set keeps its value and an unset one takes the pair's value |
| EnvVariables.SetEachSkipCongruence | Standard/src/Std/Env.Variables.cs:104-110 | two skip tests that agree on the pairs' names give the same loop |
| EnvVariables.SetAllAgreesOnUnix | Standard/src/Std/Env.Variables.cs:103-110 | where names compare exactly, the written and the corrected forms agree |
| EnvVariables.SetAllOverwritesOtherCaseOnWindows | Standard/src/Std/Env.Variables.cs:103-110 | on Windows, with "Path" = "x" set, Set({PATH: y}, overwrite: false) overwrites it with "y" as written and keeps "x" corrected |
| EnvPath.NonEmpty | Standard/src/Std/Env.Path.cs:41 | RemoveEmptyEntries keeps exactly the non-empty entries, in order |
| EnvPath.Without | Standard/src/Std/Env.Path.cs:63 | the Where filter keeps exactly the entries that are not the path ignoring case |
| EnvPath.InternalHasPath | Standard/src/Std/Env.Path.cs:67-87 | true iff some entry is the path, ignoring case on Windows and exactly elsewhere |
| EnvPath.GetPath | Standard/src/Std/Env.Path.cs:37-38 | the PATH variable ("Path" on Windows), which when set is non-empty and does not start with NUL |
| EnvPath.SplitPath | Standard/src/Std/Env.Path.cs:40-41 | the entries between PathSeparator characters, none empty and none containing the separator; no variable gives no entries |
| EnvPath.SetPath | Standard/src/Std/Env.Path.cs:43-50 | PATH then reads the value, or is deleted for a value the system does not store; every other variable is untouched |
| EnvPath.HasPath | Standard/src/Std/Env.Path.cs:52-55 | true iff some entry of SplitPath is the same directory |
| EnvPath.AddPath | Standard/src/Std/Env.Path.cs:12-35 | a present path changes nothing; on a blank PATH the path alone is stored; only PATH changes |
| EnvPath.RemovePath | Standard/src/Std/Env.Path.cs:57-65 | an absent path changes nothing; otherwise the entries that differ from it ignoring case are joined again in their original order (an empty or NUL-first result deletes the variable), so afterwards the path is absent, and only PATH changes |
| EnvPath.RemovePathKeepsOthers | Standard/src/Std/Env.Path.cs:57-65 | when no entry starts with NUL, the entries after removal are exactly the other entries, in order |
| EnvPath.SplitOnParts | Standard/src/Std/Env.Path.cs:40-41 | no piece of a split contains the separator |
| EnvPath.SplitOnAround | Standard/src/Std/Env.Path.cs:27-32 | splitting "a;b" is splitting a then b, so the interpolated list splits into its parts |
| EnvPath.SplitPathOfJoin | Standard/src/Std/Env.Path.cs:63-64 | storing the join of separator-free non-empty entries splits back into those entries |
| EnvPath.SplitPathOfSet | Standard/src/Std/Env.Path.cs:40-50 | after SetPath, SplitPath is the non-empty pieces of the stored value, or nothing when it is not stored |
| EnvPath.AddPathSplits | Standard/src/Std/Env.Path.cs:25-34 | for a new entry on a non-blank PATH, prepending puts it first and appending last, the other entries unchanged |
| EnvPath.AddPathHas | Standard/src/Std/Env.Path.cs:12-35 | after AddPath the entry is present |
| EnvPath.AddPathIdempotent | Standard/src/Std/Env.Path.cs:12-35 | adding an entry a second time, either way, changes nothing |
| EnvPath.WithoutAdded | Standard/src/Std/Env.Path.cs:63 | filtering out an entry just added, at either end, gives back the entries before |
| EnvPath.SplitPathOfEntries | Standard/src/Std/Env.Path.cs:63-64 | storing the join of valid entries splits back into exactly those entries |
| EnvPath.RemoveUndoesAdd | Standard/src/Std/Env.Path.cs:12-65 | removing an entry just added restores the entries of a PATH that did not hold it in any case |
| AppDirectory.FolderPath | Standard/src/Std/Env.AppDirectory.cs:35-324 | a folder kind outside the enumeration is ArgumentOutOfRange and every known kind has a path; off Windows the machine-wide and `Opt` folders are the fixed Unix paths with the application name, and the user temp folder sits under the home chosen by the sudo flag |
| AppDirectory.GetAppFolder | Standard/src/Std/Env.AppDirectory.cs:10-33 | an unknown folder kind fails with ArgumentOutOfRange before the option is looked at; an option other than None, DoNotVerify and Create fails with NotSupported; a directory is made exactly when the option is Create and the folder is missing; None gives the path only when it exists and the empty string otherwise |
| AppDirectory.OptFoldersUnderOpt | Standard/src/Std/Env.AppDirectory.cs:35-324 | off Windows every `Opt*` folder is a named sub-folder of the `Opt` folder |
| AppDirectory.MachineFolderIgnoresSudo | Standard/src/Std/Env.AppDirectory.cs:35-324 | the machine-wide folders do not depend on the sudo flag |
| AppDirectory.SudoSwapsHome | Standard/src/Std/Env.AppDirectory.cs:35-324 | off Windows the sudo flag replaces the home directory by the sudo user's for the cache, temp and downloads folders |
| AppDirectory.WindowsUsesSudoHomeOnlyForLocalFolders | Standard/src/Std/Env.AppDirectory.cs:35-324 | on Windows only the local bin, local share and downloads folders depend on the sudo flag |
| AppDirectory.OptionsAgreeOnExistingFolders | Standard/src/Std/Env.AppDirectory.cs:10-33 | for an existing folder the three options return the same result |
| VirtualEnv.Create | Standard/src/Virtual/VirtualEnvironment.cs:17-23 | construction fails with ArgumentError exactly when two names are equal ignoring case; otherwise every given variable reads back and the masker is kept |
| VirtualEnv.Get | Standard/src/Virtual/VirtualEnvironment.cs:77-80 | a value is found exactly when a stored name equals the asked name ignoring case |
| VirtualEnv.Has | Standard/src/Virtual/VirtualEnvironment.cs:82-83 | true exactly when `Get` finds a value |
| VirtualEnv.TryGet | Standard/src/Virtual/VirtualEnvironment.cs:121-131 | returns true with the value exactly when the variable is set, and false with null otherwise |
| VirtualEnv.SetIndexer | Standard/src/Virtual/VirtualEnvironment.cs:61-75 | after the assignment the name reads the assigned value, null meaning unset; other names and the masker are unchanged |
| VirtualEnv.Delete | Standard/src/Virtual/VirtualEnvironment.cs:88-89 | the name is no longer set; other names and the masker are unchanged |
| VirtualEnv.Set | Standard/src/Virtual/VirtualEnvironment.cs:106-109 | the name reads the value; other names and the masker are unchanged |
| VirtualEnv.SetSecret | Standard/src/Virtual/VirtualEnvironment.cs:111-119 | the name reads the value; the value is appended to the masker exactly when it is secret |
| VirtualEnv.List | Standard/src/Virtual/VirtualEnvironment.cs:85-86 | the copy holds the same names, case-insensitively, and each reads the environment's value |
| VirtualEnv.ExpandOptions | Standard/src/Virtual/VirtualEnvironment.cs:97-104 | both callbacks are present; a callback the caller gave is kept and a missing one reads or writes this environment |
| VirtualEnv.ExpandOptionsIsStable | Standard/src/Virtual/VirtualEnvironment.cs:99-101 | the `??=` assignments only fill what is missing: expanding already expanded options changes nothing |
| VirtualEnv.ExpandedSetIsSeenByGet | Standard/src/Virtual/VirtualEnvironment.cs:100-101 | a variable written through the default setter is read back by the default getter of the environment the write produced |
| VirtualEnv.GetIgnoresCase | Standard/src/Virtual/VirtualEnvironment.cs:77-80 | names equal ignoring case read the same variable |
| VirtualEnv.DeleteUndoesSet | Standard/src/Virtual/VirtualEnvironment.cs:88-109 | deleting a name just set, when it was unset, restores the environment |
| VirtualEnv.IndexerIsSetOrDelete | Standard/src/Virtual/VirtualEnvironment.cs:61-75 | the indexer with a value is `Set` and with null is `Delete` |
| VirtualEnv.SecretOnlyAddsToMasker | Standard/src/Virtual/VirtualEnvironment.cs:106-119 | a secret set stores the same variables as a plain set and adds one masked value |
| VirtualEnv.CreateRejectsCaseDuplicates | Standard/src/Virtual/VirtualEnvironment.cs:17-23 | two names that differ only in case make the constructor fail |
| ScopeBag.Empty | Extensions.Logging.Abstractions/src/ScopeBag.cs:8 | a new bag reads null for every name |
| ScopeBag.Get | Extensions.Logging.Abstractions/src/ScopeBag.cs:10-18 | a stored name, in any case, reads its value and a missing name reads null |
| ScopeBag.Set | Extensions.Logging.Abstractions/src/ScopeBag.cs:40-44 | the name reads the value afterwards and names that differ ignoring case are unchanged |
| ScopeBag.Remove | Extensions.Logging.Abstractions/src/ScopeBag.cs:27-30 | the name is gone and other names are unchanged |
| ScopeBag.RemoveAll | Extensions.Logging.Abstractions/src/ScopeBag.cs:32-38 | every listed name is gone and names matching none of them are unchanged |
| ScopeBag.WithUser | Extensions.Logging.Abstractions/src/ScopeBag.cs:58-62 | `user` reads the user name and nothing else changes |
| ScopeBag.WithUserId | Extensions.Logging.Abstractions/src/ScopeBag.cs:75-79 | `userId` reads the id and nothing else changes |
| ScopeBag.WithOs | Extensions.Logging.Abstractions/src/ScopeBag.cs:64-73 | `os.type` always reads the platform, `os.version` and `os.name` change only when given, and nothing else changes |
| ScopeBag.WithDictionary | Extensions.Logging.Abstractions/src/ScopeBag.cs:105-113 | names not in the dictionary are unchanged |
| ScopeBag.ToDictionary | Extensions.Logging.Abstractions/src/ScopeBag.cs:115-118 | the copy holds exactly the stored names with their values |
| ScopeBag.OsKeysDiffer | Extensions.Logging.Abstractions/src/ScopeBag.cs:64-73 | the three `os.*` names differ ignoring case, so writing one never overwrites another |
| ScopeBag.WithDictionaryLastWins | Extensions.Logging.Abstractions/src/ScopeBag.cs:105-113 | a name holds the value of the last entry naming it in any case |
| ScopeBag.SetIsIdempotent | Extensions.Logging.Abstractions/src/ScopeBag.cs:40-44 | setting the same value twice is setting it once |
| ScopeBag.ToDictionaryIsCaseSensitive | Extensions.Logging.Abstractions/src/ScopeBag.cs:115-118 | the copy is compared exactly, so a stored name in another case is missing from it though the bag finds it |
| TextReader.LineEnd | Standard/src/Extra/IO/TextReaderExtensions.cs:9-39 | the line ends at the first `\r` or `\n` from the cursor, or at the end of the input |
| TextReader.ReadLine | Standard/src/Extra/IO/TextReaderExtensions.cs:9-39 | the line is the input from the cursor, holds no terminator, and the cursor moves past it |
| TextReader.ReadLineAsArray | Standard/src/Extra/IO/TextReaderExtensions.cs:9-39 | the loop computes the reference reading: the line, then the cursor after `\r`, `\n` or `\r\n`, or at the end of the input |
| TextReader.LineEndAt | Standard/src/Extra/IO/TextReaderExtensions.cs:9-39 | the first terminator from the cursor is where the line ends |
| TextReader.ReadLineOfTerminated | Standard/src/Extra/IO/TextReaderExtensions.cs:9-39 | a line followed by any terminator reads back as that line with the cursor after the terminator |
| TextReader.ReadLineAtEnd | Standard/src/Extra/IO/TextReaderExtensions.cs:9-39 | unterminated last characters read back as a line ending at the end of the input |
| TextReader.EmptyLineLooksLikeEnd | Standard/src/Extra/IO/TextReaderExtensions.cs:9-39 | an empty line and an exhausted reader both give an empty array and differ only in the cursor |
| StartInfo.Default | Standard/src/Std/CommandStartInfo.cs:14-44 | a new start info creates no window, does not use the shell or the user profile, and has no arguments, directory, environment, user, verb or redirects |
| StartInfo.StdOutRedirects | Standard/src/Std/CommandStartInfo.cs:46-55 | the captures list reads empty until one is added |
| StartInfo.StdErrorRedirects | Standard/src/Std/CommandStartInfo.cs:57-66 | the error captures list reads empty until one is added |
| StartInfo.RedirectTo | Standard/src/Std/CommandStartInfo.cs:68-73 | the capture is appended to the output captures and nothing else changes |
| StartInfo.RedirectErrorTo | Standard/src/Std/CommandStartInfo.cs:75-80 | the capture is appended to the error captures and nothing else changes |
| StartInfo.WithStdio | Standard/src/Std/CommandStartInfoExtensions.cs:12-18 | all three streams take the value and nothing else changes |
| StartInfo.WithStdIn | Standard/src/Std/CommandStartInfoExtensions.cs:20-24 | only the input stream changes |
| StartInfo.WithStdOut | Standard/src/Std/CommandStartInfoExtensions.cs:26-30 | only the output stream changes |
| StartInfo.WithStdErr | Standard/src/Std/CommandStartInfoExtensions.cs:32-36 | only the error stream changes |
| StartInfo.WithArgs | Standard/src/Std/CommandStartInfoExtensions.cs:38-54 | only the arguments change, to those given |
| StartInfo.AddArg | Standard/src/Std/CommandStartInfoExtensions.cs:125-129 | the argument is appended and nothing else changes |
| StartInfo.AsUser | Standard/src/Std/CommandStartInfoExtensions.cs:56-60 | only the user changes |
| StartInfo.AsUserWithPassword | Standard/src/Std/CommandStartInfoExtensions.cs:63-123 | off Windows the call fails with PlatformNotSupported; on Windows it sets the user, the clear-text or secure password by kind, and the domain when given, and nothing else |
| StartInfo.WithVerb | Standard/src/Std/CommandStartInfoExtensions.cs:149-153 | only the verb changes |
| StartInfo.AsSudo | Standard/src/Std/CommandStartInfoExtensions.cs:131-135 | the verb becomes `sudo` and nothing else changes |
| StartInfo.AsAdmin | Standard/src/Std/CommandStartInfoExtensions.cs:137-141 | the verb becomes `runas` and nothing else changes |
| StartInfo.AsOsAdmin | Standard/src/Std/CommandStartInfoExtensions.cs:143-147 | the verb becomes `admin` and nothing else changes |
| StartInfo.AddEnv | Standard/src/Std/CommandStartInfoExtensions.cs:155-160 | the environment exists afterwards, the key holds the value, other keys are kept, and nothing else changes |
| StartInfo.WithEnv | Standard/src/Std/CommandStartInfoExtensions.cs:162-171 | the environment exists afterwards and its names are the old ones plus the given ones; names not given keep their values and nothing else changes |
| StartInfo.NamesOf | Standard/src/Std/CommandStartInfoExtensions.cs:162-171 | every given name is in the set |
| StartInfo.NotNamed | Standard/src/Std/CommandStartInfoExtensions.cs:162-171 | a name no pair carries is not in the set |
| StartInfo.Merge | Standard/src/Std/CommandStartInfoExtensions.cs:162-171 | the merged names are the old ones plus the given ones, and names not given keep their values |
| StartInfo.MergeLastWins | Standard/src/Std/CommandStartInfoExtensions.cs:162-171 | a given name holds the value of its last pair |
| StartInfo.WithEnvLastWins | Standard/src/Std/CommandStartInfoExtensions.cs:162-171 | after `WithEnv` a given name holds the value of its last pair |
| StartInfo.WithShellExecute | Standard/src/Std/CommandStartInfoExtensions.cs:173-177 | only the shell-execute flag changes |
| StartInfo.WithWindow | Standard/src/Std/CommandStartInfoExtensions.cs:179-183 | a window is created exactly when asked for, and nothing else changes |
| StartInfo.WithCwd | Standard/src/Std/CommandStartInfoExtensions.cs:185-189 | only the working directory changes |
| StartInfo.WithWorkingDirectory | Standard/src/Std/CommandStartInfoExtensions.cs:191-192 | only the working directory changes, to the one given, as with `WithCwd` |
| StartInfo.WithStdioIsEachStream | Standard/src/Std/CommandStartInfoExtensions.cs:12-36 | setting all streams at once is setting each in turn |
| StartInfo.VerbsAreWithVerb | Standard/src/Std/CommandStartInfoExtensions.cs:131-153 | the three named verbs are `WithVerb` with `sudo`, `runas` and `admin` |
| StartInfo.WithEnvIsAddEnvEach | Standard/src/Std/CommandStartInfoExtensions.cs:155-171 | `WithEnv` is `AddEnv` once per pair, in order |
| StartInfo.AddEnvEach | Standard/src/Std/CommandStartInfoExtensions.cs:155-160 | a non-empty list of pairs leaves an environment behind |
| StartInfo.RedirectsOnlyGrow | Standard/src/Std/CommandStartInfo.cs:68-80 | setting the streams does not drop captures, and each redirect appends to its own list only |
| StartInfo.PasswordNeedsWindows | Standard/src/Std/CommandStartInfoExtensions.cs:63-123 | every password overload fails off Windows |

## Left out

- `ArrayOps.Rent` and `ArrayOps.Return` use the shared `ArrayPool`, whose reuse of buffers is process state.
- `SpanOps.ConvertToString` and `AsString` depend on text encodings.
- The `NETLEGACY` branches are not modelled; only the modern target's code is.
- When a .NET primitive throws after part of a destination span was written, the model returns only the error, not the partially written span.
- EnvVariables.SetEach: when a later name is invalid, the source has already written the earlier pairs to the process environment before it throws; the model returns only the error and does not promise what the environment holds afterwards.
- EnvVariables.SetAll: the same partial writes before an invalid name throws are not modelled, since it runs through `SetEach`.
- Lengths are unbounded: the 32-bit `int` overflow of a length computation such as `Length + amount` is not modelled (the `Array.MaxLength` limit that `Grow` and `Shrink` check is).
- `null` arrays, spans and enumerables, with their `ArgumentNullException`s, are not modelled; a sequence is never null.
- `EqualityComparer<T>.Default` is Dafny `==`; custom comparers are functions passed in.
- `DynamicList`'s dynamic-language forwarding (`GetMetaObject`, `ForwardingDynamicList`) and its constructors are reflection, not list logic.
- `EnumerableExtensions.ToHashSet` depends on hashing and a comparer's equality over a set implementation.
- `ScopeBag.StartedAt`, `EndedAt`, `WithHttpResponse`, `WithStopwatch` and `ToStringDictionary` read the clock, an HTTP response, a stopwatch or an object's `ToString`.
- Case folding is ASCII only; .NET's ordinal-ignore-case comparison also folds other letters.
- `Env.Variables` members taking an `EnvironmentVariableTarget` other than the process are not modelled; the user and machine stores are Windows registry state.
- `PathSpan.ChangeExtension(string)`, `Dirname`, `Basename`, `Exists` and the file-system members are I/O or forwarders onto `System.IO.Path`.
- `PathBuf.CopyTo`, `EndsWith` and `StartsWith` forward to span methods of .NET.
- The `Splice` branches that follow a return are dead code.
- `Env.Expand`, the `EnvSubstitution` evaluator and the `.env` lexer and serializer are not part of this model; only the options `VirtualEnvironment.Expand` passes on are.
- `VirtualEnvironment`'s `Cwd`, OS flags, architecture, user and host names and special directories are host lookups.
- On Windows, `Env.AppDirectory` folders are combinations of `Environment.GetFolderPath`, `Path.Combine` and `Path.GetTempPath`; these are uninterpreted `Host` fields.
- `FsPath.Resolve(path)` reads the process's current directory; `Resolve(path, basePath)` is modelled with that directory as its base.
- `Stdio`, `CommandArgs` and `IProcessCapture` are not part of this model: a stream setting is its integer code, the argument list a sequence of strings, and a capture an id.
- `StartInfo.WithEnv` and `StartInfo.AddEnv` take the `Env` dictionary to compare names ordinally, as a dictionary created by `AddEnv` does.
- PathBuf.ChangeExtension: its ensures say only that the buffer stays valid; what it does, nothing, is the lemma `PathBuf.ChangeExtensionIsNoOp`.
- StartInfo.WithEnv: its ensures give the names and the untouched values; that the last pair for a name wins is the lemma `StartInfo.WithEnvLastWins`.
- ArrayExtensions.ForEach: the action is taken not to keep or change the position it is given. The source passes the walker's own `int[]`, which the next step overwrites in place; the model hands each call a fresh value, so an action that stores the array or writes into it is not modelled.
- VirtualEnv.ExpandOptions: the default callbacks are bound to a snapshot of the environment, and the setter returns the environment it produces instead of changing this one. In the source both are bound to the live environment, so a set is visible to a later get within one expansion; `ExpandedSetIsSeenByGet` states this only across a fresh expansion. The source also fills the caller's options object in place, while the model returns a new record.
- AppDirectory.FolderPath: its ensures give the literal Unix paths and the user temp folder; the other user folders and every Windows path are host combinations left to the body and the lemmas `SudoSwapsHome`, `MachineFolderIgnoresSudo` and `WindowsUsesSudoHomeOnlyForLocalFolders`.

## Findings

Each row pairs a member that follows the code as written, with a lemma that exhibits the difference, and a corrected member whose intended property is proved and which the rest of the model builds on.

| source | as written | input that shows it | evidently intended | confidence | as-written member | corrected member |
|---|---|---|---|---|---|---|
| Standard/src/Extra/Memory/SpanExtensions.cs:227-233 | `Insert(self, index, value)` allocates a copy of `self`'s length and inserts into it | `[1, 2]`, index 1, value 9: the copy is one element short, so the call throws | a copy one longer holding `self[..index] + [value] + self[index..]`, here `[1, 9, 2]` | high, not executed | SpanExtensions.InsertNewNeverSucceeds | SpanExtensions.InsertNewFixed |
| Standard/src/Extra/Memory/SpanExtensions.cs:179-225 | `InsertRange` rejects `index >= self.Length` | `[1, 2]`, index 2, items `[3]`: inserting at the end throws, and the branch for an index at the end is unreachable | an index equal to the length appends, giving `[1, 2, 3]` | medium, not executed | SpanExtensions.InsertRangeAtEnd | SpanExtensions.InsertRangeIntoFixed |
| Standard/src/Extra/Memory/SpanExtensions.cs:443-449 | `RemoveAt` returns `self[..index][(index + 1)..]` | any index in range, e.g. `[1, 2, 3]` and 1: the slice starts past the end of the one-element prefix and throws | `self[..index] + self[index + 1..]`, which undoes an insert at that index | high, not executed | SpanExtensions.RemoveAtRoundTrip | SpanExtensions.RemoveAtFixed |
| Standard/src/Extra/Arrays/ArrayExtensions.cs:113-125 | a negative length becomes `array.Length` | `[1, 2, 3]`, index 1, length -1: clearing 3 cells from index 1 throws | clear from `index` to the end, giving `[1, 0, 0]` | high, not executed | ArrayExtensions.ClearToEndFails | ArrayExtensions.ClearFixed |
| Standard/src/Extra/Collections/EnumerableExtensions.cs:14-33 | the copy loop stops one item early and never skips to `index` | `[1, 2, 3]` with index 0 and length 3 copies `[1, 2]`; with index 1 and length 2 it copies nothing | copy `length` items starting at `index`: `[1, 2, 3]` and `[2, 3]` | medium, not executed | EnumerableExtensions.ToSpanWindowExamples | EnumerableExtensions.ToSpanWindowFixed |
| Dynamic/src/DynamicList.cs:41-45 | a negative index reads `Count - index` | `[10, 20, 30]`, index -1: reads position 4 and throws | `Count + index`, counting from the end, giving 30 | high, not executed | DynamicList.NegativeIndexExample | DynamicList.GetFixed |
| Standard/src/Std/PathSpan.cs:265-268 | when `path2` ends in a separator, the 3-segment `Join` cuts `path1` to `path2`'s length less one | `path1` `"ab"`, `path2` `"c/"`: `path1` becomes `"a"` and `path2` keeps its separator | drop the separator from `path2` and keep `path1` | high, not executed | PathSpan.Join3SecondSegment | PathSpan.Join3Fixed |
| Standard/src/Std/PathSpan.cs:324-327 | the 4-segment `Join` repeats the same cut | the same `path1` and `path2` as the 3-segment form | drop the separator from `path2` and keep `path1` | high, not executed | PathSpan.Join4SecondSegment | PathSpan.Join4Fixed |
| Standard/src/Std/PathBuf.cs:18-21 | the constructor copies the path but leaves `Length` at 0 | `"abc"`: the buffer reads as the empty string | `Length` is the path's length, so the buffer reads `"abc"` | high, not executed | PathBuf.ConstructorLosesPath | PathBuf.FromSpanFixed |
| Standard/src/Std/PathBuf.cs:41-49 | `Join` grows by doubling the capacity once | joining `"a"` onto an empty buffer, whose capacity stays 0, throws; joining `"cdefg"` onto `"ab"` outgrows one doubling and throws | grow to at least the needed length: `"/a"` and `"ab/cdefg"` | high, not executed | PathBuf.JoinOutgrowsDoubling | PathBuf.JoinFixed |
| Standard/src/Std/PathBuf.cs:34-39 | `Add` copies the path but never updates `Length` | adding `"c"` to `"ab"`: the buffer still reads `"ab"` | `Length` grows by the added length, reading `"abc"` | high, not executed | PathBuf.AddIsLost | PathBuf.AddFixed |
| Standard/src/Std/PathBuf.cs:99-115 | the dot is searched for from the first separator on, and its index within that part is used on the whole buffer | `"a/b.txt"`: the extension comes out as `"b.txt"` | `".txt"` | high, not executed | PathBuf.ExtensionAfterSeparator | PathBuf.GetExtensionSpanFixed |
| Standard/src/Std/PathBuf.cs:68-77 | `ChangeExtension` computes a new span and discards it | any buffer and extension: the buffer is unchanged | the buffer holds the path with the new extension | high, not executed | PathBuf.ChangeExtensionIsNoOp | PathBuf.ChangeExtensionFixed |
| Standard/src/Std/Env.Variables.cs:103-110 | `Set(values, overwrite: false)` checks names against a case-sensitive snapshot of the environment | on Windows, with `Path` holding `"x"`, setting `PATH` to `"y"` without overwrite replaces `"x"` | keep every existing variable, whatever the case of its name | medium, not executed | EnvVariables.SetAllOverwritesOtherCaseOnWindows | EnvVariables.SetAllFixed |

=== FILE: app_directory.dfy ===
/** `Env.GetAppFolder`: where an application keeps a kind of folder, and
    whether the folder is checked for or created.

    The folder kinds are the integer values of the `AppFolder` enumeration,
    so a value outside it can be passed, as in C#. The system lookups
    (`Environment.GetFolderPath`, `Path.Combine`, `Path.GetTempPath`, the
    home directories) are fields of a `Host` and are not interpreted, and
    the file system is a predicate saying which directories exist.
 */
module AppDirectory {
  import opened Wrappers

  // `AppFolder` values.
  const Opt: int := 3000
  const GlobalBin: int := 1001
  const UserLocalBin: int := 1002
  const GlobalLocalBin: int := 1003
  const GlobalLocalShare: int := 1010
  const UserLocalShare: int := 1011
  const GlobalCache: int := 1020
  const UserCache: int := 1021
  const OptCache: int := 1022
  const GlobalConfig: int := 1030
  const UserConfig: int := 1031
  const OptConfig: int := 1032
  const GlobalLogs: int := 1040
  const UserLogs: int := 1041
  const OptLogs: int := 1042
  const GlobalTemp: int := 1050
  const UserTemp: int := 1051
  const OptTemp: int := 1052
  const GlobalData: int := 1060
  const UserData: int := 1061
  const OptData: int := 1062
  const UserDocuments: int := 9000
  const UserDownloads: int := 9001
  const UserMusic: int := 9002
  const UserPictures: int := 9003
  const UserVideos: int := 9004

  // `EnvFolderOption` values.
  const NoOption: int := 0
  const DoNotVerify: int := 16384
  const Create: int := 32768

  /** The `Environment.SpecialFolder` values the table reads. */
  datatype SpecialFolder =
    | CommonApplicationData | ProgramFiles | CommonProgramFiles | LocalApplicationData
    | ApplicationData | MyDocuments | MyMusic | MyPictures | MyVideos

  datatype Host = Host(
    isWindows: bool,
    folderPath: SpecialFolder -> seq<char>,
    combine: seq<seq<char>> -> seq<char>,
    tempPath: seq<char>,
    home: seq<char>,
    sudoHome: seq<char>)

  predicate KnownFolder(folder: int) {
    folder in {Opt, GlobalBin, UserLocalBin, GlobalLocalBin, GlobalLocalShare, UserLocalShare,
               GlobalCache, UserCache, OptCache, GlobalConfig, UserConfig, OptConfig,
               GlobalLogs, UserLogs, OptLogs, GlobalTemp, UserTemp, OptTemp,
               GlobalData, UserData, OptData,
               UserDocuments, UserDownloads, UserMusic, UserPictures, UserVideos}
  }

  /** The folders shared by every user of the machine. */
  predicate MachineFolder(folder: int) {
    folder in {Opt, GlobalBin, GlobalLocalBin, GlobalLocalShare, GlobalCache, OptCache,
               GlobalConfig, OptConfig, GlobalLogs, OptLogs, GlobalTemp, OptTemp, GlobalData, OptData}
  }

  /** `GetAppFolderInternal(folder, applicationName, sudoUserHomeDirectory)`:
      an unknown folder throws ArgumentOutOfRangeException. Off Windows the
      machine-wide folders are fixed paths under `/opt`, `/usr`, `/var`,
      `/etc` and `/tmp`, and the user temp folder is under the home
      directory chosen by the sudo flag. */
  function FolderPath(host: Host, folder: int, app: seq<char>, sudo: bool): (r: Result<seq<char>>)
    ensures r.Ok? <==> KnownFolder(folder)
    ensures r.Err? ==> r.error == ArgumentOutOfRange
    ensures !host.isWindows && folder == Opt ==> r == Ok("/opt/" + app)
    ensures !host.isWindows && folder == GlobalBin ==> r == Ok("/usr/bin")
    ensures !host.isWindows && folder == GlobalLocalBin ==> r == Ok("/usr/local/bin")
    ensures !host.isWindows && folder == GlobalLocalShare ==> r == Ok("/usr/local/share/" + app)
    ensures !host.isWindows && folder == GlobalCache ==> r == Ok("/var/cache/" + app)
    ensures !host.isWindows && folder == GlobalConfig ==> r == Ok("/etc/" + app)
    ensures !host.isWindows && folder == GlobalLogs ==> r == Ok("/var/log/" + app)
    ensures !host.isWindows && folder == GlobalTemp ==> r == Ok("/tmp/" + app)
    ensures !host.isWindows && folder == GlobalData ==> r == Ok("/var/lib/" + app + "/data")
    ensures !host.isWindows && folder == UserTemp ==>
              r == Ok((if sudo then host.sudoHome else host.home) + "/.cache/" + app + "/tmp")
  {
    var w := host.isWindows;
    var common := host.folderPath(CommonApplicationData);
    var local := host.folderPath(LocalApplicationData);
    if folder == Opt then Ok(if w then host.combine([common, app]) else "/opt/" + app)
    else if folder == GlobalBin then Ok(if w then host.combine([host.folderPath(ProgramFiles), app, "bin"]) else "/usr/bin")
    else if folder == GlobalLocalBin then Ok(if w then host.combine([host.folderPath(CommonProgramFiles), "bin"]) else "/usr/local/bin")
    else if folder == UserLocalBin then
      Ok(if sudo then host.combine([host.sudoHome, ".local", "bin"]) else host.combine([local, "bin"]))
    else if folder == GlobalLocalShare then
      Ok(if w then host.combine([host.folderPath(CommonProgramFiles), app]) else "/usr/local/share/" + app)
    else if folder == UserLocalShare then
      Ok(if sudo then host.combine([host.sudoHome, ".local", "share", app]) else host.combine([local, app]))
    else if folder == GlobalCache then Ok(if w then host.combine([common, app, "cache"]) else "/var/cache/" + app)
    else if folder == UserCache then
      Ok(if w then host.combine([local, app, "cache"])
         else host.combine([if sudo then host.sudoHome else host.home, ".cache", app]))
    else if folder == OptCache then Ok(if w then host.combine([common, app, "cache"]) else "/opt/" + app + "/cache")
    else if folder == GlobalConfig then Ok(if w then host.combine([common, app, "etc"]) else "/etc/" + app)
    else if folder == UserConfig then
      Ok(if !sudo || w then host.combine([host.folderPath(ApplicationData), app])
         else host.combine([host.sudoHome, ".config", app]))
    else if folder == OptConfig then Ok(if w then host.combine([common, app, "etc"]) else "/opt/" + app + "/etc")
    else if folder == GlobalLogs then Ok(if w then host.combine([common, app, "log"]) else "/var/log/" + app)
    else if folder == UserLogs then
      Ok(if !sudo || w then host.combine([local, app, "logs"])
         else host.combine([host.sudoHome, ".local", "share", app, "logs"]))
    else if folder == OptLogs then Ok(if w then host.combine([common, app, "log"]) else "/opt/" + app + "/log")
    else if folder == GlobalTemp then Ok(if w then host.combine([common, "Temp", app]) else "/tmp/" + app)
    else if folder == UserTemp then
      Ok(if w then host.combine([host.tempPath, app])
         else (if sudo then host.sudoHome else host.home) + "/.cache/" + app + "/tmp")
    else if folder == OptTemp then Ok(if w then host.combine([common, "Temp", app]) else "/opt/" + app + "/tmp")
    else if folder == GlobalData then Ok(if w then host.combine([common, app, "data"]) else "/var/lib/" + app + "/data")
    else if folder == UserData then Ok(host.combine([local, app, "data"]))
    else if folder == OptData then Ok(if w then host.combine([common, app, "data"]) else "/opt/" + app + "/data")
    else if folder == UserDocuments then
      Ok(if !sudo || w then host.combine([host.folderPath(MyDocuments), app])
         else host.combine([host.sudoHome, "Documents", app]))
    else if folder == UserDownloads then
      Ok(host.combine([if sudo then host.sudoHome else host.home, "Downloads", app]))
    else if folder == UserMusic then Ok(host.combine([host.folderPath(MyMusic), app]))
    else if folder == UserPictures then
      Ok(if !sudo || w then host.combine([host.folderPath(MyPictures), app])
         else host.combine([host.sudoHome, "Pictures", app]))
    else if folder == UserVideos then
      Ok(if !sudo || w then host.combine([host.folderPath(MyVideos), app])
         else host.combine([host.sudoHome, "Videos", app]))
    else Err(ArgumentOutOfRange)
  }

  /** What `GetAppFolder` returns, and whether it asked for the directory to
      be made. */
  datatype Folder = Folder(path: seq<char>, made: bool)

  /** `GetAppFolder(folder, applicationName, sudoUserHomeDirectory, option)`:
      the folder kind is looked up first, then the option decides: the path
      as is (`DoNotVerify`), the path only if it exists and the empty string
      otherwise (`None`), or the path after making it if missing (`Create`);
      any other option throws NotSupportedException. */
  function GetAppFolder(host: Host, isDirectory: seq<char> -> bool, folder: int, app: seq<char>, sudo: bool, option: int)
    : (r: Result<Folder>)
    ensures !KnownFolder(folder) ==> r == Err(ArgumentOutOfRange)
    ensures KnownFolder(folder) ==> (r.Err? <==> option !in {NoOption, DoNotVerify, Create})
    ensures r.Err? && KnownFolder(folder) ==> r.error == NotSupported
    ensures r.Ok? ==> (r.value.made <==> option == Create && !isDirectory(FolderPath(host, folder, app, sudo).value))
    ensures r.Ok? && option == NoOption ==>
              r.value.path == if isDirectory(FolderPath(host, folder, app, sudo).value) then FolderPath(host, folder, app, sudo).value else []
    ensures r.Ok? && option != NoOption ==> r.value.path == FolderPath(host, folder, app, sudo).value
  {
    var dir :- FolderPath(host, folder, app, sudo);
    if option == DoNotVerify then Ok(Folder(dir, false))
    else if option == NoOption then Ok(Folder(if isDirectory(dir) then dir else [], false))
    else if option == Create then Ok(Folder(dir, !isDirectory(dir)))
    else Err(NotSupported)
  }

  // ------------------------------------------------------------------- laws

  /** Off Windows, every `Opt*` folder is a sub-folder of `Opt`. */
  lemma OptFoldersUnderOpt(host: Host, app: seq<char>, sudo: bool)
    requires !host.isWindows
    ensures FolderPath(host, OptCache, app, sudo).value == FolderPath(host, Opt, app, sudo).value + "/cache"
    ensures FolderPath(host, OptConfig, app, sudo).value == FolderPath(host, Opt, app, sudo).value + "/etc"
    ensures FolderPath(host, OptLogs, app, sudo).value == FolderPath(host, Opt, app, sudo).value + "/log"
    ensures FolderPath(host, OptTemp, app, sudo).value == FolderPath(host, Opt, app, sudo).value + "/tmp"
    ensures FolderPath(host, OptData, app, sudo).value == FolderPath(host, Opt, app, sudo).value + "/data"
  {
    assert FolderPath(host, Opt, app, sudo) == Ok("/opt/" + app);
    assert FolderPath(host, OptCache, app, sudo) == Ok("/opt/" + app + "/cache");
    assert FolderPath(host, OptConfig, app, sudo) == Ok("/opt/" + app + "/etc");
    assert FolderPath(host, OptLogs, app, sudo) == Ok("/opt/" + app + "/log");
    assert FolderPath(host, OptTemp, app, sudo) == Ok("/opt/" + app + "/tmp");
    assert FolderPath(host, OptData, app, sudo) == Ok("/opt/" + app + "/data");
  }

  /** Machine-wide folders do not depend on the sudo flag. */
  lemma MachineFolderIgnoresSudo(host: Host, folder: int, app: seq<char>)
    requires MachineFolder(folder)
    ensures FolderPath(host, folder, app, true) == FolderPath(host, folder, app, false)
  {
  }

  /** Off Windows, the sudo flag makes the home-relative folders use the sudo
      user's home in place of the current one. */
  lemma SudoSwapsHome(host: Host, folder: int, app: seq<char>)
    requires !host.isWindows && folder in {UserCache, UserTemp, UserDownloads}
    ensures FolderPath(host, folder, app, true) == FolderPath(host.(home := host.sudoHome), folder, app, false)
  {
  }

  /** On Windows only the folders that name the sudo home directly use it. */
  lemma WindowsUsesSudoHomeOnlyForLocalFolders(host: Host, folder: int, app: seq<char>)
    requires host.isWindows && KnownFolder(folder) && folder !in {UserLocalBin, UserLocalShare, UserDownloads}
    ensures FolderPath(host, folder, app, true) == FolderPath(host, folder, app, false)
  {
  }

  /** `Create` and `DoNotVerify` return the same path; `None` differs only
      when the folder is missing. */
  lemma OptionsAgreeOnExistingFolders(host: Host, isDirectory: seq<char> -> bool, folder: int, app: seq<char>, sudo: bool)
    requires KnownFolder(folder) && isDirectory(FolderPath(host, folder, app, sudo).value)
    ensures GetAppFolder(host, isDirectory, folder, app, sudo, NoOption)
            == GetAppFolder(host, isDirectory, folder, app, sudo, DoNotVerify)
            == GetAppFolder(host, isDirectory, folder, app, sudo, Create)
  {
  }
}

=== FILE: array_extensions.dfy ===
/** `ArrayExtensions`: extension methods on `T[]` (segments, copies, slices,
    clearing, comparisons) and the `ForEach` walk over every index of a
    multi-dimensional `Array`.

    Arrays are sequences and `dflt` stands for `default(T)`, as in `ArrayOps`;
    the `null` checks are not modelled because the model's arrays always exist.
 */
module ArrayExtensions {
  import opened Wrappers
  import opened Buffers
  import ArrayOps

  // ------------------------------------------------------------- segments

  /** `array.AsSegment(start, length)`. */
  function AsSegment<T>(a: seq<T>, start: int, length: int): (r: Result<ArrayOps.Segment<T>>)
    ensures r.Ok? <==> 0 <= start && 0 <= length && start + length <= |a|
    ensures r.Ok? ==> r.value.Valid() && r.value.source == a && r.value.View() == a[start..start + length]
    ensures r.Err? ==> r.error == ArgumentOutOfRange
  {
    if start < 0 then Err(ArgumentOutOfRange)
    else if length < 0 then Err(ArgumentOutOfRange)
    else if start + length > |a| then Err(ArgumentOutOfRange)
    else Ok(ArrayOps.Segment(a, start, length))
  }

  /** `array.AsSegment()`: the whole array. */
  function AsSegmentAll<T>(a: seq<T>): (r: ArrayOps.Segment<T>)
    ensures r.Valid() && r.source == a && r.View() == a
  {
    AsSegment(a, 0, |a|).value
  }

  /** `array.AsSegment(start)`: from `start` to the end. */
  function AsSegmentFrom<T>(a: seq<T>, start: int): (r: Result<ArrayOps.Segment<T>>)
    ensures r.Ok? <==> 0 <= start <= |a|
    ensures r.Ok? ==> r.value.Valid() && a[..start] + r.value.View() == a
    ensures r.Err? ==> r.error == ArgumentOutOfRange
  {
    AsSegment(a, start, |a| - start)
  }

  // --------------------------------------------------------------- concat

  /** `source.Concat(array1)`, forwarded to `ArrayOps.Concat`. */
  function Concat2<T>(source: seq<T>, a1: seq<T>, dflt: T): (r: seq<T>)
    ensures r == source + a1
  {
    ArrayOps.Concat2(source, a1, dflt)
  }

  /** `source.Concat(array1, array2)`, forwarded to `ArrayOps.Concat`. */
  function Concat3<T>(source: seq<T>, a1: seq<T>, a2: seq<T>, dflt: T): (r: seq<T>)
    ensures r == source + a1 + a2
  {
    ArrayOps.Concat3(source, a1, a2, dflt)
  }

  /** `source.Concat(params T[][] arrays)`: `source` first, then each array at
      a running offset. */
  method ConcatMany<T>(source: seq<T>, arrays: seq<seq<T>>, dflt: T) returns (r: seq<T>)
    ensures r == source + Flatten(arrays)
  {
    FlattenLength(arrays);
    r := Filled(TotalLength(arrays) + |source|, dflt);
    r := ArrayCopy(source, 0, r, 0, |source|).value;
    var offset := |source|;
    var k := 0;
    assert arrays[..0] == [];
    while k < |arrays|
      invariant 0 <= k <= |arrays|
      invariant offset == |source| + TotalLength(arrays[..k])
      invariant |r| == |source| + TotalLength(arrays)
      invariant offset <= |r|
      invariant r[..offset] == source + Flatten(arrays[..k])
    {
      FlattenSnoc(arrays, k);
      ArrayOps.PrefixTotalBound(arrays, k + 1);
      var copied := ArrayCopy(arrays[k], 0, r, offset, |arrays[k]|);
      assert r[..offset + |arrays[k]|][..offset] == r[..offset];
      r := copied.value;
      assert r[..offset] == source + Flatten(arrays[..k]);
      offset := offset + |arrays[k]|;
      k := k + 1;
    }
    assert arrays[..k] == arrays;
  }

  // ---------------------------------------------------------------- clear

  /** `array.Clear(index, length)` as written: a negative index throws
      ArgumentOutOfRangeException; a negative length (the default) is
      replaced by the whole array's length, not the length left after
      `index`, and `Array.Clear` then throws IndexOutOfRangeException for any
      positive index. */
  function Clear<T>(a: seq<T>, index: int, length: int, dflt: T): (r: Result<seq<T>>)
    ensures r.Ok? <==> (0 <= index && (if length < 0 then index == 0 else index + length <= |a|))
    ensures r.Ok? ==> |r.value| == |a|
    ensures r.Ok? ==> forall i :: 0 <= i < |a| ==>
      r.value[i] == (if index <= i && (length < 0 || i < index + length) then dflt else a[i])
    ensures r.Err? ==> r.error == (if index < 0 then ArgumentOutOfRange else IndexOutOfRange)
  {
    if index < 0 then Err(ArgumentOutOfRange)
    else
      var n := if length < 0 then |a| else length;
      ArrayClear(a, index, n, dflt)
  }

  /** `Clear` with the default length meaning "to the end of the array". */
  function ClearFixed<T>(a: seq<T>, index: int, length: int, dflt: T): (r: Result<seq<T>>)
    ensures r.Ok? <==> (0 <= index <= |a| && (length < 0 || index + length <= |a|))
    ensures r.Ok? ==> |r.value| == |a|
    ensures r.Ok? ==> forall i :: 0 <= i < |a| ==>
      r.value[i] == (if index <= i && (length < 0 || i < index + length) then dflt else a[i])
    ensures r.Err? ==> r.error == (if index < 0 then ArgumentOutOfRange else IndexOutOfRange)
  {
    if index < 0 then Err(ArgumentOutOfRange)
    else
      var n := if length < 0 then |a| - index else length;
      ArrayClear(a, index, n, dflt)
  }

  /** Clearing from index 1 to the end fails as written; the corrected form
      clears the tail. */
  lemma ClearToEndFails(dflt: int)
    ensures Clear([1, 2, 3], 1, -1, dflt) == Err(IndexOutOfRange)
    ensures ClearFixed([1, 2, 3], 1, -1, dflt) == Ok([1, dflt, dflt])
  {
    var r := ClearFixed([1, 2, 3], 1, -1, dflt).value;
    assert |r| == 3 && r[0] == 1 && r[1] == dflt && r[2] == dflt;
    assert r == [1, dflt, dflt];
  }

  /** The corrected `Clear` agrees with `ArrayOps.Clear`, whose default length
      of -1 already means "to the end". */
  lemma ClearFixedAgreesWithArrayOps<T>(a: seq<T>, index: int, length: int, dflt: T)
    requires length == -1 || length >= 0
    ensures ClearFixed(a, index, length, dflt).Ok? <==> ArrayOps.Clear(a, index, length, dflt).Ok?
    ensures ClearFixed(a, index, length, dflt).Ok? ==>
      ClearFixed(a, index, length, dflt).value == ArrayOps.Clear(a, index, length, dflt).value
  {
    var x := ClearFixed(a, index, length, dflt);
    var y := ArrayOps.Clear(a, index, length, dflt);
    if x.Ok? && y.Ok? {
      assert forall i :: 0 <= i < |a| ==> x.value[i] == y.value[i];
    }
  }

  // --------------------------------------------------------------- equal

  /** `array.EqualTo(other)`, forwarded to `ArrayOps.Equal`. */
  method EqualTo<T(==)>(a: ArrayOps.ArrayRef<T>, other: ArrayOps.ArrayRef<T>) returns (r: bool)
    requires ArrayOps.Coherent(a, other)
    ensures r <==> (a.Null? && other.Null?) || (a.Ref? && other.Ref? && a.items == other.items)
  {
    r := ArrayOps.Equal(a, other);
  }

  /** `array.EqualTo(other, IEqualityComparer<T>)`. */
  method EqualToWith<T>(a: ArrayOps.ArrayRef<T>, other: ArrayOps.ArrayRef<T>, equals: (T, T) -> bool) returns (r: bool)
    requires ArrayOps.Coherent(a, other)
    ensures r <==> ArrayOps.SameReference(a, other)
                   || (a.Ref? && other.Ref? && |a.items| == |other.items|
                       && forall i :: 0 <= i < |a.items| ==> equals(a.items[i], other.items[i]))
  {
    r := ArrayOps.EqualByEquality(a, other, equals);
  }

  /** `array.EqualTo(other, Comparison<T>)` and `array.EqualTo(other, IComparer<T>)`. */
  method EqualToBy<T>(a: ArrayOps.ArrayRef<T>, other: ArrayOps.ArrayRef<T>, compare: (T, T) -> int) returns (r: bool)
    requires ArrayOps.Coherent(a, other)
    ensures r <==> ArrayOps.SameReference(a, other)
                   || (a.Ref? && other.Ref? && |a.items| == |other.items|
                       && forall i :: 0 <= i < |a.items| ==> compare(a.items[i], other.items[i]) == 0)
  {
    r := ArrayOps.EqualByComparer(a, other, compare);
  }

  // ---------------------------------------------------------------- copies

  /** `source.Copy(index)`: a new array holding the elements from `index` on.
      The index must address an element, so copying from `Length` throws. */
  function CopyFrom<T>(source: seq<T>, index: int, dflt: T): (r: Result<seq<T>>)
    ensures r.Ok? <==> 0 <= index < |source|
    ensures r.Ok? ==> source[..index] + r.value == source
    ensures r.Err? ==> r.error == ArgumentOutOfRange
  {
    if index < 0 then Err(ArgumentOutOfRange)
    else if index >= |source| then Err(ArgumentOutOfRange)
    else
      var length := |source| - index;
      var destination := Filled(length, dflt);
      ArrayCopy(source, index, destination, 0, length)
  }

  /** `source.Copy(index, length)`: a negative length is not checked and
      makes `new T[length]` throw OverflowException. */
  function Copy<T>(source: seq<T>, index: int, length: int, dflt: T): (r: Result<seq<T>>)
    ensures r.Ok? <==> 0 <= index < |source| && 0 <= length <= |source| - index
    ensures r.Ok? ==> |r.value| == length && forall i :: 0 <= i < length ==> r.value[i] == source[index + i]
    ensures r.Err? ==> r.error == (if index < 0 || index >= |source| || length > |source| - index
                                   then ArgumentOutOfRange else Overflow)
  {
    if index < 0 then Err(ArgumentOutOfRange)
    else if index >= |source| then Err(ArgumentOutOfRange)
    else if length > |source| - index then Err(ArgumentOutOfRange)
    else
      var destination :- Alloc(length, dflt);
      ArrayCopy(source, index, destination, 0, length)
  }

  /** `source.CopyTo(destination, index, length)`: copies `length` elements
      from `index` to the start of `destination`. */
  function CopyTo<T>(source: seq<T>, destination: seq<T>, index: int, length: int): (r: Result<seq<T>>)
    ensures r.Ok? <==> 0 <= index && 0 <= length && index + length <= |source| && length <= |destination|
    ensures r.Ok? ==> r.value == source[index..index + length] + destination[length..]
    ensures r.Err? ==> r.error == ArgumentOutOfRange
  {
    if index < 0 then Err(ArgumentOutOfRange)
    else if length < 0 then Err(ArgumentOutOfRange)
    else if index + length > |source| || length > |destination| then Err(ArgumentOutOfRange)
    else ArrayCopy(source, index, destination, 0, length)
  }

  /** `source.CopyTo(destination, index, destinationIndex, length)`: the source
      window is checked here; the destination window is left to `Array.Copy`,
      so a destination too short throws ArgumentException. */
  function CopyToAt<T>(source: seq<T>, destination: seq<T>, index: int, destinationIndex: int, length: int): (r: Result<seq<T>>)
    ensures r.Ok? <==> (0 <= index && 0 <= length && index + length <= |source|
                        && 0 <= destinationIndex && destinationIndex + length <= |destination|)
    ensures r.Ok? ==> r.value == destination[..destinationIndex] + source[index..index + length]
                                 + destination[destinationIndex + length..]
    ensures r.Err? ==> r.error == (if index < 0 || length < 0 || index + length > |source| || destinationIndex < 0
                                   then ArgumentOutOfRange else ArgumentError)
  {
    if index < 0 then Err(ArgumentOutOfRange)
    else if length < 0 then Err(ArgumentOutOfRange)
    else if index + length > |source| then Err(ArgumentOutOfRange)
    else ArrayCopy(source, index, destination, destinationIndex, length)
  }

  /** Copying a window to offset 0 is the short `CopyTo`, whenever the long
      one succeeds. */
  lemma CopyToAgrees<T>(source: seq<T>, destination: seq<T>, index: int, length: int)
    ensures CopyToAt(source, destination, index, 0, length).Ok? <==> CopyTo(source, destination, index, length).Ok?
    ensures CopyTo(source, destination, index, length).Ok? ==>
      CopyToAt(source, destination, index, 0, length) == CopyTo(source, destination, index, length)
  {
  }

  // --------------------------------------------------------------- slices

  /** `array.Slice(start, length)`: a negative length passes the method's own
      checks and is rejected by `AsSpan`, also with ArgumentOutOfRangeException. */
  function Slice<T>(a: seq<T>, start: int, length: int): (r: Result<seq<T>>)
    ensures r.Ok? <==> 0 <= start && 0 <= length && start + length <= |a|
    ensures r.Ok? ==> a[..start] + r.value + a[start + length..] == a
    ensures r.Err? ==> r.error == ArgumentOutOfRange
  {
    if start < 0 then Err(ArgumentOutOfRange)
    else if start + length > |a| then Err(ArgumentOutOfRange)
    else
      var s :- SpanSlice(a, start, length);
      assert a[..start] + s + a[start + length..] == a;
      Ok(s)
  }

  /** `array.Slice(start)`. */
  function SliceFrom<T>(a: seq<T>, start: int): (r: Result<seq<T>>)
    ensures r.Ok? <==> 0 <= start <= |a|
    ensures r.Ok? ==> a[..start] + r.value == a
    ensures r.Err? ==> r.error == ArgumentOutOfRange
  {
    Slice(a, start, |a| - start)
  }

  /** An extension slice and a segment over the same window agree. */
  lemma SliceMatchesSegment<T>(a: seq<T>, start: int, length: int)
    ensures Slice(a, start, length).Ok? <==> AsSegment(a, start, length).Ok?
    ensures Slice(a, start, length).Ok? ==> Slice(a, start, length).value == AsSegment(a, start, length).value.View()
  {
    if Slice(a, start, length).Ok? {
      var s := Slice(a, start, length).value;
      assert a[..start] + s + a[start + length..] == a;
      assert |s| == length;
      assert s == a[start..start + length];
    }
  }

  // ------------------------------------------------------------- forEach

  /** The number of elements of an array with the given dimension lengths
      (`Array.LongLength`). */
  function Product(dims: seq<nat>): nat
  {
    if |dims| == 0 then 1 else dims[0] * Product(dims[1..])
  }

  /** An index tuple inside the array. */
  predicate ValidPosition(dims: seq<nat>, pos: seq<int>)
  {
    |pos| == |dims| && forall k :: 0 <= k < |dims| ==> 0 <= pos[k] < dims[k]
  }

  /** The index tuple read as a mixed-radix number whose first digit is the
      least significant (the first dimension varies fastest). */
  function Rank(dims: seq<nat>, pos: seq<int>): int
    requires |pos| == |dims|
  {
    if |dims| == 0 then 0 else pos[0] + dims[0] * Rank(dims[1..], pos[1..])
  }

  /** `ArrayTraverse.Step()`: advance the first coordinate that is below its
      maximum and reset the coordinates before it to zero; report `false`, and
      leave the position alone, when every coordinate is at its maximum. */
  method Step(dims: seq<nat>, position: seq<int>) returns (moved: bool, next: seq<int>)
    requires |position| == |dims|
    ensures |next| == |position|
    ensures !moved ==> next == position
    ensures ValidPosition(dims, position) && moved ==>
      ValidPosition(dims, next) && Rank(dims, next) == Rank(dims, position) + 1
    ensures ValidPosition(dims, position) && !moved ==> Rank(dims, position) == Product(dims) - 1
  {
    var i := 0;
    while i < |position|
      invariant 0 <= i <= |position|
      invariant forall k :: 0 <= k < i ==> position[k] + 1 >= dims[k]
    {
      if position[i] + 1 < dims[i] {
        next := Carried(position, i);
        if ValidPosition(dims, position) {
          CarryIncrements(dims, position, i);
        }
        return true, next;
      }
      i := i + 1;
    }
    if ValidPosition(dims, position) {
      LastPosition(dims, position);
    }
    return false, position;
  }

  /** The position with coordinate `i` bumped and the ones before it reset. */
  function Carried(pos: seq<int>, i: nat): (r: seq<int>)
    requires i < |pos|
    ensures |r| == |pos|
    ensures forall k :: 0 <= k < |pos| ==> r[k] == if k < i then 0 else if k == i then pos[i] + 1 else pos[k]
  {
    seq(|pos|, k requires 0 <= k < |pos| => if k < i then 0 else if k == i then pos[i] + 1 else pos[k])
  }

  /** Bumping coordinate `i` after a run of maximal coordinates adds one to
      the rank. */
  lemma {:induction false} CarryIncrements(dims: seq<nat>, pos: seq<int>, i: nat)
    requires ValidPosition(dims, pos) && i < |pos|
    requires forall k :: 0 <= k < i ==> pos[k] + 1 >= dims[k]
    requires pos[i] + 1 < dims[i]
    ensures ValidPosition(dims, Carried(pos, i)) && Rank(dims, Carried(pos, i)) == Rank(dims, pos) + 1
    decreases i
  {
    var next := Carried(pos, i);
    if i == 0 {
      assert next[1..] == pos[1..];
    } else {
      assert next[1..] == Carried(pos[1..], i - 1);
      CarryIncrements(dims[1..], pos[1..], i - 1);
      var t := Rank(dims[1..], pos[1..]);
      assert Rank(dims, next) == next[0] + dims[0] * (t + 1);
      CarryDigit(dims[0], pos[0], t);
    }
  }

  /** A maximal digit rolling over to zero carries one into the next. */
  lemma CarryDigit(d: int, p: int, t: int)
    requires p == d - 1
    ensures 0 + d * (t + 1) == p + d * t + 1
  {
  }

  /** A position with every coordinate at its maximum has the last rank. */
  lemma {:induction false} LastPosition(dims: seq<nat>, pos: seq<int>)
    requires ValidPosition(dims, pos)
    requires forall k :: 0 <= k < |pos| ==> pos[k] + 1 >= dims[k]
    ensures Rank(dims, pos) == Product(dims) - 1
  {
    if |dims| > 0 {
      LastPosition(dims[1..], pos[1..]);
      var p: int := Product(dims[1..]);
      assert dims[0] * (p - 1) == dims[0] * p - dims[0];
    }
  }

  /** The first position has rank zero. */
  lemma {:induction false} FirstPosition(dims: seq<nat>)
    ensures Rank(dims, seq(|dims|, _ => 0)) == 0
  {
    if |dims| > 0 {
      assert seq(|dims|, _ => 0)[1..] == seq(|dims| - 1, _ => 0);
      FirstPosition(dims[1..]);
    }
  }

  /** Every valid position's rank lies below the element count. */
  lemma {:induction false} RankBound(dims: seq<nat>, pos: seq<int>)
    requires ValidPosition(dims, pos)
    ensures 0 <= Rank(dims, pos) < Product(dims)
  {
    if |dims| > 0 {
      RankBound(dims[1..], pos[1..]);
      DigitBound(pos[0], dims[0], Rank(dims[1..], pos[1..]), Product(dims[1..]));
    }
  }

  /** One more mixed-radix digit keeps the number below the enlarged range. */
  lemma DigitBound(a: int, d: int, t: int, p: int)
    requires 0 <= a < d && 0 <= t < p
    ensures 0 <= a + d * t < d * p
  {
    ArrayOps.MultipleBound(0, t, d);
    ArrayOps.MultipleBound(t, p - 1, d);
    assert (p - 1) * d == p * d - d;
  }

  /** `array.ForEach(action)`: the positions handed to `action`, in order. An
      empty array calls it never; otherwise the walk starts at all zeros and
      calls it once more after every successful `Step`. The k-th position has
      rank k, so every index tuple is visited exactly once. */
  method ForEach(dims: seq<nat>) returns (visited: seq<seq<int>>)
    ensures |visited| == Product(dims)
    ensures forall k :: 0 <= k < |visited| ==> ValidPosition(dims, visited[k]) && Rank(dims, visited[k]) == k
  {
    visited := [];
    if Product(dims) == 0 {
      return;
    }
    var position := seq(|dims|, _ => 0);
    FirstPosition(dims);
    ZeroIsValid(dims);
    var moved := true;
    while moved
      invariant |position| == |dims|
      invariant moved ==> ValidPosition(dims, position) && Rank(dims, position) == |visited|
      invariant moved ==> |visited| < Product(dims)
      invariant !moved ==> |visited| == Product(dims)
      invariant forall k :: 0 <= k < |visited| ==> ValidPosition(dims, visited[k]) && Rank(dims, visited[k]) == k
      decreases Product(dims) - |visited|
    {
      visited := visited + [position];
      moved, position := Step(dims, position);
      if moved {
        RankBound(dims, position);
      }
    }
  }

  /** With no empty dimension, the all-zero tuple is a position. */
  lemma ZeroIsValid(dims: seq<nat>)
    requires Product(dims) > 0
    ensures ValidPosition(dims, seq(|dims|, _ => 0))
  {
    forall k | 0 <= k < |dims|
      ensures dims[k] > 0
    {
      NonEmptyDimension(dims, k);
    }
  }

  /** Every dimension of a non-empty array is non-empty. */
  lemma {:induction false} NonEmptyDimension(dims: seq<nat>, k: nat)
    requires Product(dims) > 0 && k < |dims|
    ensures dims[k] > 0
  {
    ZeroFactor(dims[0], Product(dims[1..]));
    if k > 0 {
      NonEmptyDimension(dims[1..], k - 1);
    }
  }

  lemma ZeroFactor(a: nat, b: nat)
    ensures a == 0 || b == 0 ==> a * b == 0
  {
  }
}

=== FILE: array_ops.dfy ===
/** `ArrayOps`: static helpers that treat a `T[]` as a growable list by
    replacing it (`ref T[] array`) with a fresh copy.

    Each operation returns the array the `ref` parameter holds afterwards (and
    the popped items where there are any), or the exception it throws. Every
    operation is written as the sequence of runtime steps the C# code performs
    (allocate, `Array.Copy`, `CopyTo`, element stores), and its contract states
    the resulting contents. `dflt` stands for `default(T)`. A `null` array is
    not modelled: the model's arrays always exist.
 */
module ArrayOps {
  import opened Wrappers
  import opened Buffers

  // ---------------------------------------------------------------- concat

  /** `Concat(array1, array2)`. */
  function Concat2<T>(a1: seq<T>, a2: seq<T>, dflt: T): (r: seq<T>)
    ensures r == a1 + a2
  {
    var result := Filled(|a1| + |a2|, dflt);
    var s1 := ArrayCopy(a1, 0, result, 0, |a1|).value;
    ArrayCopy(a2, 0, s1, |a1|, |a2|).value
  }

  /** `Concat(array1, array2, array3)`. */
  function Concat3<T>(a1: seq<T>, a2: seq<T>, a3: seq<T>, dflt: T): (r: seq<T>)
    ensures r == a1 + a2 + a3
  {
    var result := Filled(|a1| + |a2| + |a3|, dflt);
    var s1 := ArrayCopy(a1, 0, result, 0, |a1|).value;
    var s2 := ArrayCopy(a2, 0, s1, |a1|, |a2|).value;
    ArrayCopy(a3, 0, s2, |a1| + |a2|, |a3|).value
  }

  /** `Concat(params T[][] arrays)`: one `Array.Copy` per array at a running offset. */
  method ConcatAll<T>(arrays: seq<seq<T>>, dflt: T) returns (r: seq<T>)
    ensures r == Flatten(arrays)
  {
    FlattenLength(arrays);
    r := Filled(TotalLength(arrays), dflt);
    var offset := 0;
    var k := 0;
    while k < |arrays|
      invariant 0 <= k <= |arrays|
      invariant offset == TotalLength(arrays[..k])
      invariant |r| == TotalLength(arrays)
      invariant offset <= |r|
      invariant r[..offset] == Flatten(arrays[..k])
    {
      FlattenSnoc(arrays, k);
      PrefixTotalBound(arrays, k + 1);
      var copied := ArrayCopy(arrays[k], 0, r, offset, |arrays[k]|);
      assert r[..offset + |arrays[k]|][..offset] == r[..offset];
      r := copied.value;
      assert r[..offset] == Flatten(arrays[..k]);
      offset := offset + |arrays[k]|;
      k := k + 1;
    }
    assert arrays[..k] == arrays;
  }

  /** The arrays before index `k` take no more room than all of them. */
  lemma {:induction false} PrefixTotalBound<T>(arrays: seq<seq<T>>, k: nat)
    requires k <= |arrays|
    ensures TotalLength(arrays[..k]) <= TotalLength(arrays)
    decreases |arrays| - k
  {
    if k < |arrays| {
      FlattenSnoc(arrays, k);
      PrefixTotalBound(arrays, k + 1);
    } else {
      assert arrays[..k] == arrays;
    }
  }

  // ------------------------------------------------------------ pop / shift

  /** `Pop(ref array)`: removes and returns the last element; an empty array
      throws ArgumentException. */
  function Pop<T>(a: seq<T>, dflt: T): (r: Result<(T, seq<T>)>)
    ensures r.Ok? <==> |a| > 0
    ensures r.Ok? ==> r.value.1 + [r.value.0] == a
    ensures r.Err? ==> r.error == ArgumentError
  {
    if |a| == 0 then Err(ArgumentError)
    else
      var item := a[|a| - 1];
      var copy := Filled(|a| - 1, dflt);
      Ok((item, ArrayCopy(a, 0, copy, 0, |a| - 1).value))
  }

  /** `Shift(ref array)`: removes and returns the first element; an empty
      array throws ArgumentException. */
  function Shift<T>(a: seq<T>, dflt: T): (r: Result<(T, seq<T>)>)
    ensures r.Ok? <==> |a| > 0
    ensures r.Ok? ==> [r.value.0] + r.value.1 == a
    ensures r.Err? ==> r.error == ArgumentError
  {
    if |a| == 0 then Err(ArgumentError)
    else
      var item := a[0];
      var copy := Filled(|a| - 1, dflt);
      Ok((item, ArrayCopy(a, 1, copy, 0, |a| - 1).value))
  }

  /** `TryPop(ref array, out element)`: the flag, the element (`default` when
      there is none) and the array afterwards. */
  function TryPop<T>(a: seq<T>, dflt: T): (r: (bool, T, seq<T>))
    ensures r.0 <==> |a| > 0
    ensures r.0 ==> r.2 + [r.1] == a
    ensures !r.0 ==> r.1 == dflt && r.2 == a
  {
    if |a| == 0 then (false, dflt, a)
    else
      var copy := Filled(|a| - 1, dflt);
      (true, a[|a| - 1], ArrayCopy(a, 0, copy, 0, |a| - 1).value)
  }

  /** `TryShift(ref array, out element)`. */
  function TryShift<T>(a: seq<T>, dflt: T): (r: (bool, T, seq<T>))
    ensures r.0 <==> |a| > 0
    ensures r.0 ==> [r.1] + r.2 == a
    ensures !r.0 ==> r.1 == dflt && r.2 == a
  {
    if |a| == 0 then (false, dflt, a)
    else
      var copy := Filled(|a| - 1, dflt);
      (true, a[0], ArrayCopy(a, 1, copy, 0, |a| - 1).value)
  }

  /** `PopRange(ref array, count)`: removes the last `count` elements and returns
      them in their original order. An empty array or a count above the length
      throws ArgumentException; a negative count fails allocating `new T[count]`. */
  function PopRange<T>(a: seq<T>, count: int, dflt: T): (r: Result<(seq<T>, seq<T>)>)
    ensures r.Ok? <==> |a| > 0 && 0 <= count <= |a|
    ensures r.Ok? ==> |r.value.0| == count && r.value.1 + r.value.0 == a
    ensures r.Err? ==> r.error == (if |a| > 0 && count < 0 then Overflow else ArgumentError)
  {
    if |a| == 0 then Err(ArgumentError)
    else if count > |a| then Err(ArgumentError)
    else
      var items :- Alloc(count, dflt);
      var items' := ArrayCopy(a, |a| - count, items, 0, count).value;
      var copy := Filled(|a| - count, dflt);
      var copy' := ArrayCopy(a, 0, copy, 0, |a| - count).value;
      assert a == a[..|a| - count] + a[|a| - count..];
      Ok((items', copy'))
  }

  // ---------------------------------------------------------- resize family

  /** The largest array length the runtime allows (`Array.MaxLength`). */
  const MaxLength: int := 0x7FFF_FFC7

  /** `Resize(ref array, newSize)`: `Array.Resize`. */
  function Resize<T>(a: seq<T>, newSize: int, dflt: T): (r: Result<seq<T>>)
    ensures r.Ok? <==> newSize >= 0
    ensures r.Ok? ==> |r.value| == newSize
    ensures r.Ok? && newSize <= |a| ==> r.value == a[..newSize]
    ensures r.Ok? && newSize > |a| ==> r.value == a + Filled(newSize - |a|, dflt)
  {
    ArrayResize(a, newSize, dflt)
  }

  /** `Grow(ref array, amount)`: resizes to `Length + amount`, which must be
      between zero and `Array.MaxLength`. */
  function Grow<T>(a: seq<T>, amount: int, dflt: T): (r: Result<seq<T>>)
    ensures r.Ok? <==> 0 <= |a| + amount <= MaxLength
    ensures r.Ok? ==> |r.value| == |a| + amount
    ensures r.Ok? && amount >= 0 ==> r.value == a + Filled(amount, dflt)
    ensures r.Ok? && amount < 0 ==> r.value == a[..|a| + amount]
    ensures r.Err? ==> r.error == ArgumentOutOfRange
  {
    var newSize := |a| + amount;
    if newSize < 0 then Err(ArgumentOutOfRange)
    else if newSize > MaxLength then Err(ArgumentOutOfRange)
    else ArrayResize(a, |a| + amount, dflt)
  }

  /** `Shrink(ref array, amount)`: resizes to `Length - amount`, which must be
      between zero and `Array.MaxLength`. */
  function Shrink<T>(a: seq<T>, amount: int, dflt: T): (r: Result<seq<T>>)
    ensures r.Ok? <==> 0 <= |a| - amount <= MaxLength
    ensures r.Ok? ==> |r.value| == |a| - amount
    ensures r.Ok? && amount >= 0 ==> r.value == a[..|a| - amount]
    ensures r.Ok? && amount < 0 ==> r.value == a + Filled(-amount, dflt)
    ensures r.Err? ==> r.error == ArgumentOutOfRange
  {
    var newSize := |a| - amount;
    if newSize < 0 then Err(ArgumentOutOfRange)
    else if newSize > MaxLength then Err(ArgumentOutOfRange)
    else Resize(a, newSize, dflt)
  }

  /** Shrinking by what was just grown restores the array. */
  lemma ShrinkUndoesGrow<T>(a: seq<T>, amount: nat, dflt: T)
    requires |a| + amount <= MaxLength
    ensures Grow(a, amount, dflt).Ok?
    ensures Shrink(Grow(a, amount, dflt).value, amount, dflt) == Ok(a)
  {
    var g := Grow(a, amount, dflt).value;
    assert g[..|g| - amount] == a;
  }

  /** `while (size < length) { blocks++; size = blocks * blockSize; }`:
      the number of whole blocks that first covers `length`. */
  function RaiseBlocks(blocks: int, blockSize: int, length: int): (r: int)
    requires blockSize >= 1
    requires blocks * blockSize < length + blockSize
    ensures r >= blocks
    ensures length <= r * blockSize < length + blockSize
    decreases length - blocks * blockSize
  {
    if blocks * blockSize < length then
      assert (blocks + 1) * blockSize == blocks * blockSize + blockSize;
      RaiseBlocks(blocks + 1, blockSize, length)
    else blocks
  }

  /** `while (size > minimumLength) { blocks--; size = blocks * blockSize; }`:
      the number of whole blocks that first fits into `minimumLength`. */
  function LowerBlocks(blocks: int, blockSize: int, minimumLength: int): (r: int)
    requires blockSize >= 1
    requires blocks * blockSize > minimumLength - blockSize
    ensures r <= blocks
    ensures r * blockSize <= minimumLength < r * blockSize + blockSize
    decreases blocks * blockSize - minimumLength
  {
    if blocks * blockSize > minimumLength then
      assert (blocks - 1) * blockSize == blocks * blockSize - blockSize;
      LowerBlocks(blocks - 1, blockSize, minimumLength)
    else blocks
  }

  /** `GrowBy(ref array, length = -1, blockSize = 16)`: resizes to a whole
      number of blocks. The target is `length`, or one block past the current
      length when `length` is negative; when the current whole blocks do not
      exceed the target the array gets the fewest blocks covering it, otherwise
      it is cut to its current whole blocks. A block size below one throws. */
  function GrowBy<T>(a: seq<T>, length: int, blockSize: int, dflt: T): (r: Result<seq<T>>)
    ensures r.Ok? <==> blockSize >= 1
    ensures r.Err? ==> r.error == ArgumentOutOfRange
    ensures r.Ok? ==> |r.value| % blockSize == 0
    ensures r.Ok? ==> var target := if length < 0 then |a| + blockSize else length;
                      if (|a| / blockSize) * blockSize <= target
                      then target <= |r.value| < target + blockSize
                      else |r.value| == (|a| / blockSize) * blockSize
    ensures r.Ok? ==> forall i :: 0 <= i < |r.value| && i < |a| ==> r.value[i] == a[i]
    ensures r.Ok? ==> forall i :: |a| <= i < |r.value| ==> r.value[i] == dflt
  {
    var l := |a|;
    var length' := if length < 0 then l + blockSize else length;
    if blockSize < 1 then Err(ArgumentOutOfRange)
    else ArrayResize(a, GrowBlocks(l, blockSize, length') * blockSize, dflt)
  }

  /** The block count `GrowBy` settles on for an array of length `l`: the
      fewest blocks covering `target`, unless the current whole blocks
      already exceed it. */
  function GrowBlocks(l: nat, blockSize: int, target: int): (r: nat)
    requires blockSize >= 1
    ensures (r * blockSize) % blockSize == 0
    ensures (l / blockSize) * blockSize <= target ==> target <= r * blockSize < target + blockSize
    ensures (l / blockSize) * blockSize > target ==> r * blockSize == (l / blockSize) * blockSize
  {
    var blocks := l / blockSize;
    var r := if blocks * blockSize <= target then RaiseBlocks(blocks, blockSize, target) else blocks;
    MultipleMod(r, blockSize);
    r
  }

  /** The block count `ShrinkBy` settles on for an array of length `l`. */
  function ShrinkBlocks(l: nat, min: int, blockSize: int): (r: int)
    requires blockSize >= 1
    ensures r * blockSize <= l
    ensures (r * blockSize) % blockSize == 0
    ensures r * blockSize >= 0 <==> min >= 0
    ensures (l / blockSize) * blockSize >= min ==> r * blockSize <= min < r * blockSize + blockSize
    ensures (l / blockSize) * blockSize < min ==> r * blockSize == (l / blockSize) * blockSize
  {
    var blocks := l / blockSize;
    var size := blocks * blockSize;
    FloorMultiple(l, blockSize);
    var r := if size >= min then LowerBlocks(blocks, blockSize, min) else blocks;
    MultipleMod(r, blockSize);
    MultipleBound(r, blocks, blockSize);
    SignOfMultiple(r, blockSize);
    r
  }

  /** `ShrinkBy(ref array, minimumLength = -1, blockSize = 16)`: when the
      minimum (one block below the current length if negative) equals the
      length nothing happens; otherwise the array is cut to a whole number of
      blocks: the most blocks that fit into the minimum, or its current whole
      blocks when those are already below it. A block size below one, or a
      minimum that leaves a negative size, throws. */
  function ShrinkBy<T>(a: seq<T>, minimumLength: int, blockSize: int, dflt: T): (r: Result<seq<T>>)
    ensures var min := if minimumLength < 0 then |a| - blockSize else minimumLength;
            r.Ok? <==> (min == |a| || (blockSize >= 1 && min >= 0))
    ensures r.Err? ==> r.error == ArgumentOutOfRange
    ensures r.Ok? ==> |r.value| <= |a| && r.value == a[..|r.value|]
    ensures var min := if minimumLength < 0 then |a| - blockSize else minimumLength;
            r.Ok? && min != |a| ==>
              (|r.value| % blockSize == 0
               && if (|a| / blockSize) * blockSize >= min
                  then |r.value| <= min < |r.value| + blockSize
                  else |r.value| == (|a| / blockSize) * blockSize)
  {
    var l := |a|;
    var min := if minimumLength < 0 then l - blockSize else minimumLength;
    if min == l then Ok(a)
    else if blockSize < 1 then Err(ArgumentOutOfRange)
    else
      var blocks := ShrinkBlocks(l, min, blockSize);
      Resize(a, blocks * blockSize, dflt)
  }

  lemma FloorMultiple(l: nat, b: int)
    requires b >= 1
    ensures 0 <= (l / b) * b <= l
  {
  }

  lemma MultipleMod(k: int, b: int)
    requires b >= 1
    ensures (k * b) % b == 0
  {
    var q := (k * b) / b;
    var m := (k * b) % b;
    assert k * b == q * b + m;
    assert (k - q) * b == m;
    if k - q >= 1 {
      MulAtLeast(k - q, b);
    } else if k - q <= -1 {
      MulAtMost(k - q, b);
    }
  }

  lemma SignOfMultiple(k: int, b: int)
    requires b >= 1
    ensures k >= 0 ==> k * b >= 0
    ensures k <= -1 ==> k * b <= -b
  {
    if k <= -1 {
      MulAtMost(k, b);
    }
  }

  lemma MulAtLeast(d: int, b: int)
    requires d >= 1 && b >= 1
    ensures d * b >= b
  {
  }

  lemma MulAtMost(d: int, b: int)
    requires d <= -1 && b >= 1
    ensures d * b <= -b
  {
  }

  lemma MultipleBound(k: int, m: int, b: int)
    requires b >= 1 && k <= m
    ensures k * b <= m * b
  {
  }

  /** The array-length cases `ShrinkBy` is expected to produce on a 32-element
      array with the default block size of 16. */
  lemma ShrinkByExamples(dflt: int)
    ensures |ShrinkBy(Filled(32, dflt), 16, 16, dflt).value| == 16
    ensures |ShrinkBy(Filled(32, dflt), 0, 16, dflt).value| == 0
    ensures |ShrinkBy(Filled(32, dflt), 32, 16, dflt).value| == 32
  {
    var r := ShrinkBy(Filled(32, dflt), 16, 16, dflt);
    assert r.Ok?;
    assert |r.value| % 16 == 0 && |r.value| <= 16 < |r.value| + 16;
  }

  // ------------------------------------------------------------ clear / swap

  /** `Clear(array, index = 0, length = -1)`: a length of exactly -1 means
      "to the end"; a length reaching past the end throws
      ArgumentOutOfRangeException, and every other bad bound is left to
      `Array.Clear`, which throws IndexOutOfRangeException. */
  function Clear<T>(a: seq<T>, index: int, length: int, dflt: T): (r: Result<seq<T>>)
    ensures r.Ok? <==> 0 <= index <= |a| && (length == -1 || 0 <= length <= |a| - index)
    ensures r.Ok? ==> var end := if length == -1 then |a| else index + length;
                      |r.value| == |a|
                      && forall i :: 0 <= i < |a| ==> r.value[i] == (if index <= i < end then dflt else a[i])
    ensures r.Err? ==> r.error == (if length != -1 && length > |a| - index then ArgumentOutOfRange else IndexOutOfRange)
  {
    var length' := if length == -1 then |a| - index else length;
    if length' > |a| - index then Err(ArgumentOutOfRange)
    else ArrayClear(a, index, length', dflt)
  }

  /** Clearing with the default bounds yields an all-default array of the same length. */
  lemma ClearAllIsFresh<T>(a: seq<T>, dflt: T)
    ensures Clear(a, 0, -1, dflt) == Ok(Filled(|a|, dflt))
  {
    var r := Clear(a, 0, -1, dflt).value;
    assert forall i :: 0 <= i < |a| ==> r[i] == Filled(|a|, dflt)[i];
    assert r == Filled(|a|, dflt);
  }

  /** Clearing a range twice is the same as clearing it once. */
  lemma ClearIdempotent<T>(a: seq<T>, index: int, length: int, dflt: T)
    requires Clear(a, index, length, dflt).Ok?
    ensures Clear(Clear(a, index, length, dflt).value, index, length, dflt) == Clear(a, index, length, dflt)
  {
    var once := Clear(a, index, length, dflt).value;
    var twice := Clear(once, index, length, dflt).value;
    assert forall i :: 0 <= i < |a| ==> twice[i] == once[i];
    assert twice == once;
  }

  /** `Swap(array, index1, index2)`: either index outside the array throws
      IndexOutOfRangeException. */
  function Swap<T>(a: seq<T>, i: int, j: int): (r: Result<seq<T>>)
    ensures r.Ok? <==> 0 <= i < |a| && 0 <= j < |a|
    ensures r.Ok? ==> |r.value| == |a| && r.value[i] == a[j] && r.value[j] == a[i]
    ensures r.Ok? ==> forall k :: 0 <= k < |a| && k != i && k != j ==> r.value[k] == a[k]
    ensures r.Err? ==> r.error == IndexOutOfRange
  {
    if !(0 <= i < |a| && 0 <= j < |a|) then Err(IndexOutOfRange)
    else
      var vi := a[j];
      var vj := a[i];
      Ok(a[i := vi][j := vj])
  }

  /** Swapping twice restores the array. */
  lemma SwapInvolution<T>(a: seq<T>, i: int, j: int)
    requires 0 <= i < |a| && 0 <= j < |a|
    ensures Swap(Swap(a, i, j).value, i, j) == Ok(a)
  {
    var s := Swap(a, i, j).value;
    assert Swap(s, i, j).value == a;
  }

  /** A swap rearranges the elements and adds or loses none. */
  lemma SwapPermutes<T>(a: seq<T>, i: int, j: int)
    requires 0 <= i < |a| && 0 <= j < |a|
    ensures multiset(Swap(a, i, j).value) == multiset(a)
  {
    var b := a[i := a[j]];
    assert multiset(b) == multiset(a) - multiset{a[i]} + multiset{a[j]};
    assert b[j := a[i]] == Swap(a, i, j).value;
    assert multiset(b[j := a[i]]) == multiset(b) - multiset{b[j]} + multiset{a[i]};
  }

  // ------------------------------------------------------------------ equal

  /** A `T[]?` reference: `null`, or an array object identified by `id`. */
  datatype ArrayRef<T> = Null | Ref(id: nat, items: seq<T>)

  /** One object has one content: references with the same `id` agree. */
  ghost predicate Coherent<T>(x: ArrayRef<T>, y: ArrayRef<T>) {
    x.Ref? && y.Ref? && x.id == y.id ==> x.items == y.items
  }

  /** `ReferenceEquals(x, y)`. */
  predicate SameReference<T>(x: ArrayRef<T>, y: ArrayRef<T>) {
    (x.Null? && y.Null?) || (x.Ref? && y.Ref? && x.id == y.id)
  }

  /** `Equal(left, right, IComparer<T>)` and `Equal(left, right, Comparison<T>)`:
      the same reference (or two nulls) is equal; otherwise both must be
      non-null, of one length, and compare to zero position by position. */
  method EqualByComparer<T>(left: ArrayRef<T>, right: ArrayRef<T>, compare: (T, T) -> int) returns (r: bool)
    requires Coherent(left, right)
    ensures r <==> SameReference(left, right)
                   || (left.Ref? && right.Ref? && |left.items| == |right.items|
                       && forall i :: 0 <= i < |left.items| ==> compare(left.items[i], right.items[i]) == 0)
  {
    if SameReference(left, right) {
      return true;
    }
    if left.Null? || right.Null? {
      return false;
    }
    if |left.items| != |right.items| {
      return false;
    }
    var i := 0;
    while i < |left.items|
      invariant 0 <= i <= |left.items|
      invariant forall k :: 0 <= k < i ==> compare(left.items[k], right.items[k]) == 0
    {
      if compare(left.items[i], right.items[i]) != 0 {
        return false;
      }
      i := i + 1;
    }
    return true;
  }

  /** `Equal(left, right, IEqualityComparer<T>)`: as above with `Equals`. */
  method EqualByEquality<T>(left: ArrayRef<T>, right: ArrayRef<T>, equals: (T, T) -> bool) returns (r: bool)
    requires Coherent(left, right)
    ensures r <==> SameReference(left, right)
                   || (left.Ref? && right.Ref? && |left.items| == |right.items|
                       && forall i :: 0 <= i < |left.items| ==> equals(left.items[i], right.items[i]))
  {
    if SameReference(left, right) {
      return true;
    }
    if left.Null? || right.Null? {
      return false;
    }
    if |left.items| != |right.items| {
      return false;
    }
    var i := 0;
    while i < |left.items|
      invariant 0 <= i <= |left.items|
      invariant forall k :: 0 <= k < i ==> equals(left.items[k], right.items[k])
    {
      if !equals(left.items[i], right.items[i]) {
        return false;
      }
      i := i + 1;
    }
    return true;
  }

  /** `Equal(left, right)` with `EqualityComparer<T>.Default`, taken to be the
      element type's own equality: two arrays are equal exactly when both are
      null or both hold the same elements. */
  method Equal<T(==)>(left: ArrayRef<T>, right: ArrayRef<T>) returns (r: bool)
    requires Coherent(left, right)
    ensures r <==> (left.Null? && right.Null?) || (left.Ref? && right.Ref? && left.items == right.items)
  {
    r := EqualByEquality(left, right, (x: T, y: T) => x == y);
    if r && left.Ref? && right.Ref? && !SameReference(left, right) {
      assert left.items == right.items by {
        assert forall i :: 0 <= i < |left.items| ==> left.items[i] == right.items[i];
      }
    }
  }

  // ----------------------------------------------------------------- append

  /** `Append(ref array, element1)`. */
  function Append1<T>(a: seq<T>, e1: T, dflt: T): (r: seq<T>)
    ensures r == a + [e1]
  {
    var copy := Filled(|a| + 1, dflt);
    var c := ArrayCopy(a, 0, copy, 0, |a|).value;
    c[|c| - 1 := e1]
  }

  /** `Append(ref array, element1, element2)`. */
  function Append2<T>(a: seq<T>, e1: T, e2: T, dflt: T): (r: seq<T>)
    ensures r == a + [e1, e2]
  {
    var copy := Filled(|a| + 2, dflt);
    var c := ArrayCopy(a, 0, copy, 0, |a|).value;
    c[|c| - 2 := e1][|c| - 1 := e2]
  }

  /** `Append(ref array, element1, element2, element3)`. */
  function Append3<T>(a: seq<T>, e1: T, e2: T, e3: T, dflt: T): (r: seq<T>)
    ensures r == a + [e1, e2, e3]
  {
    var copy := Filled(|a| + 3, dflt);
    var c := ArrayCopy(a, 0, copy, 0, |a|).value;
    c[|c| - 3 := e1][|c| - 2 := e2][|c| - 1 := e3]
  }

  /** `Append(ref array, params T[] elements)`. */
  function AppendParams<T>(a: seq<T>, elements: seq<T>, dflt: T): (r: seq<T>)
    ensures r == a + elements
  {
    var copy := Filled(|a| + |elements|, dflt);
    var c := ArrayCopy(a, 0, copy, 0, |a|).value;
    ArrayCopy(elements, 0, c, |a|, |elements|).value
  }

  /** `Append(ref array, Span<T>)` and `Append(ref array, ReadOnlySpan<T>)`. */
  function AppendSpan<T>(a: seq<T>, elements: seq<T>, dflt: T): (r: seq<T>)
    ensures r == a + elements
  {
    var copy := Filled(|a| + |elements|, dflt);
    var c := ArrayCopy(a, 0, copy, 0, |a|).value;
    CopyInto(elements, c, |a|).value
  }

  /** The fill-loop branch: allocate, copy the array, write the items one by one. */
  function AppendByEnumerating<T>(a: seq<T>, items: seq<T>, dflt: T): (r: seq<T>)
    ensures r == a + items
  {
    var copy := Filled(|a| + |items|, dflt);
    var c := ArrayCopy(a, 0, copy, 0, |a|).value;
    WriteEachIsSplice(c, |a|, items);
    WriteEach(c, |a|, items)
  }

  /** `Append(ref array, IEnumerable<T>)`: whichever branch the argument's
      runtime type selects, the items end up after the array in enumeration order. */
  function AppendEnumerable<T>(a: seq<T>, elements: Enumerable<T>, dflt: T): (r: seq<T>)
    ensures r == a + elements.items
  {
    var items := elements.items;
    if elements.kind == ArrayKind then AppendSpan(a, items, dflt)
    else if elements.kind == ListKind then
      var copy := Filled(|a| + |items|, dflt);
      var c := ArrayCopy(a, 0, copy, 0, |a|).value;
      CopyInto(items, c, |a|).value
    else if IsReadOnlyCollection(elements.kind) then AppendByEnumerating(a, items, dflt)
    else if HasCheapCount(elements.kind) then AppendByEnumerating(a, items, dflt)
    else AppendSpan(a, items, dflt)
  }

  // ----------------------------------------------------------------- insert

  /** `Insert(ref array, index, element1)`: the index must lie in
      `[0, Length]`; below it `Array.Copy` throws ArgumentOutOfRangeException,
      above it ArgumentException. */
  function Insert1<T>(a: seq<T>, index: int, e1: T, dflt: T): (r: Result<seq<T>>)
    ensures r.Ok? <==> 0 <= index <= |a|
    ensures r.Ok? ==> r.value == a[..index] + [e1] + a[index..]
    ensures r.Err? ==> r.error == (if index < 0 then ArgumentOutOfRange else ArgumentError)
  {
    var copy := Filled(|a| + 1, dflt);
    var c1 :- ArrayCopy(a, 0, copy, 0, index);
    var c2 := c1[index := e1];
    ArrayCopy(a, index, c2, index + 1, |a| - index)
  }

  /** `Insert(ref array, index, element1, element2)`. */
  function Insert2<T>(a: seq<T>, index: int, e1: T, e2: T, dflt: T): (r: Result<seq<T>>)
    ensures r.Ok? <==> 0 <= index <= |a|
    ensures r.Ok? ==> r.value == a[..index] + [e1, e2] + a[index..]
    ensures r.Err? ==> r.error == (if index < 0 then ArgumentOutOfRange else ArgumentError)
  {
    var copy := Filled(|a| + 2, dflt);
    var c1 :- ArrayCopy(a, 0, copy, 0, index);
    var c2 := c1[index := e1][index + 1 := e2];
    ArrayCopy(a, index, c2, index + 2, |a| - index)
  }

  /** `Insert(ref array, index, element1, element2, element3)`. */
  function Insert3<T>(a: seq<T>, index: int, e1: T, e2: T, e3: T, dflt: T): (r: Result<seq<T>>)
    ensures r.Ok? <==> 0 <= index <= |a|
    ensures r.Ok? ==> r.value == a[..index] + [e1, e2, e3] + a[index..]
    ensures r.Err? ==> r.error == (if index < 0 then ArgumentOutOfRange else ArgumentError)
  {
    var copy := Filled(|a| + 3, dflt);
    var c1 :- ArrayCopy(a, 0, copy, 0, index);
    var c2 := c1[index := e1][index + 1 := e2][index + 2 := e3];
    ArrayCopy(a, index, c2, index + 3, |a| - index)
  }

  /** `Insert(ref array, index, params T[] elements)`. */
  function InsertParams<T>(a: seq<T>, index: int, elements: seq<T>, dflt: T): (r: Result<seq<T>>)
    ensures r.Ok? <==> 0 <= index <= |a|
    ensures r.Ok? ==> r.value == a[..index] + elements + a[index..]
    ensures r.Err? ==> r.error == (if index < 0 then ArgumentOutOfRange else ArgumentError)
  {
    var copy := Filled(|a| + |elements|, dflt);
    var c1 :- ArrayCopy(a, 0, copy, 0, index);
    var c2 := ArrayCopy(elements, 0, c1, index, |elements|).value;
    ArrayCopy(a, index, c2, index + |elements|, |a| - index)
  }

  /** `Insert(ref array, index, Span<T>)` and the `ReadOnlySpan<T>` overload. */
  function InsertSpan<T>(a: seq<T>, index: int, elements: seq<T>, dflt: T): (r: Result<seq<T>>)
    ensures r.Ok? <==> 0 <= index <= |a|
    ensures r.Ok? ==> r.value == a[..index] + elements + a[index..]
    ensures r.Err? ==> r.error == (if index < 0 then ArgumentOutOfRange else ArgumentError)
  {
    var copy := Filled(|a| + |elements|, dflt);
    var c1 :- ArrayCopy(a, 0, copy, 0, index);
    var c2 := CopyInto(elements, c1, index).value;
    ArrayCopy(a, index, c2, index + |elements|, |a| - index)
  }

  /** The fill-loop branch of the enumerable insert. */
  function InsertByEnumerating<T>(a: seq<T>, index: int, items: seq<T>, dflt: T): (r: Result<seq<T>>)
    ensures r.Ok? <==> 0 <= index <= |a|
    ensures r.Ok? ==> r.value == a[..index] + items + a[index..]
    ensures r.Err? ==> r.error == (if index < 0 then ArgumentOutOfRange else ArgumentError)
  {
    var copy := Filled(|a| + |items|, dflt);
    var c1 :- ArrayCopy(a, 0, copy, 0, index);
    WriteEachIsSplice(c1, index, items);
    var c2 := WriteEach(c1, index, items);
    ArrayCopy(a, index, c2, index + |items|, |a| - index)
  }

  /** `Insert(ref array, index, IEnumerable<T>)`: every branch inserts the
      items, in enumeration order, at the index. */
  function InsertEnumerable<T>(a: seq<T>, index: int, elements: Enumerable<T>, dflt: T): (r: Result<seq<T>>)
    ensures r.Ok? <==> 0 <= index <= |a|
    ensures r.Ok? ==> r.value == a[..index] + elements.items + a[index..]
    ensures r.Err? ==> r.error == (if index < 0 then ArgumentOutOfRange else ArgumentError)
  {
    var items := elements.items;
    if elements.kind == ArrayKind then InsertParams(a, index, items, dflt)
    else if IsIList(elements.kind) then
      var copy := Filled(|a| + |items|, dflt);
      var c1 :- ArrayCopy(a, 0, copy, 0, index);
      var c2 := CopyInto(items, c1, index).value;
      ArrayCopy(a, index, c2, index + |items|, |a| - index)
    else if IsReadOnlyCollection(elements.kind) then InsertByEnumerating(a, index, items, dflt)
    else if HasCheapCount(elements.kind) then InsertByEnumerating(a, index, items, dflt)
    else InsertParams(a, index, items, dflt)
  }

  // ---------------------------------------------------------------- prepend

  /** `Prepend(ref array, element1)`. */
  function Prepend1<T>(a: seq<T>, e1: T, dflt: T): (r: seq<T>)
    ensures r == [e1] + a
  {
    var copy := Filled(|a| + 1, dflt);
    var c := ArrayCopy(a, 0, copy, 1, |a|).value;
    c[0 := e1]
  }

  /** `Prepend(ref array, element1, element2)`. */
  function Prepend2<T>(a: seq<T>, e1: T, e2: T, dflt: T): (r: seq<T>)
    ensures r == [e1, e2] + a
  {
    var copy := Filled(|a| + 2, dflt);
    var c := ArrayCopy(a, 0, copy, 2, |a|).value;
    c[0 := e1][1 := e2]
  }

  /** `Prepend(ref array, element1, element2, element3)`. */
  function Prepend3<T>(a: seq<T>, e1: T, e2: T, e3: T, dflt: T): (r: seq<T>)
    ensures r == [e1, e2, e3] + a
  {
    var copy := Filled(|a| + 3, dflt);
    var c := ArrayCopy(a, 0, copy, 3, |a|).value;
    c[0 := e1][1 := e2][2 := e3]
  }

  /** `Prepend(ref array, params T[] elements)`. */
  function PrependParams<T>(a: seq<T>, elements: seq<T>, dflt: T): (r: seq<T>)
    ensures r == elements + a
  {
    var copy := Filled(|a| + |elements|, dflt);
    var c := ArrayCopy(a, 0, copy, |elements|, |a|).value;
    ArrayCopy(elements, 0, c, 0, |elements|).value
  }

  /** `Prepend(ref array, Span<T>)` and the `ReadOnlySpan<T>` overload. */
  function PrependSpan<T>(a: seq<T>, elements: seq<T>, dflt: T): (r: seq<T>)
    ensures r == elements + a
  {
    var copy := Filled(|a| + |elements|, dflt);
    var c := ArrayCopy(a, 0, copy, |elements|, |a|).value;
    CopyInto(elements, c, 0).value
  }

  /** `Prepend(ref array, IEnumerable<T>)`. */
  function PrependEnumerable<T>(a: seq<T>, elements: Enumerable<T>, dflt: T): (r: seq<T>)
    ensures r == elements.items + a
  {
    var items := elements.items;
    if elements.kind == ArrayKind then PrependParams(a, items, dflt)
    else if elements.kind == ListKind then
      var copy := Filled(|a| + |items|, dflt);
      var c := ArrayCopy(a, 0, copy, |items|, |a|).value;
      CopyInto(items, c, 0).value
    else if IsReadOnlyCollection(elements.kind) then
      var copy := Filled(|a| + |items|, dflt);
      var c := ArrayCopy(a, 0, copy, |items|, |a|).value;
      WriteEachIsSplice(c, 0, items);
      WriteEach(c, 0, items)
    else PrependParams(a, items, dflt)
  }

  // ------------------------------------------------------- segments / slices

  /** An `ArraySegment<T>`: a window of `count` elements of `source` from `offset`. */
  datatype Segment<T> = Segment(source: seq<T>, offset: nat, count: nat) {
    predicate Valid() {
      offset + count <= |source|
    }

    function View(): seq<T>
      requires Valid()
    {
      source[offset..offset + count]
    }
  }

  /** `AsSegment(array, start, length)`: a negative start or length, or a
      window past the end, throws ArgumentOutOfRangeException. */
  function AsSegment<T>(a: seq<T>, start: int, length: int): (r: Result<Segment<T>>)
    ensures r.Ok? <==> 0 <= start && 0 <= length && start + length <= |a|
    ensures r.Ok? ==> r.value.Valid() && r.value.source == a && r.value.View() == a[start..start + length]
    ensures r.Err? ==> r.error == ArgumentOutOfRange
  {
    if start < 0 then Err(ArgumentOutOfRange)
    else if length < 0 then Err(ArgumentOutOfRange)
    else if start + length > |a| then Err(ArgumentOutOfRange)
    else Ok(Segment(a, start, length))
  }

  /** `AsSegment(array)`: the whole array. */
  function AsSegmentAll<T>(a: seq<T>): (r: Segment<T>)
    ensures r.Valid() && r.source == a && r.View() == a
  {
    AsSegment(a, 0, |a|).value
  }

  /** `AsSegment(array, start)`: everything from `start` on. */
  function AsSegmentFrom<T>(a: seq<T>, start: int): (r: Result<Segment<T>>)
    ensures r.Ok? <==> 0 <= start <= |a|
    ensures r.Ok? ==> r.value.Valid() && r.value.View() == a[start..]
    ensures r.Err? ==> r.error == ArgumentOutOfRange
  {
    AsSegment(a, start, |a| - start)
  }

  /** `Slice(array, start, length)`: the span over the same window, with the
      same argument checks as `AsSegment`. */
  function Slice<T>(a: seq<T>, start: int, length: int): (r: Result<seq<T>>)
    ensures r.Ok? <==> 0 <= start && 0 <= length && start + length <= |a|
    ensures r.Ok? ==> |r.value| == length && forall i :: 0 <= i < length ==> r.value[i] == a[start + i]
    ensures r.Err? ==> r.error == ArgumentOutOfRange
  {
    if start < 0 then Err(ArgumentOutOfRange)
    else if length < 0 then Err(ArgumentOutOfRange)
    else if start + length > |a| then Err(ArgumentOutOfRange)
    else Ok(a[start..start + length])
  }

  /** `Slice(array, start)`. */
  function SliceFrom<T>(a: seq<T>, start: int): (r: Result<seq<T>>)
    ensures r.Ok? <==> 0 <= start <= |a|
    ensures r.Ok? ==> a[..start] + r.value == a
    ensures r.Err? ==> r.error == ArgumentOutOfRange
  {
    Slice(a, start, |a| - start)
  }

  // --------------------------------------------------------------- partners

  /** `Pop` takes back what `Append` added. */
  lemma PopUndoesAppend<T>(a: seq<T>, x: T, dflt: T)
    ensures Pop(Append1(a, x, dflt), dflt) == Ok((x, a))
  {
    var p := Pop(Append1(a, x, dflt), dflt).value;
    assert p.1 + [p.0] == a + [x];
    assert p.1 == (p.1 + [p.0])[..|a|];
  }

  /** `Shift` takes back what `Prepend` added. */
  lemma ShiftUndoesPrepend<T>(a: seq<T>, x: T, dflt: T)
    ensures Shift(Prepend1(a, x, dflt), dflt) == Ok((x, a))
  {
    var p := Shift(Prepend1(a, x, dflt), dflt).value;
    assert [p.0] + p.1 == [x] + a;
    assert p.1 == ([p.0] + p.1)[1..];
  }

  /** `PopRange` takes back a non-empty result of `Append(params)`, in order. */
  lemma PopRangeUndoesAppend<T>(a: seq<T>, items: seq<T>, dflt: T)
    requires |a| + |items| > 0
    ensures PopRange(AppendParams(a, items, dflt), |items|, dflt) == Ok((items, a))
  {
    var p := PopRange(AppendParams(a, items, dflt), |items|, dflt).value;
    assert p.1 + p.0 == a + items;
    assert p.0 == (p.1 + p.0)[|a|..];
    assert p.1 == (p.1 + p.0)[..|a|];
  }

  /** Inserting at the ends is appending and prepending. */
  lemma InsertAtEnds<T>(a: seq<T>, items: seq<T>, dflt: T)
    ensures InsertParams(a, |a|, items, dflt) == Ok(AppendParams(a, items, dflt))
    ensures InsertParams(a, 0, items, dflt) == Ok(PrependParams(a, items, dflt))
  {
    assert a[..|a|] + items + a[|a|..] == a + items;
    assert a[..0] + items + a[0..] == items + a;
  }

  /** The two-array `Concat` is the general one applied to two arrays. */
  lemma ConcatAgrees<T>(a1: seq<T>, a2: seq<T>, a3: seq<T>, dflt: T)
    ensures Flatten([a1, a2]) == Concat2(a1, a2, dflt)
    ensures Flatten([a1, a2, a3]) == Concat3(a1, a2, a3, dflt)
  {
    assert [a1][..0] == [];
    assert Flatten([a1]) == a1;
    assert [a1, a2][..1] == [a1];
    assert Flatten([a1, a2]) == a1 + a2;
    assert [a1, a2, a3][..2] == [a1, a2];
  }

  /** A segment and a slice over the same window see the same elements. */
  lemma SegmentMatchesSlice<T>(a: seq<T>, start: int, length: int)
    ensures AsSegment(a, start, length).Ok? <==> Slice(a, start, length).Ok?
    ensures AsSegment(a, start, length).Ok? ==> AsSegment(a, start, length).value.View() == Slice(a, start, length).value
  {
  }
}

=== FILE: buffers.dfy ===
/** The .NET runtime primitives the modelled array and span code is built from:
    `new T[n]`, `Span<T>.CopyTo`, `Array.Copy`, `Array.Resize`, `Array.Clear`,
    and the `foreach (var item in source) copy[j++] = item;` fill loop.

    Arrays and spans are modelled as sequences; `dflt` stands for C#'s
    `default(T)`, the value every cell of a fresh array holds. Each primitive
    fails with the exception type .NET documents for it.
 */
module Buffers {
  import opened Wrappers

  /** `new T[n]` for a length that is known to be non-negative. */
  function Filled<T>(n: nat, dflt: T): (r: seq<T>)
    ensures |r| == n
    ensures forall i :: 0 <= i < n ==> r[i] == dflt
  {
    seq(n, _ => dflt)
  }

  /** `new T[n]` for an arbitrary `int`: a negative length throws OverflowException. */
  function Alloc<T>(n: int, dflt: T): (r: Result<seq<T>>)
    ensures r.Ok? <==> n >= 0
    ensures r.Ok? ==> |r.value| == n && forall i :: 0 <= i < n ==> r.value[i] == dflt
  {
    if n < 0 then Err(Overflow) else Ok(Filled(n, dflt))
  }

  /** `src.CopyTo(dst[offset..])`: slicing past either end of `dst` throws
      ArgumentOutOfRangeException, a destination too short for `src` throws
      ArgumentException; otherwise `src` overwrites the cells from `offset` on. */
  function CopyInto<T>(src: seq<T>, dst: seq<T>, offset: int): (r: Result<seq<T>>)
    ensures r.Ok? <==> 0 <= offset && offset + |src| <= |dst|
    ensures r.Ok? ==> |r.value| == |dst|
    ensures r.Ok? ==> r.value == dst[..offset] + src + dst[offset + |src|..]
    ensures r.Err? ==> r.error == (if offset < 0 || offset > |dst| then ArgumentOutOfRange else ArgumentError)
  {
    if offset < 0 || offset > |dst| then Err(ArgumentOutOfRange)
    else if |src| > |dst| - offset then Err(ArgumentError)
    else Ok(dst[..offset] + src + dst[offset + |src|..])
  }

  /** `Array.Copy(src, srcIndex, dst, dstIndex, length)`. */
  function ArrayCopy<T>(src: seq<T>, srcIndex: int, dst: seq<T>, dstIndex: int, length: int): (r: Result<seq<T>>)
    ensures r.Ok? <==> (0 <= srcIndex && 0 <= dstIndex && 0 <= length
                        && srcIndex + length <= |src| && dstIndex + length <= |dst|)
    ensures r.Ok? ==> |r.value| == |dst|
    ensures r.Ok? ==> forall i :: dstIndex <= i < dstIndex + length ==> r.value[i] == src[srcIndex + (i - dstIndex)]
    ensures r.Ok? ==> r.value == dst[..dstIndex] + src[srcIndex..srcIndex + length] + dst[dstIndex + length..]
    ensures r.Err? ==> r.error == (if srcIndex < 0 || dstIndex < 0 || length < 0 then ArgumentOutOfRange else ArgumentError)
  {
    if srcIndex < 0 || dstIndex < 0 || length < 0 then Err(ArgumentOutOfRange)
    else if srcIndex + length > |src| || dstIndex + length > |dst| then Err(ArgumentError)
    else Ok(dst[..dstIndex] + src[srcIndex..srcIndex + length] + dst[dstIndex + length..])
  }

  /** `Array.Resize(ref a, n)`: keeps the common prefix, pads with defaults. */
  function ArrayResize<T>(a: seq<T>, n: int, dflt: T): (r: Result<seq<T>>)
    ensures r.Ok? <==> n >= 0
    ensures r.Ok? ==> |r.value| == n
    ensures r.Ok? ==> forall i :: 0 <= i < n && i < |a| ==> r.value[i] == a[i]
    ensures r.Ok? ==> forall i :: |a| <= i < n ==> r.value[i] == dflt
  {
    if n < 0 then Err(ArgumentOutOfRange)
    else if n <= |a| then Ok(a[..n])
    else Ok(a + Filled(n - |a|, dflt))
  }

  /** `Array.Clear(a, index, length)`: every violated bound throws
      IndexOutOfRangeException; the cleared cells take the default value. */
  function ArrayClear<T>(a: seq<T>, index: int, length: int, dflt: T): (r: Result<seq<T>>)
    ensures r.Ok? <==> 0 <= index && 0 <= length && index + length <= |a|
    ensures r.Ok? ==> |r.value| == |a|
    ensures r.Ok? ==> forall i :: 0 <= i < |a| ==> r.value[i] == (if index <= i < index + length then dflt else a[i])
    ensures r.Err? ==> r.error == IndexOutOfRange
  {
    if index < 0 || length < 0 || index + length > |a| then Err(IndexOutOfRange)
    else Ok(a[..index] + Filled(length, dflt) + a[index + length..])
  }

  /** `a[i] = v`: an index outside the array throws IndexOutOfRangeException. */
  function SetAt<T>(a: seq<T>, i: int, v: T): (r: Result<seq<T>>)
    ensures r.Ok? <==> 0 <= i < |a|
    ensures r.Ok? ==> |r.value| == |a| && r.value[i] == v
    ensures r.Ok? ==> forall k :: 0 <= k < |a| && k != i ==> r.value[k] == a[k]
  {
    if 0 <= i < |a| then Ok(a[i := v]) else Err(IndexOutOfRange)
  }

  /** The fill loop `var j = start; foreach (var item in items) copy[j++] = item;`,
      one iteration per call: the items land in order from `start` on. */
  function WriteEach<T>(copy: seq<T>, start: nat, items: seq<T>): (r: seq<T>)
    requires start + |items| <= |copy|
    ensures |r| == |copy|
    ensures forall i :: 0 <= i < |items| ==> r[start + i] == items[i]
    ensures forall i :: 0 <= i < |copy| && (i < start || start + |items| <= i) ==> r[i] == copy[i]
    decreases |items|
  {
    if |items| == 0 then copy
    else WriteEach(copy[start := items[0]], start + 1, items[1..])
  }

  /** The fill loop's result, stated as a splice of `items` into `copy`. */
  lemma WriteEachIsSplice<T>(copy: seq<T>, start: nat, items: seq<T>)
    requires start + |items| <= |copy|
    ensures WriteEach(copy, start, items) == copy[..start] + items + copy[start + |items|..]
  {
    var r := WriteEach(copy, start, items);
    var s := copy[..start] + items + copy[start + |items|..];
    assert |s| == |r|;
    forall i | 0 <= i < |r|
      ensures r[i] == s[i]
    {
      if start <= i < start + |items| {
        assert r[start + (i - start)] == items[i - start];
      }
    }
  }

  /** The fill loop when `start` is not known to be in range: the first store
      outside the array throws IndexOutOfRangeException. With no items nothing
      is stored and nothing can fail. */
  function WriteEachChecked<T>(copy: seq<T>, start: int, items: seq<T>): (r: Result<seq<T>>)
    ensures r.Ok? <==> |items| == 0 || (0 <= start && start + |items| <= |copy|)
    ensures r.Err? ==> r.error == IndexOutOfRange
    ensures |items| == 0 ==> r == Ok(copy)
    ensures r.Ok? && |items| > 0 ==> r.value == copy[..start] + items + copy[start + |items|..]
    decreases |items|
  {
    if |items| == 0 then Ok(copy)
    else if start < 0 || start >= |copy| then Err(IndexOutOfRange)
    else
      var r := WriteEachChecked(copy[start := items[0]], start + 1, items[1..]);
      if r.Ok? then
        WriteEachIsSplice(copy, start, items);
        assert |items[1..]| > 0 ==> r.value == WriteEach(copy[start := items[0]], start + 1, items[1..]) by {
          if |items[1..]| > 0 {
            WriteEachIsSplice(copy[start := items[0]], start + 1, items[1..]);
          }
        }
        r
      else r
  }

  /** `span.Slice(start, length)`: a window outside the span throws
      ArgumentOutOfRangeException. */
  function SpanSlice<T>(s: seq<T>, start: int, length: int): (r: Result<seq<T>>)
    ensures r.Ok? <==> 0 <= start && 0 <= length && start + length <= |s|
    ensures r.Ok? ==> r.value == s[start..start + length]
    ensures r.Err? ==> r.error == ArgumentOutOfRange
  {
    if start < 0 || start > |s| || length < 0 || length > |s| - start then Err(ArgumentOutOfRange)
    else Ok(s[start..start + length])
  }

  /** `span.Slice(start)`. */
  function SpanSliceFrom<T>(s: seq<T>, start: int): (r: Result<seq<T>>)
    ensures r.Ok? <==> 0 <= start <= |s|
    ensures r.Ok? ==> r.value == s[start..]
    ensures r.Err? ==> r.error == ArgumentOutOfRange
  {
    if start < 0 || start > |s| then Err(ArgumentOutOfRange) else Ok(s[start..])
  }

  /** The runtime shape of an `IEnumerable<T>` argument, in the order the
      modelled `switch`/`is` tests distinguish them. */
  datatype Kind =
    | ArrayKind              // T[]
    | ListKind               // System.Collections.Generic.List<T>
    | OtherListKind          // another IList<T> that is also IReadOnlyCollection<T>, e.g. Collection<T>
    | ReadOnlyCollectionKind // an IReadOnlyCollection<T> that is not an IList<T>
    | CollectionKind         // an ICollection<T> that is neither of the above
    | CountedKind            // none of the interfaces, but its count is known without enumerating
    | LazyKind               // anything else: counting it means enumerating it

  /** An `IEnumerable<T>` argument: its runtime shape and its enumeration order.
      Its `Count`, where it has one, is `|items|`. */
  datatype Enumerable<T> = Enumerable(kind: Kind, items: seq<T>)

  predicate IsIList(k: Kind) {
    k == ArrayKind || k == ListKind || k == OtherListKind
  }

  predicate IsReadOnlyCollection(k: Kind) {
    IsIList(k) || k == ReadOnlyCollectionKind
  }

  /** `Enumerable.TryGetNonEnumeratedCount` succeeds. */
  predicate HasCheapCount(k: Kind) {
    k != LazyKind
  }

  /** The elements of a sequence of arrays, one after another. */
  function Flatten<T>(arrays: seq<seq<T>>): seq<T>
  {
    if |arrays| == 0 then [] else Flatten(arrays[..|arrays| - 1]) + arrays[|arrays| - 1]
  }

  function TotalLength<T>(arrays: seq<seq<T>>): nat
  {
    if |arrays| == 0 then 0 else TotalLength(arrays[..|arrays| - 1]) + |arrays[|arrays| - 1]|
  }

  lemma {:induction false} FlattenLength<T>(arrays: seq<seq<T>>)
    ensures |Flatten(arrays)| == TotalLength(arrays)
  {
    if |arrays| > 0 {
      FlattenLength(arrays[..|arrays| - 1]);
    }
  }

  lemma FlattenSnoc<T>(arrays: seq<seq<T>>, k: nat)
    requires k < |arrays|
    ensures Flatten(arrays[..k + 1]) == Flatten(arrays[..k]) + arrays[k]
    ensures TotalLength(arrays[..k + 1]) == TotalLength(arrays[..k]) + |arrays[k]|
  {
    assert arrays[..k + 1][..k] == arrays[..k];
  }
}

=== FILE: case_fold.dfy ===
/** Ordinal case-insensitive comparison of strings
    (`StringComparison.OrdinalIgnoreCase`, `StringComparer.OrdinalIgnoreCase`).

    .NET compares the two strings after mapping every character to upper case
    with the invariant culture's simple case mapping. The model maps only the
    ASCII letters; every other character is compared as it is.
 */
module CaseFold {

  /** `char.ToUpperInvariant` restricted to ASCII letters. */
  function ToUpperAscii(c: char): (r: char)
    ensures 'a' <= c <= 'z' ==> r as int == c as int - 32
    ensures !('a' <= c <= 'z') ==> r == c
    ensures !('a' <= r <= 'z')
  {
    if 'a' <= c <= 'z' then (c as int - 32) as char else c
  }

  /** The string every string equal to `s` ignoring case maps to. */
  function Fold(s: seq<char>): (r: seq<char>)
    ensures |r| == |s|
    ensures forall i :: 0 <= i < |s| ==> r[i] == ToUpperAscii(s[i])
  {
    seq(|s|, i requires 0 <= i < |s| => ToUpperAscii(s[i]))
  }

  /** `a.Equals(b, StringComparison.OrdinalIgnoreCase)`. */
  predicate EqualsIgnoreCase(a: seq<char>, b: seq<char>) {
    Fold(a) == Fold(b)
  }

  /** Folding twice is folding once. */
  lemma FoldIdempotent(s: seq<char>)
    ensures Fold(Fold(s)) == Fold(s)
  {
  }

  /** Equality ignoring case is an equivalence that contains plain equality
      and relates a string to its folded form. */
  lemma EqualsIgnoreCaseLaws(a: seq<char>, b: seq<char>, c: seq<char>)
    ensures EqualsIgnoreCase(a, a)
    ensures EqualsIgnoreCase(a, b) ==> EqualsIgnoreCase(b, a)
    ensures EqualsIgnoreCase(a, b) && EqualsIgnoreCase(b, c) ==> EqualsIgnoreCase(a, c)
    ensures EqualsIgnoreCase(a, Fold(a))
  {
    FoldIdempotent(a);
  }

  /** Strings of different lengths never compare equal, and lower- and
      upper-case ASCII letters do. */
  lemma EqualsIgnoreCaseExamples()
    ensures EqualsIgnoreCase("Path", "PATH")
    ensures !EqualsIgnoreCase("PATH", "PATHS")
    ensures !EqualsIgnoreCase("a", "b")
  {
    assert Fold("Path") == "PATH";
    assert Fold("PATH") == "PATH";
    assert Fold("a")[0] != Fold("b")[0];
  }
}

=== FILE: command_start_info.dfy ===
/** `CommandStartInfo` and the fluent setters of
    `CommandStartInfoExtensions`: a record of how to start a process, where
    each setter changes its own fields and nothing else.

    `Stdio` and `CommandArgs` are not part of this model: a `Stdio` value is
    its integer code (0 when unset), the arguments are a list of strings,
    and a process capture is an identifier. The password kinds
    (`SecureString` or clear text) are kept apart, holding their characters.
 */
module StartInfo {
  import opened Wrappers

  type Capture = nat

  datatype CommandStartInfo = CommandStartInfo(
    args: seq<seq<char>>,
    cwd: Option<seq<char>>,
    env: Option<map<seq<char>, Option<seq<char>>>>,
    stdOut: int,
    stdErr: int,
    stdIn: int,
    user: Option<seq<char>>,
    verb: Option<seq<char>>,
    password: Option<seq<char>>,
    passwordInClearText: Option<seq<char>>,
    domain: Option<seq<char>>,
    loadUserProfile: bool,
    createNoWindow: bool,
    useShellExecute: bool,
    stdOutRedirects: Option<seq<Capture>>,
    stdErrorRedirects: Option<seq<Capture>>)

  /** `new CommandStartInfo()`. */
  function Default(): (r: CommandStartInfo)
    ensures r.createNoWindow && !r.useShellExecute && !r.loadUserProfile
    ensures StdOutRedirects(r) == [] && StdErrorRedirects(r) == []
    ensures r.args == [] && r.cwd.None? && r.env.None? && r.user.None? && r.verb.None?
    ensures r.stdIn == 0 && r.stdOut == 0 && r.stdErr == 0
  {
    CommandStartInfo([], None, None, 0, 0, 0, None, None, None, None, None, false, true, false, None, None)
  }

  /** The `StdOutRedirects` getter: a list never created reads as empty. */
  function StdOutRedirects(s: CommandStartInfo): (r: seq<Capture>)
    ensures s.stdOutRedirects.Some? ==> r == s.stdOutRedirects.value
    ensures s.stdOutRedirects.None? ==> r == []
  {
    s.stdOutRedirects.GetOr([])
  }

  /** The `StdErrorRedirects` getter. */
  function StdErrorRedirects(s: CommandStartInfo): (r: seq<Capture>)
    ensures s.stdErrorRedirects.Some? ==> r == s.stdErrorRedirects.value
    ensures s.stdErrorRedirects.None? ==> r == []
  {
    s.stdErrorRedirects.GetOr([])
  }

  /** `RedirectTo(capture)`: appended to the output captures, in call
      order. */
  function RedirectTo(s: CommandStartInfo, capture: Capture): (r: CommandStartInfo)
    ensures StdOutRedirects(r) == StdOutRedirects(s) + [capture]
    ensures StdErrorRedirects(r) == StdErrorRedirects(s)
    ensures r.(stdOutRedirects := s.stdOutRedirects) == s
  {
    s.(stdOutRedirects := Some(s.stdOutRedirects.GetOr([]) + [capture]))
  }

  /** `RedirectErrorTo(capture)`: appended to the error captures only. */
  function RedirectErrorTo(s: CommandStartInfo, capture: Capture): (r: CommandStartInfo)
    ensures StdErrorRedirects(r) == StdErrorRedirects(s) + [capture]
    ensures StdOutRedirects(r) == StdOutRedirects(s)
    ensures r.(stdErrorRedirects := s.stdErrorRedirects) == s
  {
    s.(stdErrorRedirects := Some(s.stdErrorRedirects.GetOr([]) + [capture]))
  }

  // -------------------------------------------------------------- extensions

  /** `WithStdio(stdio)`: the three streams alike. */
  function WithStdio(s: CommandStartInfo, stdio: int): (r: CommandStartInfo)
    ensures r.stdIn == stdio && r.stdOut == stdio && r.stdErr == stdio
    ensures r.(stdIn := s.stdIn, stdOut := s.stdOut, stdErr := s.stdErr) == s
  {
    s.(stdIn := stdio, stdOut := stdio, stdErr := stdio)
  }

  function WithStdIn(s: CommandStartInfo, stdio: int): (r: CommandStartInfo)
    ensures r.stdIn == stdio && r.(stdIn := s.stdIn) == s
  {
    s.(stdIn := stdio)
  }

  function WithStdOut(s: CommandStartInfo, stdio: int): (r: CommandStartInfo)
    ensures r.stdOut == stdio && r.(stdOut := s.stdOut) == s
  {
    s.(stdOut := stdio)
  }

  function WithStdErr(s: CommandStartInfo, stdio: int): (r: CommandStartInfo)
    ensures r.stdErr == stdio && r.(stdErr := s.stdErr) == s
  {
    s.(stdErr := stdio)
  }

  /** `WithArgs(args)` (every overload): the arguments are replaced. */
  function WithArgs(s: CommandStartInfo, args: seq<seq<char>>): (r: CommandStartInfo)
    ensures r.args == args && r.(args := s.args) == s
  {
    s.(args := args)
  }

  /** `AddArg(arg)`: appended to the arguments. */
  function AddArg(s: CommandStartInfo, arg: seq<char>): (r: CommandStartInfo)
    ensures |r.args| == |s.args| + 1 && r.args[..|s.args|] == s.args && r.args[|s.args|] == arg
    ensures r.(args := s.args) == s
  {
    s.(args := s.args + [arg])
  }

  /** `AsUser(user)`. */
  function AsUser(s: CommandStartInfo, user: seq<char>): (r: CommandStartInfo)
    ensures r.user == Some(user) && r.(user := s.user) == s
  {
    s.(user := Some(user))
  }

  /** A password as given to one of the `AsUser` overloads. */
  datatype Password = ClearText(text: seq<char>) | Secure(chars: seq<char>)

  /** `AsUser(user, password[, domain])` (every overload): only on Windows,
      where it sets the user, the password of the kind given, and the domain
      when one is given; elsewhere it throws PlatformNotSupportedException
      before changing anything. */
  function AsUserWithPassword(s: CommandStartInfo, isWindows: bool, user: seq<char>, password: Password,
                              domain: Option<seq<char>>): (r: Result<CommandStartInfo>)
    ensures r.Ok? <==> isWindows
    ensures r.Err? ==> r.error == PlatformNotSupported
    ensures r.Ok? ==> r.value.user == Some(user)
    ensures r.Ok? && password.ClearText? ==> r.value.passwordInClearText == Some(password.text) && r.value.password == s.password
    ensures r.Ok? && password.Secure? ==> r.value.password == Some(password.chars) && r.value.passwordInClearText == s.passwordInClearText
    ensures r.Ok? ==> r.value.domain == if domain.Some? then domain else s.domain
    ensures r.Ok? ==> r.value.(user := s.user, password := s.password, passwordInClearText := s.passwordInClearText,
                               domain := s.domain) == s
  {
    if !isWindows then Err(PlatformNotSupported)
    else
      var s1 := s.(user := Some(user));
      var s2 := match password
        case ClearText(text) => s1.(passwordInClearText := Some(text))
        case Secure(chars) => s1.(password := Some(chars));
      Ok(if domain.Some? then s2.(domain := domain) else s2)
  }

  /** `WithVerb(verb)`. */
  function WithVerb(s: CommandStartInfo, verb: seq<char>): (r: CommandStartInfo)
    ensures r.verb == Some(verb) && r.(verb := s.verb) == s
  {
    s.(verb := Some(verb))
  }

  /** `AsSudo()`. */
  function AsSudo(s: CommandStartInfo): (r: CommandStartInfo)
    ensures r.verb == Some("sudo") && r.(verb := s.verb) == s
  {
    WithVerb(s, "sudo")
  }

  /** `AsAdmin()`. */
  function AsAdmin(s: CommandStartInfo): (r: CommandStartInfo)
    ensures r.verb == Some("runas") && r.(verb := s.verb) == s
  {
    WithVerb(s, "runas")
  }

  /** `AsOsAdmin()`. */
  function AsOsAdmin(s: CommandStartInfo): (r: CommandStartInfo)
    ensures r.verb == Some("admin") && r.(verb := s.verb) == s
  {
    WithVerb(s, "admin")
  }

  /** `AddEnv(key, value)`: the map is created when missing, and the value,
      which may be `null`, is stored under the key. */
  function AddEnv(s: CommandStartInfo, key: seq<char>, value: Option<seq<char>>): (r: CommandStartInfo)
    ensures r.env.Some? && key in r.env.value && r.env.value[key] == value
    ensures forall k :: k != key ==> (k in r.env.value <==> s.env.Some? && k in s.env.value)
    ensures forall k :: k != key && k in r.env.value ==> r.env.value[k] == s.env.value[k]
    ensures r.(env := s.env) == s
  {
    var env := s.env.GetOr(map[]);
    s.(env := Some(env[key := value]))
  }

  /** `WithEnv(env)`: the map is created when missing and every pair of
      `env` is stored in its enumeration order. A dictionary's keys are
      distinct; for a list that repeats a key the later pair wins (see
      `WithEnvLastWins`). */
  function WithEnv(s: CommandStartInfo, pairs: seq<(seq<char>, Option<seq<char>>)>): (r: CommandStartInfo)
    ensures r.env.Some?
    ensures r.env.value.Keys == s.env.GetOr(map[]).Keys + NamesOf(pairs)
    ensures forall k :: k in s.env.GetOr(map[]) && k !in NamesOf(pairs) ==> r.env.value[k] == s.env.value[k]
    ensures r.(env := s.env) == s
  {
    s.(env := Some(Merge(s.env.GetOr(map[]), pairs)))
  }

  /** The keys the pairs name. */
  function NamesOf(pairs: seq<(seq<char>, Option<seq<char>>)>): (r: set<seq<char>>)
    ensures forall i :: 0 <= i < |pairs| ==> pairs[i].0 in r
    decreases |pairs|
  {
    if |pairs| == 0 then {}
    else
      var r := {pairs[0].0} + NamesOf(pairs[1..]);
      assert forall i :: 1 <= i < |pairs| ==> pairs[1..][i - 1] == pairs[i];
      r
  }

  /** A key no pair names is not among the names. */
  lemma {:induction false} NotNamed(pairs: seq<(seq<char>, Option<seq<char>>)>, k: seq<char>)
    requires forall i :: 0 <= i < |pairs| ==> pairs[i].0 != k
    ensures k !in NamesOf(pairs)
    decreases |pairs|
  {
    if |pairs| > 0 {
      assert forall i :: 1 <= i < |pairs| ==> pairs[1..][i - 1] == pairs[i];
      NotNamed(pairs[1..], k);
    }
  }

  /** The loop of `WithEnv`: the named keys are added, and a key no pair
      names keeps its value. */
  function Merge(env: map<seq<char>, Option<seq<char>>>, pairs: seq<(seq<char>, Option<seq<char>>)>)
    : (r: map<seq<char>, Option<seq<char>>>)
    ensures r.Keys == env.Keys + NamesOf(pairs)
    ensures forall k :: k in env && k !in NamesOf(pairs) ==> r[k] == env[k]
    decreases |pairs|
  {
    if |pairs| == 0 then env
    else Merge(env[pairs[0].0 := pairs[0].1], pairs[1..])
  }

  /** After `WithEnv`, a key holds the value of the last pair naming it. */
  lemma {:induction false} MergeLastWins(env: map<seq<char>, Option<seq<char>>>,
                                         pairs: seq<(seq<char>, Option<seq<char>>)>, i: int)
    requires 0 <= i < |pairs|
    requires forall j :: i < j < |pairs| ==> pairs[j].0 != pairs[i].0
    ensures Merge(env, pairs)[pairs[i].0] == pairs[i].1
    decreases |pairs|
  {
    var rest := pairs[1..];
    assert forall j :: 1 <= j < |pairs| ==> rest[j - 1] == pairs[j];
    if i == 0 {
      NotNamed(rest, pairs[0].0);
    } else {
      MergeLastWins(env[pairs[0].0 := pairs[0].1], rest, i - 1);
    }
  }

  /** `WithEnv` stores the last value given for each key. */
  lemma WithEnvLastWins(s: CommandStartInfo, pairs: seq<(seq<char>, Option<seq<char>>)>, i: int)
    requires 0 <= i < |pairs|
    requires forall j :: i < j < |pairs| ==> pairs[j].0 != pairs[i].0
    ensures WithEnv(s, pairs).env.value[pairs[i].0] == pairs[i].1
  {
    MergeLastWins(s.env.GetOr(map[]), pairs, i);
  }

  /** `WithShellExecute(shellExecute)`. */
  function WithShellExecute(s: CommandStartInfo, shellExecute: bool): (r: CommandStartInfo)
    ensures r.useShellExecute == shellExecute && r.(useShellExecute := s.useShellExecute) == s
  {
    s.(useShellExecute := shellExecute)
  }

  /** `WithWindow(createWindow)`: no window exactly when none is asked for. */
  function WithWindow(s: CommandStartInfo, createWindow: bool): (r: CommandStartInfo)
    ensures r.createNoWindow <==> !createWindow
    ensures r.(createNoWindow := s.createNoWindow) == s
  {
    s.(createNoWindow := !createWindow)
  }

  /** `WithCwd(workingDirectory)`. */
  function WithCwd(s: CommandStartInfo, workingDirectory: seq<char>): (r: CommandStartInfo)
    ensures r.cwd == Some(workingDirectory) && r.(cwd := s.cwd) == s
  {
    s.(cwd := Some(workingDirectory))
  }

  /** `WithWorkingDirectory(workingDirectory)`. */
  function WithWorkingDirectory(s: CommandStartInfo, workingDirectory: seq<char>): (r: CommandStartInfo)
    ensures r.cwd == Some(workingDirectory) && r.(cwd := s.cwd) == s
  {
    WithCwd(s, workingDirectory)
  }

  // ------------------------------------------------------------------- laws

  /** Setting all three streams is setting each in turn. */
  lemma WithStdioIsEachStream(s: CommandStartInfo, stdio: int)
    ensures WithStdio(s, stdio) == WithStdErr(WithStdOut(WithStdIn(s, stdio), stdio), stdio)
  {
  }

  /** The elevation verbs are `WithVerb` with fixed names. */
  lemma VerbsAreWithVerb(s: CommandStartInfo)
    ensures AsSudo(s) == WithVerb(s, "sudo")
    ensures AsAdmin(s) == WithVerb(s, "runas")
    ensures AsOsAdmin(s) == WithVerb(s, "admin")
  {
  }

  /** `WithEnv` creates the map like `AddEnv` and then is `AddEnv` for each
      pair in order. */
  lemma {:induction false} WithEnvIsAddEnvEach(s: CommandStartInfo, pairs: seq<(seq<char>, Option<seq<char>>)>)
    ensures WithEnv(s, pairs) == AddEnvEach(s.(env := Some(s.env.GetOr(map[]))), pairs)
    decreases |pairs|
  {
    if |pairs| > 0 {
      var s1 := AddEnv(s, pairs[0].0, pairs[0].1);
      WithEnvIsAddEnvEach(s1, pairs[1..]);
      assert s1.env.GetOr(map[]) == s.env.GetOr(map[])[pairs[0].0 := pairs[0].1];
    }
  }

  /** `AddEnv` for each pair in order. */
  function AddEnvEach(s: CommandStartInfo, pairs: seq<(seq<char>, Option<seq<char>>)>): (r: CommandStartInfo)
    ensures |pairs| > 0 ==> r.env.Some?
    decreases |pairs|
  {
    if |pairs| == 0 then s else AddEnvEach(AddEnv(s, pairs[0].0, pairs[0].1), pairs[1..])
  }

  /** The redirect lists only grow: each redirect keeps the captures already
      there, whatever is set in between. */
  lemma RedirectsOnlyGrow(s: CommandStartInfo, out: Capture, err: Capture, stdio: int)
    ensures StdOutRedirects(RedirectErrorTo(WithStdio(RedirectTo(s, out), stdio), err)) == StdOutRedirects(s) + [out]
    ensures StdErrorRedirects(RedirectErrorTo(WithStdio(RedirectTo(s, out), stdio), err)) == StdErrorRedirects(s) + [err]
  {
  }

  /** Off Windows, asking for a user with a password leaves the start-info
      as it was and fails. */
  lemma PasswordNeedsWindows(s: CommandStartInfo, user: seq<char>, password: Password, domain: Option<seq<char>>)
    ensures AsUserWithPassword(s, false, user, password, domain) == Err(PlatformNotSupported)
  {
  }
}

=== FILE: dictionaries.dfy ===
/** `Dictionary<string, V>` with a key comparer, as the key-value stores of
    the library use it.

    An entry is filed under the comparer's form of its key (the key itself,
    or its case-folded form) and remembers the key as it was first added:
    overwriting an entry through the indexer keeps the stored key and
    replaces only the value, as .NET's `Dictionary` does.
 */
module Dictionaries {
  import opened Wrappers
  import opened CaseFold

  datatype Comparer = Ordinal | OrdinalIgnoreCase

  /** The form under which the comparer files a key. */
  function KeyOf(cmp: Comparer, key: seq<char>): seq<char> {
    if cmp == OrdinalIgnoreCase then Fold(key) else key
  }

  /** Two keys the comparer treats as the same key. */
  predicate SameKey(cmp: Comparer, a: seq<char>, b: seq<char>) {
    KeyOf(cmp, a) == KeyOf(cmp, b)
  }

  datatype Dict<V> = Dict(cmp: Comparer, entries: map<seq<char>, (seq<char>, V)>)

  /** Every entry is filed under the comparer's form of its stored key. */
  predicate Valid<V>(d: Dict<V>) {
    forall n :: n in d.entries ==> KeyOf(d.cmp, d.entries[n].0) == n
  }

  function Empty<V>(cmp: Comparer): (r: Dict<V>)
    ensures Valid(r) && r.cmp == cmp
    ensures forall k :: TryGetValue(r, k) == None
  {
    Dict(cmp, map[])
  }

  /** `TryGetValue(key, out value)`. */
  function TryGetValue<V>(d: Dict<V>, key: seq<char>): (r: Option<V>)
    ensures r.Some? <==> KeyOf(d.cmp, key) in d.entries
    ensures r.Some? ==> r.value == d.entries[KeyOf(d.cmp, key)].1
  {
    var n := KeyOf(d.cmp, key);
    if n in d.entries then Some(d.entries[n].1) else None
  }

  /** `ContainsKey(key)`. */
  predicate ContainsKey<V>(d: Dict<V>, key: seq<char>) {
    TryGetValue(d, key).Some?
  }

  /** The indexer's setter `d[key] = value`. */
  function Put<V>(d: Dict<V>, key: seq<char>, value: V): (r: Dict<V>)
    ensures Valid(d) ==> Valid(r)
    ensures r.cmp == d.cmp
    ensures TryGetValue(r, key) == Some(value)
    ensures forall k :: !SameKey(d.cmp, k, key) ==> TryGetValue(r, k) == TryGetValue(d, k)
  {
    var n := KeyOf(d.cmp, key);
    if n in d.entries then Dict(d.cmp, d.entries[n := (d.entries[n].0, value)])
    else Dict(d.cmp, d.entries[n := (key, value)])
  }

  /** `Add(key, value)`: throws ArgumentException when the key is present. */
  function Add<V>(d: Dict<V>, key: seq<char>, value: V): (r: Result<Dict<V>>)
    ensures r.Ok? <==> !ContainsKey(d, key)
    ensures r.Err? ==> r.error == ArgumentError
    ensures r.Ok? ==> r.value == Put(d, key, value)
  {
    if ContainsKey(d, key) then Err(ArgumentError) else Ok(Put(d, key, value))
  }

  /** `Remove(key)`; a missing key is not an error. */
  function Remove<V>(d: Dict<V>, key: seq<char>): (r: Dict<V>)
    ensures Valid(d) ==> Valid(r)
    ensures r.cmp == d.cmp
    ensures TryGetValue(r, key) == None
    ensures forall k :: !SameKey(d.cmp, k, key) ==> TryGetValue(r, k) == TryGetValue(d, k)
  {
    Dict(d.cmp, d.entries - {KeyOf(d.cmp, key)})
  }

  /** The keys as stored. */
  function Keys<V>(d: Dict<V>): set<seq<char>> {
    set n | n in d.entries :: d.entries[n].0
  }

  /** The entries as a map from stored key to value, which is what enumerating
      the dictionary into another one yields. */
  function ToMap<V>(d: Dict<V>): (r: map<seq<char>, V>)
    requires Valid(d)
    ensures r.Keys == Keys(d)
    ensures forall k :: k in r ==> TryGetValue(d, k) == Some(r[k])
  {
    map k | k in Keys(d) :: d.entries[KeyOf(d.cmp, k)].1
  }

  /** `new Dictionary<string, V>(pairs, comparer)`: the pairs are added in
      order, so two keys the comparer treats as one make it throw. */
  function FromPairs<V>(cmp: Comparer, pairs: seq<(seq<char>, V)>): (r: Result<Dict<V>>)
    ensures r.Ok? <==> forall i, j :: 0 <= i < j < |pairs| ==> !SameKey(cmp, pairs[i].0, pairs[j].0)
    ensures r.Err? ==> r.error == ArgumentError
    ensures r.Ok? ==> Valid(r.value) && r.value.cmp == cmp
    ensures r.Ok? ==> forall i :: 0 <= i < |pairs| ==> TryGetValue(r.value, pairs[i].0) == Some(pairs[i].1)
    decreases |pairs|, 1
  {
    if |pairs| == 0 then Ok(Empty(cmp))
    else
      var last := pairs[|pairs| - 1];
      match FromPairs(cmp, pairs[..|pairs| - 1])
      case Err(e) => Err(e)
      case Ok(d) =>
        var init := pairs[..|pairs| - 1];
        assert forall i :: 0 <= i < |init| ==> init[i] == pairs[i];
        if ContainsKey(d, last.0) then
          assert !(forall i, j :: 0 <= i < j < |pairs| ==> !SameKey(cmp, pairs[i].0, pairs[j].0)) by {
            FromPairsHoldsOnlyTheirKeys(cmp, init, last.0);
            var i :| 0 <= i < |init| && SameKey(cmp, last.0, init[i].0);
            assert SameKey(cmp, pairs[i].0, pairs[|pairs| - 1].0);
          }
          Err(ArgumentError)
        else
          Ok(Put(d, last.0, last.1))
  }

  /** A dictionary built from pairs holds no key but theirs. */
  lemma {:induction false} FromPairsHoldsOnlyTheirKeys<V>(cmp: Comparer, pairs: seq<(seq<char>, V)>, k: seq<char>)
    requires FromPairs(cmp, pairs).Ok?
    requires ContainsKey(FromPairs(cmp, pairs).value, k)
    ensures exists i :: 0 <= i < |pairs| && SameKey(cmp, k, pairs[i].0)
    decreases |pairs|, 2
  {
    var init := pairs[..|pairs| - 1];
    var last := pairs[|pairs| - 1];
    var d := FromPairs(cmp, init).value;
    if SameKey(cmp, k, last.0) {
      assert SameKey(cmp, k, pairs[|pairs| - 1].0);
    } else {
      assert ContainsKey(d, k);
      FromPairsHoldsOnlyTheirKeys(cmp, init, k);
      var i :| 0 <= i < |init| && SameKey(cmp, k, init[i].0);
      assert init[i] == pairs[i];
    }
  }

  /** Keys are looked up through the comparer: under OrdinalIgnoreCase, keys
      that differ only in case find the same entry. */
  lemma LookupIgnoresCase<V>(d: Dict<V>, a: seq<char>, b: seq<char>)
    requires d.cmp == OrdinalIgnoreCase && EqualsIgnoreCase(a, b)
    ensures TryGetValue(d, a) == TryGetValue(d, b)
  {
  }

  /** Putting adds the key to the stored keys only when it is new. */
  lemma PutKeys<V>(d: Dict<V>, key: seq<char>, value: V)
    requires Valid(d)
    ensures ContainsKey(d, key) ==> Keys(Put(d, key, value)) == Keys(d)
    ensures !ContainsKey(d, key) ==> Keys(Put(d, key, value)) == Keys(d) + {key}
  {
    var r := Put(d, key, value);
    var n := KeyOf(d.cmp, key);
    if n in d.entries {
      forall k | k in Keys(r) ensures k in Keys(d) {
        var m :| m in r.entries && r.entries[m].0 == k;
        assert d.entries[m].0 == k;
      }
      forall k | k in Keys(d) ensures k in Keys(r) {
        var m :| m in d.entries && d.entries[m].0 == k;
        assert r.entries[m].0 == k;
      }
    } else {
      forall k | k in Keys(r) ensures k in Keys(d) + {key} {
        var m :| m in r.entries && r.entries[m].0 == k;
        if m != n {
          assert d.entries[m].0 == k;
        }
      }
      forall k | k in Keys(d) + {key} ensures k in Keys(r) {
        if k == key {
          assert r.entries[n].0 == k;
        } else {
          var m :| m in d.entries && d.entries[m].0 == k;
          assert r.entries[m].0 == k;
        }
      }
    }
  }

  /** Overwriting keeps the key as first stored. */
  lemma PutKeepsStoredKey<V>(d: Dict<V>, key: seq<char>, other: seq<char>, v: V, w: V)
    requires Valid(d) && !ContainsKey(d, key) && SameKey(d.cmp, key, other)
    ensures Keys(Put(Put(d, key, v), other, w)) == Keys(d) + {key}
    ensures TryGetValue(Put(Put(d, key, v), other, w), key) == Some(w)
  {
    PutKeys(d, key, v);
    PutKeys(Put(d, key, v), other, w);
  }

  /** Removing what was just put leaves the dictionary as it was, when the key
      was absent. */
  lemma RemoveUndoesPut<V>(d: Dict<V>, key: seq<char>, v: V)
    requires !ContainsKey(d, key)
    ensures Remove(Put(d, key, v), key) == d
  {
    assert Put(d, key, v).entries - {KeyOf(d.cmp, key)} == d.entries;
  }
}

=== FILE: dynamic_list.dfy ===
/** `DynamicList<T>`: a `List<T>` with a forgiving indexer and a few
    JavaScript-style helpers. The list is its sequence of elements; each
    mutating member returns the list afterwards. `dflt` is `default(T)`.
 */
module DynamicList {
  import opened Wrappers

  // -------------------------------------------------------------- indexer

  /** `List<T>`'s own indexer: an index outside the list throws
      ArgumentOutOfRangeException. */
  function BaseGet<T>(list: seq<T>, index: int): (r: Result<T>)
    ensures r.Ok? <==> 0 <= index < |list|
    ensures r.Ok? ==> r.value == list[index]
    ensures r.Err? ==> r.error == ArgumentOutOfRange
  {
    if 0 <= index < |list| then Ok(list[index]) else Err(ArgumentOutOfRange)
  }

  /** The getter, as written: an index at or past the end yields the default
      value, and a negative index above `-Count` reads at `Count - index`,
      which is past the end, so every negative index throws. */
  function Get<T>(list: seq<T>, index: int, dflt: T): (r: Result<T>)
    ensures index >= |list| ==> r == Ok(dflt)
    ensures 0 <= index < |list| ==> r == Ok(list[index])
    ensures index < 0 ==> r == Err(ArgumentOutOfRange)
  {
    if index >= |list| then Ok(dflt)
    else if index < 0 && index > -|list| then
      var i := |list| - index;
      BaseGet(list, i)
    else BaseGet(list, index)
  }

  /** The getter as evidently intended: a negative index counts from the end. */
  function GetFixed<T>(list: seq<T>, index: int, dflt: T): (r: Result<T>)
    ensures index >= |list| ==> r == Ok(dflt)
    ensures 0 <= index < |list| ==> r == Ok(list[index])
    ensures -|list| < index < 0 ==> r == Ok(list[|list| + index])
    ensures index <= -|list| && index < 0 ==> r == Err(ArgumentOutOfRange)
  {
    if index >= |list| then Ok(dflt)
    else if index < 0 && index > -|list| then
      var i := |list| + index;
      BaseGet(list, i)
    else BaseGet(list, index)
  }

  /** Reading the last element through index -1. */
  lemma NegativeIndexExample()
    ensures Get([10, 20, 30], -1, 0) == Err(ArgumentOutOfRange)
    ensures GetFixed([10, 20, 30], -1, 0) == Ok(30)
  {
  }

  /** With the correction, index `-k` reads what index `Count - k` reads. */
  lemma GetFixedNegativeMirrors<T>(list: seq<T>, k: int, dflt: T)
    requires 0 < k < |list|
    ensures GetFixed(list, -k, dflt) == Get(list, |list| - k, dflt)
  {
  }

  /** The setter: `List<T>`'s own, which throws outside the list. */
  function Set<T>(list: seq<T>, index: int, value: T): (r: Result<seq<T>>)
    ensures r.Ok? <==> 0 <= index < |list|
    ensures r.Ok? ==> |r.value| == |list| && r.value[index] == value
    ensures r.Ok? ==> forall k :: 0 <= k < |list| && k != index ==> r.value[k] == list[k]
    ensures r.Err? ==> r.error == ArgumentOutOfRange
  {
    if 0 <= index < |list| then Ok(list[index := value]) else Err(ArgumentOutOfRange)
  }

  /** What is written is what is read back. */
  lemma SetThenGet<T>(list: seq<T>, index: int, value: T, dflt: T)
    requires 0 <= index < |list|
    ensures Get(Set(list, index, value).value, index, dflt) == Ok(value)
  {
  }

  // ------------------------------------------------------------ predicates

  /** `MatchAll(predicate)`: stops at the first element that fails. */
  method MatchAll<T>(list: seq<T>, test: T -> bool) returns (r: bool)
    ensures r <==> forall k :: 0 <= k < |list| ==> test(list[k])
  {
    var i := 0;
    while i < |list|
      invariant 0 <= i <= |list|
      invariant forall k :: 0 <= k < i ==> test(list[k])
    {
      if !test(list[i]) {
        return false;
      }
      i := i + 1;
    }
    return true;
  }

  /** `MatchOne(predicate)`: stops at the first element that passes. */
  method MatchOne<T>(list: seq<T>, test: T -> bool) returns (r: bool)
    ensures r <==> exists k :: 0 <= k < |list| && test(list[k])
  {
    var i := 0;
    while i < |list|
      invariant 0 <= i <= |list|
      invariant forall k :: 0 <= k < i ==> !test(list[k])
    {
      if test(list[i]) {
        return true;
      }
      i := i + 1;
    }
    return false;
  }

  // --------------------------------------------------------------- convert

  /** `ConvertAll(converter)`: a new list of the converted elements. */
  function ConvertAll<T, U>(list: seq<T>, converter: T -> U): (r: seq<U>)
    ensures |r| == |list|
    ensures forall k :: 0 <= k < |list| ==> r[k] == converter(list[k])
  {
    seq(|list|, k requires 0 <= k < |list| => converter(list[k]))
  }

  // ------------------------------------------------------------------ fill

  /** `Fill(value, startIndex, count)`: stores `value` from `startIndex` up to
      `min(Count, count)` through the setter. A negative start that still lies
      below that bound makes the first store throw. `count` acts as an end
      position, not a number of elements: on a list of three, a start of 2
      and a count of 1 store nothing. */
  method Fill<T>(list: seq<T>, value: T, startIndex: int, count: int) returns (r: Result<seq<T>>)
    ensures var c := if |list| <= count then |list| else count;
            r.Ok? <==> !(startIndex < 0 && startIndex < c)
    ensures var c := if |list| <= count then |list| else count;
            r.Ok? ==> |r.value| == |list|
                      && forall k :: 0 <= k < |list| ==> r.value[k] == (if startIndex <= k < c then value else list[k])
    ensures r.Err? ==> r.error == ArgumentOutOfRange
  {
    var c := if |list| <= count then |list| else count;
    var current := list;
    var i := startIndex;
    if i < 0 && i < c {
      return Err(ArgumentOutOfRange);
    }
    while i < c
      invariant |current| == |list|
      invariant startIndex <= i
      invariant i < c ==> 0 <= i
      invariant forall k :: 0 <= k < |list| ==> current[k] == (if startIndex <= k < i && k < c then value else list[k])
      decreases c - i
    {
      var next := Set(current, i, value);
      current := next.value;
      i := i + 1;
    }
    return Ok(current);
  }

  /** `Fill(value)`: every element becomes `value`. */
  method FillAll<T>(list: seq<T>, value: T) returns (r: seq<T>)
    ensures |r| == |list| && forall k :: 0 <= k < |r| ==> r[k] == value
  {
    var filled := Fill(list, value, 0, |list|);
    r := filled.value;
  }

  // ------------------------------------------------------------------- pop

  /** `Pop()`: the last element and the list without it; an empty list gives
      the default value and stays empty. */
  function Pop<T>(list: seq<T>, dflt: T): (r: (T, seq<T>))
    ensures |list| == 0 ==> r == (dflt, list)
    ensures |list| > 0 ==> r.1 + [r.0] == list
  {
    if |list| == 0 then (dflt, list)
    else
      var index := |list| - 1;
      (list[index], list[..index])
  }

  /** `Pop` takes back an `Add`. */
  lemma PopUndoesAdd<T>(list: seq<T>, x: T, dflt: T)
    ensures Pop(list + [x], dflt) == (x, list)
  {
    assert (list + [x])[..|list|] == list;
  }

  // ---------------------------------------------------------------- reduce

  /** The left fold: `f(... f(f(init, s[0]), s[1]) ..., s[n-1])`. */
  function FoldLeft<T>(f: (T, T) -> T, init: T, s: seq<T>): T
  {
    if |s| == 0 then init else f(FoldLeft(f, init, s[..|s| - 1]), s[|s| - 1])
  }

  /** `Reduce(reducer, initial)`. */
  method Reduce<T>(list: seq<T>, reducer: (T, T) -> T, initial: T) returns (r: T)
    ensures r == FoldLeft(reducer, initial, list)
  {
    r := initial;
    var i := 0;
    while i < |list|
      invariant 0 <= i <= |list|
      invariant r == FoldLeft(reducer, initial, list[..i])
    {
      assert list[..i + 1][..i] == list[..i];
      r := reducer(r, list[i]);
      i := i + 1;
    }
    assert list[..i] == list;
  }

  /** `Reduce(reducer)`: the default value for an empty list, otherwise the
      fold of the rest starting from the first element. */
  method Reduce1<T>(list: seq<T>, reducer: (T, T) -> T, dflt: T) returns (r: T)
    ensures |list| == 0 ==> r == dflt
    ensures |list| > 0 ==> r == FoldLeft(reducer, list[0], list[1..])
  {
    if |list| == 0 {
      return dflt;
    }
    r := list[0];
    var i := 1;
    while i < |list|
      invariant 1 <= i <= |list|
      invariant r == FoldLeft(reducer, list[0], list[1..i])
    {
      assert list[1..i + 1][..i - 1] == list[1..i];
      r := reducer(r, list[i]);
      i := i + 1;
    }
    assert list[1..i] == list[1..];
  }

  /** Folding a concatenation folds the second part from the first part's result. */
  lemma {:induction false} FoldLeftAppend<T>(f: (T, T) -> T, init: T, a: seq<T>, b: seq<T>)
    ensures FoldLeft(f, init, a + b) == FoldLeft(f, FoldLeft(f, init, a), b)
    decreases |b|
  {
    if |b| > 0 {
      assert (a + b)[..|a + b| - 1] == a + b[..|b| - 1];
      FoldLeftAppend(f, init, a, b[..|b| - 1]);
    } else {
      assert a + b == a;
    }
  }

  /** Reducing without a seed is reducing the tail with the head as seed, and
      reducing with a seed is reducing the list with the seed in front. */
  lemma ReduceSeedInFront<T>(f: (T, T) -> T, init: T, list: seq<T>)
    ensures FoldLeft(f, init, list) == FoldLeft(f, ([init] + list)[0], ([init] + list)[1..])
  {
    assert ([init] + list)[1..] == list;
  }

  // ----------------------------------------------------------- removeRange

  /** Where `item` first occurs in `list`, or `|list|` when it does not:
      the reference for which occurrence `Remove` takes out. */
  function FirstIndex<T(==)>(list: seq<T>, item: T): (i: nat)
    ensures i <= |list|
    ensures i < |list| ==> list[i] == item
    ensures forall k :: 0 <= k < i ==> list[k] != item
  {
    if |list| == 0 || list[0] == item then 0
    else 1 + FirstIndex(list[1..], item)
  }

  /** `List<T>.Remove(item)`: finds the first occurrence with `IndexOf`
      and, if there is one, removes it with `RemoveAt`, reporting whether
      one was found (`EqualityComparer<T>.Default` taken as `==`). */
  function RemoveFirst<T(==)>(list: seq<T>, item: T): (r: (bool, seq<T>))
    ensures r.0 <==> item in list
    ensures r.0 ==> exists i :: 0 <= i < |list| && list[i] == item
                      && (forall k :: 0 <= k < i ==> list[k] != item)
                      && r.1 == list[..i] + list[i + 1..]
    ensures multiset(r.1) == multiset(list) - multiset{item}
    ensures !r.0 ==> r.1 == list
  {
    var i := FirstIndex(list, item);
    if i < |list| then
      SpliceMultiset(list, i);
      (true, list[..i] + list[i + 1..])
    else
      (false, list)
  }

  /** Splicing out position `i` takes one copy of `list[i]` out of the
      multiset. */
  lemma SpliceMultiset<T>(list: seq<T>, i: int)
    requires 0 <= i < |list|
    ensures multiset(list[..i] + list[i + 1..]) == multiset(list) - multiset{list[i]}
  {
    assert list == list[..i] + [list[i]] + list[i + 1..];
  }

  /** `RemoveRange(items)`: one `Remove` per item, in order; true when at
      least one of them removed something. The remaining list is the
      multiset difference, and something was removed exactly when the two
      share an element. */
  function RemoveRange<T(==)>(list: seq<T>, items: seq<T>): (r: (bool, seq<T>))
    ensures multiset(r.1) == multiset(list) - multiset(items)
    ensures r.0 <==> exists k :: 0 <= k < |items| && items[k] in list
    decreases |items|
  {
    if |items| == 0 then (false, list)
    else
      var first := RemoveFirst(list, items[0]);
      var rest := RemoveRange(first.1, items[1..]);
      DifferenceStep(list, items, first.1, rest.1);
      SharedAfterRemove(list, items, first.1);
      (first.0 || rest.0, rest.1)
  }

  /** `RemoveRange` is `Remove` folded over the items in order: removing two
      runs of items is removing the first run, then the second. */
  lemma {:induction false} RemoveRangeAppend<T>(list: seq<T>, a: seq<T>, b: seq<T>)
    ensures RemoveRange(list, a + b).1 == RemoveRange(RemoveRange(list, a).1, b).1
    ensures RemoveRange(list, a + b).0 == (RemoveRange(list, a).0 || RemoveRange(RemoveRange(list, a).1, b).0)
    decreases |a|
  {
    if |a| == 0 {
      assert a + b == b;
    } else {
      assert (a + b)[0] == a[0];
      assert (a + b)[1..] == a[1..] + b;
      RemoveRangeAppend(RemoveFirst(list, a[0]).1, a[1..], b);
    }
  }

  /** One item is one `Remove`, so the last item of a range is removed from
      what the earlier ones left. */
  lemma RemoveRangeLast<T>(list: seq<T>, items: seq<T>)
    requires |items| > 0
    ensures RemoveRange(list, items).1
            == RemoveFirst(RemoveRange(list, items[..|items| - 1]).1, items[|items| - 1]).1
  {
    var n := |items| - 1;
    assert items == items[..n] + [items[n]];
    RemoveRangeAppend(list, items[..n], [items[n]]);
    assert [items[n]][1..] == [];
  }

  /** Taking away the first item and then the others takes away all of them. */
  lemma DifferenceStep<T>(list: seq<T>, items: seq<T>, after: seq<T>, final: seq<T>)
    requires |items| > 0
    requires multiset(after) == multiset(list) - multiset{items[0]}
    requires multiset(final) == multiset(after) - multiset(items[1..])
    ensures multiset(final) == multiset(list) - multiset(items)
  {
    assert items == [items[0]] + items[1..];
    assert multiset(items) == multiset{items[0]} + multiset(items[1..]);
    forall y
      ensures multiset(final)[y] == (multiset(list) - multiset(items))[y]
    {
    }
  }

  /** After the first item has had its `Remove`, a later item is still in
      the list exactly when it was in the original list, unless it equals the
      first item, which was then found already. */
  lemma SharedAfterRemove<T>(list: seq<T>, items: seq<T>, after: seq<T>)
    requires |items| > 0
    requires multiset(after) == multiset(list) - multiset{items[0]}
    ensures (items[0] in list || exists k :: 0 <= k < |items| - 1 && items[1..][k] in after)
            <==> exists k :: 0 <= k < |items| && items[k] in list
  {
    forall k | 0 <= k < |items| - 1 && items[1..][k] in after
      ensures items[k + 1] in list
    {
      assert multiset(after)[items[k + 1]] > 0;
    }
    if exists k :: 0 <= k < |items| && items[k] in list {
      var k :| 0 <= k < |items| && items[k] in list;
      if k > 0 && items[k] != items[0] {
        assert multiset(list)[items[k]] > 0;
        assert multiset(after)[items[k]] == multiset(list)[items[k]];
        assert items[1..][k - 1] in after;
      } else if k > 0 {
        assert items[0] in list;
      }
    }
  }
}

=== FILE: enumerable_extensions.dfy ===
/** `EnumerableExtensions`: copying an `IEnumerable<T>` into a span and
    comparing two enumerables element by element.

    An enumerable is its runtime shape and its enumeration order (an
    `Enumerable<T>` of `Buffers`); a nullable enumerable is an `Option`.
 */
module EnumerableExtensions {
  import opened Wrappers
  import opened Buffers
  import ArrayExtensions

  // ------------------------------------------------------------ LINQ parts

  /** `Enumerable.Skip(count)`: a non-positive count skips nothing. */
  function Skip<T>(s: seq<T>, count: int): (r: seq<T>)
    ensures count <= 0 ==> r == s
    ensures 0 <= count <= |s| ==> s[..count] + r == s
    ensures count > |s| ==> r == []
  {
    if count <= 0 then s else if count >= |s| then [] else s[count..]
  }

  /** `Enumerable.Take(count)`: a non-positive count takes nothing. */
  function Take<T>(s: seq<T>, count: int): (r: seq<T>)
    ensures count <= 0 ==> r == []
    ensures 0 <= count <= |s| ==> r + s[count..] == s && |r| == count
    ensures count > |s| ==> r == s
  {
    if count <= 0 then [] else if count >= |s| then s else s[..count]
  }

  function Min(a: int, b: int): int {
    if a <= b then a else b
  }

  // -------------------------------------------------------- ToSpan (window)

  /** The loop of `ToSpan(self, destination, index, length)`, one item per
      call: `i` is the loop counter, `s1` and `s2` are `length - 1` and
      `destination.Length - 1`. The loop stops when `i` reaches either; an
      item with `i < index` is skipped without advancing `i`. */
  function ToSpanLoop<T>(items: seq<T>, i: int, index: int, s1: int, s2: int, destination: seq<T>): (r: Result<seq<T>>)
    ensures i < index ==> r == Ok(destination)
    ensures r.Ok? ==> |r.value| == |destination|
    decreases |items|
  {
    if |items| == 0 then Ok(destination)
    else if i == s1 || i == s2 then Ok(destination)
    else if i < index then ToSpanLoop(items[1..], i, index, s1, s2, destination)
    else
      var d :- SetAt(destination, i, items[0]);
      ToSpanLoop(items[1..], i + 1, index, s1, s2, d)
  }

  /** Once past `index`, the loop writes items from position `i` on until it
      reaches the smaller stop value or runs out of items. */
  lemma {:induction false} ToSpanLoopWrites<T>(items: seq<T>, i: int, index: int, s1: int, destination: seq<T>)
    requires index <= i && 0 <= i <= s1 && i < |destination|
    ensures var m := Min(|items|, Min(s1, |destination| - 1) - i);
            ToSpanLoop(items, i, index, s1, |destination| - 1, destination)
              == Ok(destination[..i] + items[..m] + destination[i + m..])
    decreases |items|
  {
    var s2 := |destination| - 1;
    var m := Min(|items|, Min(s1, s2) - i);
    if |items| == 0 || i == s1 || i == s2 {
      assert m == 0;
      assert destination[..i] + items[..0] + destination[i..] == destination;
    } else {
      var d := destination[i := items[0]];
      assert SetAt(destination, i, items[0]) == Ok(d);
      assert ToSpanLoop(items, i, index, s1, s2, destination) == ToSpanLoop(items[1..], i + 1, index, s1, s2, d);
      ToSpanLoopWrites(items[1..], i + 1, index, s1, d);
      var m' := Min(|items| - 1, Min(s1, s2) - (i + 1));
      assert m == m' + 1;
      StoreThenCopy(destination, i, items, m');
    }
  }

  /** Storing `items[0]` at `i` and then `m'` more items after it writes the
      first `m' + 1` items from `i`. */
  lemma StoreThenCopy<T>(destination: seq<T>, i: nat, items: seq<T>, m': nat)
    requires i < |destination| && 0 < |items| && m' < |items| && i + 1 + m' <= |destination|
    ensures var d := destination[i := items[0]];
            d[..i + 1] + items[1..][..m'] + d[i + 1 + m'..]
              == destination[..i] + items[..m' + 1] + destination[i + 1 + m'..]
  {
    var d := destination[i := items[0]];
    assert d[..i + 1] == destination[..i] + [items[0]];
    assert items[..m' + 1] == [items[0]] + items[1..][..m'];
    assert d[i + 1 + m'..] == destination[i + 1 + m'..];
  }

  /** `self.ToSpan(destination, index, length)`, as written: the items are
      `self.Skip(index).Take(length)`, and the loop both skips them again
      (`if (i < index) continue;`, which never advances `i`) and stops one
      item early (`i == length - 1` or `i == destination.Length - 1`). With an
      empty destination nothing stops the loop, and the first store throws. */
  function ToSpanWindow<T>(self: seq<T>, destination: seq<T>, index: int, length: int): (r: Result<seq<T>>)
    ensures index > 0 ==> r == Ok(destination)
    ensures length <= 0 ==> r == Ok(destination)
    ensures index <= 0 && |destination| > 0 && length > 0 ==>
      var items := Take(self, length);
      var m := Min(|items|, Min(length - 1, |destination| - 1));
      r == Ok(items[..m] + destination[m..])
    ensures index <= 0 && |destination| == 0 ==>
      r == (if |self| > 0 && length > 1 then Err(IndexOutOfRange) else Ok(destination))
  {
    var items := Take(Skip(self, index), length);
    var r := ToSpanLoop(items, 0, index, length - 1, |destination| - 1, destination);
    if index <= 0 && |destination| > 0 && length > 0 then
      assert Skip(self, index) == self;
      ToSpanLoopWrites(items, 0, index, length - 1, destination);
      var m := Min(|items|, Min(length - 1, |destination| - 1));
      assert destination[..0] + items[..m] + destination[m..] == items[..m] + destination[m..];
      r
    else r
  }

  /** `ToSpan(destination, index, length)` as evidently intended: the window
      `Skip(index).Take(length)` lands at the front of the destination, as far
      as the destination reaches. */
  function ToSpanWindowFixed<T>(self: seq<T>, destination: seq<T>, index: int, length: int): (r: seq<T>)
    ensures var items := Take(Skip(self, index), length);
            var m := Min(|items|, |destination|);
            r == items[..m] + destination[m..]
  {
    var items := Take(Skip(self, index), length);
    var m := Min(|items|, |destination|);
    WriteEachIsSplice(destination, 0, items[..m]);
    WriteEach(destination, 0, items[..m])
  }

  /** Two inputs that show both defects, and what the corrected form gives. */
  lemma ToSpanWindowExamples()
    ensures ToSpanWindow([1, 2, 3], [0, 0, 0], 0, 3) == Ok([1, 2, 0])
    ensures ToSpanWindowFixed([1, 2, 3], [0, 0, 0], 0, 3) == [1, 2, 3]
    ensures ToSpanWindow([1, 2, 3], [0, 0], 1, 2) == Ok([0, 0])
    ensures ToSpanWindowFixed([1, 2, 3], [0, 0], 1, 2) == [2, 3]
  {
    assert Take([1, 2, 3], 3) == [1, 2, 3];
    assert [1, 2, 3][..2] + [0, 0, 0][2..] == [1, 2, 0];
    assert Skip([1, 2, 3], 1) == [2, 3];
    assert Take([2, 3], 2) == [2, 3];
  }

  /** On a window that fits, the corrected `ToSpan` is a copy of that window to
      the front of the destination, as `T[].CopyTo(destination, index, length)`. */
  lemma ToSpanWindowFixedIsCopy<T>(self: seq<T>, destination: seq<T>, index: int, length: int)
    requires 0 <= index && 0 <= length && index + length <= |self| && length <= |destination|
    ensures ArrayExtensions.CopyTo(self, destination, index, length).Ok?
    ensures ToSpanWindowFixed(self, destination, index, length)
              == ArrayExtensions.CopyTo(self, destination, index, length).value
  {
    var items := Take(Skip(self, index), length);
    assert Skip(self, index) == self[index..];
    assert items == self[index..index + length];
  }

  // --------------------------------------------------------- ToSpan (whole)

  /** `ToSpan(self)`: an array is viewed in place; a list is copied with
      `CopyTo`; a read-only collection or a collection is counted and filled
      item by item; anything else goes through `ToArray`. Every branch yields
      the items in enumeration order. */
  function ToSpan<T>(self: Enumerable<T>, dflt: T): (r: seq<T>)
    ensures r == self.items
  {
    var items := self.items;
    if self.kind == ArrayKind then items
    else if IsIList(self.kind) then
      var copy := Filled(|items|, dflt);
      CopyInto(items, copy, 0).value
    else if self.kind == ReadOnlyCollectionKind || self.kind == CollectionKind then
      var copy := Filled(|items|, dflt);
      WriteEachIsSplice(copy, 0, items);
      WriteEach(copy, 0, items)
    else items
  }

  // -------------------------------------------------------------- EqualTo

  /** `left.EqualTo(right, IComparer<T>)` and `left.EqualTo(right, Comparison<T>)`:
      two nulls are equal, one null is not; otherwise both enumerators advance
      together until both end (equal), one ends (not equal), or a pair compares
      non-zero (not equal). */
  method EqualToBy<T>(left: Option<seq<T>>, right: Option<seq<T>>, compare: (T, T) -> int) returns (r: bool)
    ensures r <==> (left.None? && right.None?)
                   || (left.Some? && right.Some? && |left.value| == |right.value|
                       && forall i :: 0 <= i < |left.value| ==> compare(left.value[i], right.value[i]) == 0)
  {
    if left.None? && right.None? {
      return true;
    }
    if left.None? || right.None? {
      return false;
    }
    var l := left.value;
    var rt := right.value;
    var i := 0;
    while true
      invariant 0 <= i <= |l| && i <= |rt|
      invariant forall k :: 0 <= k < i ==> compare(l[k], rt[k]) == 0
      decreases |l| - i
    {
      var lNext := i < |l|;
      var rNext := i < |rt|;
      if !lNext && !rNext {
        return true;
      }
      if !lNext || !rNext {
        return false;
      }
      if compare(l[i], rt[i]) != 0 {
        return false;
      }
      i := i + 1;
    }
  }

  /** What an element's runtime type offers the default `EqualTo`: whether it
      is null, whether it implements `IEquatable<T>` and `IComparable<T>`, and
      the three comparisons (`IEquatable<T>.Equals`, `CompareTo`,
      `object.Equals`). */
  datatype Behaviour<!T> = Behaviour(
    isNull: T -> bool,
    isEquatable: T -> bool,
    equatableEquals: (T, T) -> bool,
    isComparable: T -> bool,
    compareTo: (T, T) -> int,
    objectEquals: (T, T) -> bool)

  /** The checks the default `EqualTo` makes on one pair of elements; a null
      left value implements no interface. */
  predicate ElementsAgree<T>(b: Behaviour<T>, x: T, y: T)
  {
    && !(!b.isNull(x) && b.isEquatable(x) && !b.equatableEquals(x, y))
    && !(!b.isNull(x) && b.isComparable(x) && b.compareTo(x, y) != 0)
    && (if b.isNull(x) && b.isNull(y) then true
        else !b.isNull(x) && !b.isNull(y) && b.objectEquals(x, y))
  }

  /** `left.EqualTo(right)`: as `EqualToBy`, with `ElementsAgree` per pair. */
  method EqualTo<T>(left: Option<seq<T>>, right: Option<seq<T>>, b: Behaviour<T>) returns (r: bool)
    ensures r <==> (left.None? && right.None?)
                   || (left.Some? && right.Some? && |left.value| == |right.value|
                       && forall i :: 0 <= i < |left.value| ==> ElementsAgree(b, left.value[i], right.value[i]))
  {
    if left.None? && right.None? {
      return true;
    }
    if left.None? || right.None? {
      return false;
    }
    var l := left.value;
    var rt := right.value;
    var i := 0;
    while true
      invariant 0 <= i <= |l| && i <= |rt|
      invariant forall k :: 0 <= k < i ==> ElementsAgree(b, l[k], rt[k])
      decreases |l| - i
    {
      var lNext := i < |l|;
      var rNext := i < |rt|;
      if !lNext && !rNext {
        return true;
      }
      if !lNext || !rNext {
        return false;
      }
      var lValue := l[i];
      var rValue := rt[i];
      if !b.isNull(lValue) && b.isEquatable(lValue) && !b.equatableEquals(lValue, rValue) {
        return false;
      }
      if !b.isNull(lValue) && b.isComparable(lValue) && b.compareTo(lValue, rValue) != 0 {
        return false;
      }
      if b.isNull(lValue) && b.isNull(rValue) {
        i := i + 1;
        continue;
      }
      if b.isNull(lValue) || b.isNull(rValue) {
        return false;
      }
      if !b.objectEquals(lValue, rValue) {
        return false;
      }
      i := i + 1;
    }
  }

  /** An element type whose three comparisons all mean equality of values and
      whose only null is one value. */
  ghost predicate Lawful<T(!new)>(b: Behaviour<T>)
  {
    && (forall x, y :: b.objectEquals(x, y) <==> x == y)
    && (forall x, y :: b.equatableEquals(x, y) <==> x == y)
    && (forall x, y :: b.compareTo(x, y) == 0 <==> x == y)
    && (forall x, y :: b.isNull(x) && b.isNull(y) ==> x == y)
  }

  /** For such a type the default `EqualTo` compares the sequences. */
  lemma LawfulAgreesWithEquality<T(!new)>(b: Behaviour<T>, l: seq<T>, r: seq<T>)
    requires Lawful(b)
    ensures (|l| == |r| && forall i :: 0 <= i < |l| ==> ElementsAgree(b, l[i], r[i])) <==> l == r
  {
    if l == r {
      forall i | 0 <= i < |l|
        ensures ElementsAgree(b, l[i], r[i])
      {
        assert b.objectEquals(l[i], l[i]) && b.equatableEquals(l[i], l[i]) && b.compareTo(l[i], l[i]) == 0;
      }
    }
    if |l| == |r| && forall i :: 0 <= i < |l| ==> ElementsAgree(b, l[i], r[i]) {
      forall i | 0 <= i < |l|
        ensures l[i] == r[i]
      {
        assert ElementsAgree(b, l[i], r[i]);
      }
    }
  }
}

=== FILE: env_path.dfy ===
/** `Env` helpers for the search path variable: reading it as a list of
    directories, and adding or removing one directory.

    The variable is named `Path` on Windows and `PATH` elsewhere, and its
    entries are separated by `Path.PathSeparator`. A directory is found in
    the list by case-insensitive comparison on Windows and by exact
    comparison elsewhere; removal drops every entry equal to the directory
    ignoring case, on every system.
 */
module EnvPath {
  import opened Wrappers
  import opened HostPath
  import opened CaseFold
  import opened SpanExtensions
  import opened EnvVariables

  /** The name of the variable. */
  function Key(os: Os): seq<char> {
    if os == Windows then "Path" else "PATH"
  }

  // ------------------------------------------------------------- list shape

  /** The entries that are not empty, in order
      (`StringSplitOptions.RemoveEmptyEntries`). */
  function NonEmpty(parts: seq<seq<char>>): (r: seq<seq<char>>)
    ensures |r| <= |parts|
    ensures forall x :: x in r <==> x in parts && |x| > 0
  {
    if |parts| == 0 then []
    else (if |parts[0]| > 0 then [parts[0]] else []) + NonEmpty(parts[1..])
  }

  /** The entries not equal to `path` ignoring case, in order. */
  function Without(parts: seq<seq<char>>, path: seq<char>): (r: seq<seq<char>>)
    ensures |r| <= |parts|
    ensures forall x :: x in r <==> x in parts && !EqualsIgnoreCase(x, path)
  {
    if |parts| == 0 then []
    else (if !EqualsIgnoreCase(parts[0], path) then [parts[0]] else []) + Without(parts[1..], path)
  }

  /** Two entries that name the same directory on `os`. */
  predicate SameDirectory(os: Os, p: seq<char>, path: seq<char>) {
    if os == Windows then EqualsIgnoreCase(p, path) else p == path
  }

  /** `InternalHasPath(path, paths)`. */
  function InternalHasPath(os: Os, path: seq<char>, paths: seq<seq<char>>): (r: bool)
    ensures r <==> exists i :: 0 <= i < |paths| && SameDirectory(os, paths[i], path)
  {
    if |paths| == 0 then false
    else if SameDirectory(os, paths[0], path) then true
    else
      var r := InternalHasPath(os, path, paths[1..]);
      assert forall i :: 1 <= i < |paths| ==> paths[1..][i - 1] == paths[i];
      r
  }

  /** `char.IsWhiteSpace`: the Unicode space separators, the line and
      paragraph separators, and the control characters U+0009 to U+000D and
      U+0085. */
  predicate IsWhiteSpace(c: char) {
    ('\U{9}' <= c <= '\U{D}') || c == ' ' || c == '\U{85}' || c == '\U{A0}' ||
    c == '\U{1680}' || ('\U{2000}' <= c <= '\U{200A}') || c == '\U{2028}' || c == '\U{2029}' ||
    c == '\U{202F}' || c == '\U{205F}' || c == '\U{3000}'
  }

  /** `string.IsNullOrWhiteSpace`; `None` is `null`. */
  predicate IsNullOrWhiteSpace(s: Option<seq<char>>) {
    s.None? || forall i :: 0 <= i < |s.value| ==> IsWhiteSpace(s.value[i])
  }

  /** A directory that can be added and then found: not empty, without the
      list separator, and not starting with NUL. */
  predicate Entry(os: Os, path: seq<char>) {
    |path| > 0 && PathSeparator(os) !in path && path[0] != '\0'
  }

  // -------------------------------------------------------------- operations

  /** `Env.GetPath()`. */
  function GetPath(e: Environment): (r: Option<seq<char>>)
    requires EnvVariables.Valid(e)
    ensures r.Some? ==> Storable(r.value)
  {
    var r := Get(e, Key(e.os));
    if r.Some? then
      var n := Dictionaries.KeyOf(e.vars.cmp, Key(e.os));
      assert r.value == e.vars.entries[n].1;
      r
    else r
  }

  /** `Env.SplitPath()`: the variable split at the list separator, with empty
      entries dropped; an unset variable is the empty list. */
  function SplitPath(e: Environment): (r: seq<seq<char>>)
    requires EnvVariables.Valid(e)
    ensures forall x :: x in r ==> |x| > 0 && PathSeparator(e.os) !in x
    ensures GetPath(e).None? ==> r == []
  {
    var value := GetPath(e).GetOr([]);
    SplitOnParts(value, PathSeparator(e.os));
    NonEmpty(SplitOn(value, PathSeparator(e.os)))
  }

  /** `Env.SetPath(value)`; an empty value deletes the variable. */
  function SetPath(e: Environment, value: seq<char>): (r: Environment)
    requires EnvVariables.Valid(e)
    ensures EnvVariables.Valid(r) && r.os == e.os
    ensures GetPath(r) == if Storable(value) then Some(value) else None
    ensures forall name :: !SameName(e, name, Key(e.os)) ==> Get(r, name) == Get(e, name)
  {
    var key := Key(e.os);
    assert ValidName(key);
    Set(e, key, value).value
  }

  /** `Env.HasPath(path)`. */
  function HasPath(e: Environment, path: seq<char>): (r: bool)
    requires EnvVariables.Valid(e)
    ensures r <==> exists x :: x in SplitPath(e) && SameDirectory(e.os, x, path)
  {
    var paths := SplitPath(e);
    var r := InternalHasPath(e.os, path, paths);
    if r then
      assert exists i :: 0 <= i < |paths| && SameDirectory(e.os, paths[i], path);
      r
    else r
  }

  /** `Env.AddPath(path, prepend)`: nothing happens when the directory is
      listed; an unset or blank variable is replaced by the directory;
      otherwise the directory is put in front or at the end. Only the search
      path variable changes. */
  function AddPath(e: Environment, path: seq<char>, prepend: bool): (r: Environment)
    requires EnvVariables.Valid(e)
    ensures EnvVariables.Valid(r) && r.os == e.os
    ensures HasPath(e, path) ==> r == e
    ensures !HasPath(e, path) && IsNullOrWhiteSpace(GetPath(e)) ==>
              SplitPath(r) == (if Storable(path) then NonEmpty(SplitOn(path, PathSeparator(e.os))) else [])
    ensures forall name :: !SameName(e, name, Key(e.os)) ==> Get(r, name) == Get(e, name)
  {
    var sep := PathSeparator(e.os);
    if InternalHasPath(e.os, path, SplitPath(e)) then e
    else
      var current := GetPath(e);
      if IsNullOrWhiteSpace(current) then SetPath(e, path)
      else if prepend then SetPath(e, path + [sep] + current.value)
      else SetPath(e, current.value + [sep] + path)
  }

  /** `Env.RemovePath(path)`: when the directory is listed, the variable is
      rewritten without every entry equal to it ignoring case (and deleted
      when none is left). */
  function RemovePath(e: Environment, path: seq<char>): (r: Environment)
    requires EnvVariables.Valid(e)
    ensures EnvVariables.Valid(r) && r.os == e.os
    ensures !HasPath(e, path) ==> r == e
    ensures !HasPath(r, path)
    ensures HasPath(e, path) ==> forall x :: x in SplitPath(r) ==> x in SplitPath(e) && !EqualsIgnoreCase(x, path)
    ensures HasPath(e, path) ==>
              SplitPath(r) == (if Storable(JoinWith(PathSeparator(e.os), Without(SplitPath(e), path)))
                               then Without(SplitPath(e), path) else [])
    ensures forall name :: !SameName(e, name, Key(e.os)) ==> Get(r, name) == Get(e, name)
  {
    var paths := SplitPath(e);
    if !InternalHasPath(e.os, path, paths) then e
    else
      var kept := Without(paths, path);
      var r := SetPath(e, JoinWith(PathSeparator(e.os), kept));
      SplitPathOfJoin(e, kept);
      r
  }

  // ------------------------------------------------------------------- laws

  /** Every piece of a split is free of the delimiter. */
  lemma {:induction false} SplitOnParts(s: seq<char>, d: char)
    ensures forall x :: x in SplitOn(s, d) ==> d !in x
    decreases |s|
  {
    var i := IndexOf(s, d);
    if i >= 0 {
      SplitOnParts(s[i + 1..], d);
    }
  }

  /** A string without the delimiter splits into itself. */
  lemma SplitOnWithout(s: seq<char>, d: char)
    requires d !in s
    ensures SplitOn(s, d) == [s]
  {
  }

  /** `IndexOf` finds the first occurrence. */
  lemma IndexOfFirst(s: seq<char>, d: char, k: int)
    requires 0 <= k < |s| && s[k] == d && d !in s[..k]
    ensures IndexOf(s, d) == k
  {
  }

  /** Splitting around one delimiter splits both sides. */
  lemma {:induction false} SplitOnAround(a: seq<char>, d: char, b: seq<char>)
    ensures SplitOn(a + [d] + b, d) == SplitOn(a, d) + SplitOn(b, d)
    decreases |a|
  {
    var i := IndexOf(a, d);
    if i < 0 {
      SplitOnAroundFree(a, d, b);
    } else {
      var head, rest := a[..i], a[i + 1..];
      SplitOnAroundCut(a, d, b, i);
      SplitOnAround(rest, d, b);
      assert SplitOn(a + [d] + b, d) == [head] + (SplitOn(rest, d) + SplitOn(b, d));
      assert [head] + (SplitOn(rest, d) + SplitOn(b, d)) == ([head] + SplitOn(rest, d)) + SplitOn(b, d);
    }
  }

  /** `SplitOnAround` when `a` holds no delimiter. */
  lemma SplitOnAroundFree(a: seq<char>, d: char, b: seq<char>)
    requires d !in a
    ensures SplitOn(a + [d] + b, d) == [a] + SplitOn(b, d)
    ensures SplitOn(a, d) == [a]
  {
    var s := a + [d] + b;
    assert s[..|a|] == a;
    IndexOfFirst(s, d, |a|);
    assert s[|a| + 1..] == b;
    SplitOnFirst(s, d, |a|);
  }

  /** `SplitOnAround` cuts both sides at the first delimiter of `a`. */
  lemma SplitOnAroundCut(a: seq<char>, d: char, b: seq<char>, i: int)
    requires 0 <= i < |a| && IndexOf(a, d) == i
    ensures SplitOn(a + [d] + b, d) == [a[..i]] + SplitOn(a[i + 1..] + [d] + b, d)
    ensures SplitOn(a, d) == [a[..i]] + SplitOn(a[i + 1..], d)
  {
    var s := a + [d] + b;
    assert s[..i] == a[..i];
    IndexOfFirst(s, d, i);
    assert s[i + 1..] == a[i + 1..] + [d] + b;
    SplitOnFirst(s, d, i);
    SplitOnFirst(a, d, i);
  }

  /** A split cuts at the first delimiter. */
  lemma SplitOnFirst(s: seq<char>, d: char, i: int)
    requires 0 <= i < |s| && IndexOf(s, d) == i
    ensures SplitOn(s, d) == [s[..i]] + SplitOn(s[i + 1..], d)
  {
  }

  lemma {:induction false} NonEmptyAppend(a: seq<seq<char>>, b: seq<seq<char>>)
    ensures NonEmpty(a + b) == NonEmpty(a) + NonEmpty(b)
    decreases |a|
  {
    if |a| > 0 {
      assert (a + b)[1..] == a[1..] + b;
      NonEmptyAppend(a[1..], b);
    } else {
      assert a + b == b;
    }
  }

  lemma {:induction false} WithoutAppend(a: seq<seq<char>>, b: seq<seq<char>>, path: seq<char>)
    ensures Without(a + b, path) == Without(a, path) + Without(b, path)
    decreases |a|
  {
    if |a| > 0 {
      var h := if !EqualsIgnoreCase(a[0], path) then [a[0]] else [];
      assert (a + b)[0] == a[0];
      assert (a + b)[1..] == a[1..] + b;
      WithoutAppend(a[1..], b, path);
      assert Without(a + b, path) == h + (Without(a[1..], path) + Without(b, path));
      assert Without(a, path) == h + Without(a[1..], path);
    } else {
      assert a + b == b;
    }
  }

  /** Dropping empty entries from a list that has none changes nothing. */
  lemma {:induction false} NonEmptyKeeps(parts: seq<seq<char>>)
    requires forall i :: 0 <= i < |parts| ==> |parts[i]| > 0
    ensures NonEmpty(parts) == parts
    decreases |parts|
  {
    if |parts| > 0 {
      NonEmptyKeeps(parts[1..]);
    }
  }

  /** Dropping a directory that is not listed changes nothing. */
  lemma {:induction false} WithoutKeeps(parts: seq<seq<char>>, path: seq<char>)
    requires forall i :: 0 <= i < |parts| ==> !EqualsIgnoreCase(parts[i], path)
    ensures Without(parts, path) == parts
    decreases |parts|
  {
    if |parts| > 0 {
      WithoutKeeps(parts[1..], path);
    }
  }

  /** A joined list starts with its first entry's first character. */
  lemma JoinWithHead(d: char, parts: seq<seq<char>>)
    requires |parts| > 0 && |parts[0]| > 0
    ensures |JoinWith(d, parts)| > 0 && JoinWith(d, parts)[0] == parts[0][0]
  {
    if |parts| > 1 {
      assert [parts[0]] + parts[1..] == parts;
      JoinWithCons(d, parts[0], parts[1..]);
    }
  }

  /** Writing a joined list of entries and reading it back gives the list,
      unless the value starts with NUL, which deletes the variable. */
  lemma SplitPathOfJoin(e: Environment, parts: seq<seq<char>>)
    requires EnvVariables.Valid(e)
    requires forall i :: 0 <= i < |parts| ==> |parts[i]| > 0 && PathSeparator(e.os) !in parts[i]
    ensures SplitPath(SetPath(e, JoinWith(PathSeparator(e.os), parts)))
            == if Storable(JoinWith(PathSeparator(e.os), parts)) then parts else []
  {
    var sep := PathSeparator(e.os);
    if |parts| > 0 {
      JoinWithHead(sep, parts);
      SplitUndoesJoin(sep, parts);
      NonEmptyKeeps(parts);
    }
  }

  /** What the list reads after the variable is written. */
  lemma SplitPathOfSet(e: Environment, value: seq<char>)
    requires EnvVariables.Valid(e)
    ensures SplitPath(SetPath(e, value)) == if Storable(value) then NonEmpty(SplitOn(value, PathSeparator(e.os))) else []
  {
  }

  /** Removing a listed directory keeps every other entry, in order, when
      no entry starts with NUL (which would make the joined value a
      deletion). */
  lemma RemovePathKeepsOthers(e: Environment, path: seq<char>)
    requires EnvVariables.Valid(e) && HasPath(e, path)
    requires forall x :: x in SplitPath(e) ==> x[0] != '\0'
    ensures SplitPath(RemovePath(e, path)) == Without(SplitPath(e), path)
  {
    var kept := Without(SplitPath(e), path);
    if |kept| > 0 {
      JoinWithHead(PathSeparator(e.os), kept);
    }
  }

  /** Adding to a listed, non-blank variable puts the directory at the front
      or the back of the list and keeps the other entries in order. */
  lemma AddPathSplits(e: Environment, path: seq<char>)
    requires EnvVariables.Valid(e) && Entry(e.os, path) && !HasPath(e, path)
    requires !IsNullOrWhiteSpace(GetPath(e))
    ensures SplitPath(AddPath(e, path, true)) == [path] + SplitPath(e)
    ensures SplitPath(AddPath(e, path, false)) == SplitPath(e) + [path]
  {
    var sep := PathSeparator(e.os);
    var current := GetPath(e).value;
    var rest := SplitOn(current, sep);
    assert SplitPath(e) == NonEmpty(rest);
    SplitOnWithout(path, sep);
    assert NonEmpty([path]) == [path];

    var front := path + [sep] + current;
    assert AddPath(e, path, true) == SetPath(e, front);
    assert front[0] == path[0];
    SplitPathOfSet(e, front);
    SplitOnAround(path, sep, current);
    NonEmptyAppend([path], rest);

    var back := current + [sep] + path;
    assert AddPath(e, path, false) == SetPath(e, back);
    assert back[0] == current[0];
    SplitPathOfSet(e, back);
    SplitOnAround(current, sep, path);
    NonEmptyAppend(rest, [path]);
  }

  /** After adding a directory it is listed. */
  lemma AddPathHas(e: Environment, path: seq<char>, prepend: bool)
    requires EnvVariables.Valid(e) && Entry(e.os, path)
    ensures HasPath(AddPath(e, path, prepend), path)
  {
    if !HasPath(e, path) {
      if IsNullOrWhiteSpace(GetPath(e)) {
        assert path in SplitPath(AddPath(e, path, prepend));
      } else {
        AddPathSplits(e, path);
        assert path in SplitPath(AddPath(e, path, prepend));
      }
    }
  }

  /** Adding the same directory twice is adding it once. */
  lemma AddPathIdempotent(e: Environment, path: seq<char>, prepend: bool, again: bool)
    requires EnvVariables.Valid(e) && Entry(e.os, path)
    ensures AddPath(AddPath(e, path, prepend), path, again) == AddPath(e, path, prepend)
  {
    AddPathHas(e, path, prepend);
  }

  /** Dropping a directory from a list it was added to, where no other
      entry matches it ignoring case, gives the other entries. */
  lemma WithoutAdded(path: seq<char>, paths: seq<seq<char>>, prepend: bool)
    requires forall x :: x in paths ==> !EqualsIgnoreCase(x, path)
    ensures Without(if prepend then [path] + paths else paths + [path], path) == paths
  {
    WithoutKeeps(paths, path);
    assert Without([path], path) == [];
    if prepend {
      WithoutAppend([path], paths, path);
    } else {
      WithoutAppend(paths, [path], path);
    }
  }

  /** Writing back a list of entries that do not start with NUL reads back
      the same list. */
  lemma SplitPathOfEntries(e: Environment, paths: seq<seq<char>>)
    requires EnvVariables.Valid(e)
    requires forall x :: x in paths ==> |x| > 0 && PathSeparator(e.os) !in x && x[0] != '\0'
    ensures SplitPath(SetPath(e, JoinWith(PathSeparator(e.os), paths))) == paths
  {
    SplitPathOfJoin(e, paths);
    if |paths| > 0 {
      JoinWithHead(PathSeparator(e.os), paths);
    }
  }

  /** Removing a directory that was just added restores the list, when no
      entry already matched it ignoring case. */
  lemma RemoveUndoesAdd(e: Environment, path: seq<char>, prepend: bool)
    requires EnvVariables.Valid(e) && Entry(e.os, path)
    requires forall x :: x in SplitPath(e) ==> !EqualsIgnoreCase(x, path) && x[0] != '\0'
    requires GetPath(e).None? || !IsNullOrWhiteSpace(GetPath(e))
    ensures SplitPath(RemovePath(AddPath(e, path, prepend), path)) == SplitPath(e)
  {
    var sep := PathSeparator(e.os);
    var paths := SplitPath(e);
    assert !HasPath(e, path);
    var added := AddPath(e, path, prepend);
    AddPathHas(e, path, prepend);
    var listed := SplitPath(added);
    if GetPath(e).None? {
      SplitOnWithout(path, sep);
      assert listed == [path] + paths;
    } else {
      AddPathSplits(e, path);
      assert listed == if prepend then [path] + paths else paths + [path];
    }
    WithoutAdded(path, paths, prepend || GetPath(e).None?);
    assert Without(listed, path) == paths;
    assert RemovePath(added, path) == SetPath(added, JoinWith(sep, paths));
    SplitPathOfEntries(added, paths);
  }
}

=== FILE: env_variables.dfy ===
/** `Env` variable access over the process environment block.

    The environment is a value passed in and returned, not the live process
    state. Names are compared without regard to case on Windows and exactly
    elsewhere. Writing goes through `Environment.SetEnvironmentVariable`,
    which rejects an empty name, a name starting with NUL and a name with
    `=`, and which deletes the variable when the value is missing, empty or
    starts with NUL. The `EnvironmentVariableTarget` argument (process, user
    or machine block) is not modelled: every call acts on the one block.
 */
module EnvVariables {
  import opened Wrappers
  import opened HostPath
  import opened Dictionaries

  datatype Environment = Environment(os: Os, vars: Dict<seq<char>>)

  /** How the operating system compares variable names. */
  function NameComparer(os: Os): Comparer {
    if os == Windows then OrdinalIgnoreCase else Ordinal
  }

  /** The block is filed by the system's comparer, and every value in it is
      one `SetEnvironmentVariable` would store. */
  predicate Valid(e: Environment) {
    Dictionaries.Valid(e.vars) && e.vars.cmp == NameComparer(e.os) &&
    forall n :: n in e.vars.entries ==> Storable(e.vars.entries[n].1)
  }

  /** Two names that denote the same variable. */
  predicate SameName(e: Environment, a: seq<char>, b: seq<char>) {
    SameKey(e.vars.cmp, a, b)
  }

  predicate ValidName(name: seq<char>) {
    |name| > 0 && name[0] != '\0' && '=' !in name
  }

  /** A value that `SetEnvironmentVariable` stores rather than treating as a
      deletion. */
  predicate Storable(value: seq<char>) {
    |value| > 0 && value[0] != '\0'
  }

  /** `Environment.GetEnvironmentVariable(name)`. */
  function Lookup(e: Environment, name: seq<char>): Option<seq<char>> {
    TryGetValue(e.vars, name)
  }

  /** `Environment.SetEnvironmentVariable(name, value)`; `None` is `null`. */
  function SetVariable(e: Environment, name: seq<char>, value: Option<seq<char>>): (r: Result<Environment>)
    requires Valid(e)
    ensures r.Ok? <==> ValidName(name)
    ensures r.Err? ==> r.error == ArgumentError
    ensures r.Ok? ==> Valid(r.value) && r.value.os == e.os
    ensures r.Ok? ==> Lookup(r.value, name) == (if value.Some? && Storable(value.value) then value else None)
    ensures r.Ok? ==> forall other :: !SameName(e, other, name) ==> Lookup(r.value, other) == Lookup(e, other)
  {
    if !ValidName(name) then Err(ArgumentError)
    else if value.None? || !Storable(value.value) then Ok(Environment(e.os, Dictionaries.Remove(e.vars, name)))
    else Ok(Environment(e.os, Put(e.vars, name, value.value)))
  }

  // ------------------------------------------------------------------ reads

  /** `Env.Get(name)`: the value, or `null` when the variable is unset. */
  function Get(e: Environment, name: seq<char>): (r: Option<seq<char>>)
    requires Valid(e)
    ensures r.Some? <==> ContainsKey(e.vars, name)
    ensures forall other :: SameName(e, other, name) ==> r == Lookup(e, other)
  {
    Lookup(e, name)
  }

  /** `Env.GetAll()`: a case-sensitive dictionary of every variable under its
      stored name. */
  function GetAll(e: Environment): (r: map<seq<char>, seq<char>>)
    requires Valid(e)
    ensures r.Keys == Keys(e.vars)
    ensures forall name :: name in r ==> Get(e, name) == Some(r[name])
  {
    ToMap(e.vars)
  }

  /** `Env.GetRequired(name)`: throws InvalidOperationException when unset. */
  function GetRequired(e: Environment, name: seq<char>): (r: Result<seq<char>>)
    requires Valid(e)
    ensures r.Ok? <==> Get(e, name).Some?
    ensures r.Ok? ==> r.value == Get(e, name).value
    ensures r.Err? ==> r.error == InvalidOperation
  {
    var value := Lookup(e, name);
    if value.None? then Err(InvalidOperation) else Ok(value.value)
  }

  /** `Env.Has(name)`. */
  function Has(e: Environment, name: seq<char>): (r: bool)
    requires Valid(e)
    ensures r <==> Get(e, name).Some?
  {
    Lookup(e, name) != None
  }

  /** `Env.TryGet(name, out value)` (both overloads): false with the empty
      string when unset. */
  function TryGet(e: Environment, name: seq<char>): (r: (bool, seq<char>))
    requires Valid(e)
    ensures r.0 <==> Has(e, name)
    ensures r.0 ==> Get(e, name) == Some(r.1)
    ensures !r.0 ==> r.1 == []
  {
    var value := [];
    var v := Lookup(e, name);
    if v.None? then (false, value) else (true, v.value)
  }

  // ----------------------------------------------------------------- writes

  /** `Env.Remove(name)`. */
  function Remove(e: Environment, name: seq<char>): (r: Result<Environment>)
    requires Valid(e)
    ensures r.Ok? <==> ValidName(name)
    ensures r.Ok? ==> Valid(r.value) && !Has(r.value, name)
    ensures r.Ok? ==> forall other :: !SameName(e, other, name) ==> Get(r.value, other) == Get(e, other)
  {
    SetVariable(e, name, None)
  }

  /** `Env.Set(name, value)`. */
  function Set(e: Environment, name: seq<char>, value: seq<char>): (r: Result<Environment>)
    requires Valid(e)
    ensures r.Ok? <==> ValidName(name)
    ensures r.Ok? ==> Valid(r.value)
    ensures r.Ok? ==> Get(r.value, name) == (if Storable(value) then Some(value) else None)
    ensures r.Ok? ==> forall other :: !SameName(e, other, name) ==> Get(r.value, other) == Get(e, other)
  {
    SetVariable(e, name, Some(value))
  }

  /** The loop of `Env.Set(values, overwrite)`: each pair in turn is written
      unless `skip` says so; the first rejected name stops the loop. */
  function SetEach(e: Environment, pairs: seq<(seq<char>, seq<char>)>, skip: seq<char> -> bool): (r: Result<Environment>)
    requires Valid(e)
    ensures r.Ok? ==> Valid(r.value) && r.value.os == e.os
    ensures r.Ok? <==> forall i :: 0 <= i < |pairs| && !skip(pairs[i].0) ==> ValidName(pairs[i].0)
    ensures r.Err? ==> r.error == ArgumentError
    decreases |pairs|
  {
    if |pairs| == 0 then Ok(e)
    else
      var name := pairs[0].0;
      var e1 :- if skip(name) then Ok(e) else SetVariable(e, name, Some(pairs[0].1));
      var r := SetEach(e1, pairs[1..], skip);
      assert forall i :: 1 <= i < |pairs| ==> pairs[1..][i - 1] == pairs[i];
      r
  }

  /** `Env.Set(values, overwrite)` as written (both dictionary overloads).
      Without `overwrite`, a pair is skipped when its name is a key of the
      snapshot `GetAll()` returns, a dictionary that compares names exactly
      on every system. */
  function SetAll(e: Environment, pairs: seq<(seq<char>, seq<char>)>, overwrite: bool): (r: Result<Environment>)
    requires Valid(e)
    ensures r.Ok? ==> Valid(r.value)
    ensures r.Ok? <==> forall i :: 0 <= i < |pairs| && (overwrite || pairs[i].0 !in Keys(e.vars)) ==> ValidName(pairs[i].0)
    ensures r.Err? ==> r.error == ArgumentError
  {
    if overwrite then SetEach(e, pairs, _ => false)
    else
      var existing := GetAll(e);
      SetEach(e, pairs, name => name in existing)
  }

  /** `Env.Set(values, overwrite)` with the snapshot compared the way the
      system compares names. */
  function SetAllFixed(e: Environment, pairs: seq<(seq<char>, seq<char>)>, overwrite: bool): (r: Result<Environment>)
    requires Valid(e)
    ensures r.Ok? ==> Valid(r.value)
    ensures r.Ok? <==> forall i :: 0 <= i < |pairs| && (overwrite || !Has(e, pairs[i].0)) ==> ValidName(pairs[i].0)
    ensures r.Err? ==> r.error == ArgumentError
  {
    if overwrite then SetEach(e, pairs, _ => false)
    else SetEach(e, pairs, name => Has(e, name))
  }

  // ------------------------------------------------------------------- laws

  /** Pairs that name different variables, each with a valid name and a value
      that is stored. */
  predicate WellFormedPairs(e: Environment, pairs: seq<(seq<char>, seq<char>)>) {
    (forall i :: 0 <= i < |pairs| ==> ValidName(pairs[i].0) && Storable(pairs[i].1)) &&
    (forall i, j :: 0 <= i < j < |pairs| ==> !SameName(e, pairs[i].0, pairs[j].0))
  }

  /** After the loop, each pair's variable holds the pair's value unless the
      pair was skipped, and a variable no pair names is untouched. */
  lemma SetEachEffect(e: Environment, pairs: seq<(seq<char>, seq<char>)>, skip: seq<char> -> bool)
    requires Valid(e) && WellFormedPairs(e, pairs)
    ensures SetEach(e, pairs, skip).Ok?
    ensures forall i :: 0 <= i < |pairs| ==>
              Get(SetEach(e, pairs, skip).value, pairs[i].0)
              == if skip(pairs[i].0) then Get(e, pairs[i].0) else Some(pairs[i].1)
    ensures forall other :: (forall i :: 0 <= i < |pairs| ==> !SameName(e, other, pairs[i].0)) ==>
              Get(SetEach(e, pairs, skip).value, other) == Get(e, other)
  {
    SetEachWrites(e, pairs, skip);
    forall other | forall i :: 0 <= i < |pairs| ==> !SameName(e, other, pairs[i].0)
      ensures Get(SetEach(e, pairs, skip).value, other) == Get(e, other)
    {
      SetEachKeeps(e, pairs, skip, other);
    }
  }

  /** One turn of the loop: the first pair is written or skipped, and the
      rest of the pairs still name different variables afterwards. */
  lemma SetEachStep(e: Environment, pairs: seq<(seq<char>, seq<char>)>, skip: seq<char> -> bool)
    requires Valid(e) && WellFormedPairs(e, pairs) && |pairs| > 0
    ensures var e1 := if skip(pairs[0].0) then e else SetVariable(e, pairs[0].0, Some(pairs[0].1)).value;
            Valid(e1) && e1.vars.cmp == e.vars.cmp && WellFormedPairs(e1, pairs[1..])
            && SetEach(e, pairs, skip) == SetEach(e1, pairs[1..], skip)
  {
    var rest := pairs[1..];
    assert forall i :: 1 <= i < |pairs| ==> rest[i - 1] == pairs[i];
  }

  /** The pairs' half of `SetEachEffect`. */
  lemma {:induction false} SetEachWrites(e: Environment, pairs: seq<(seq<char>, seq<char>)>, skip: seq<char> -> bool)
    requires Valid(e) && WellFormedPairs(e, pairs)
    ensures SetEach(e, pairs, skip).Ok?
    ensures forall i :: 0 <= i < |pairs| ==>
              Get(SetEach(e, pairs, skip).value, pairs[i].0)
              == if skip(pairs[i].0) then Get(e, pairs[i].0) else Some(pairs[i].1)
    decreases |pairs|
  {
    if |pairs| > 0 {
      var name := pairs[0].0;
      var e1 := if skip(name) then e else SetVariable(e, name, Some(pairs[0].1)).value;
      var rest := pairs[1..];
      SetEachStep(e, pairs, skip);
      SetEachWrites(e1, rest, skip);
      SetEachKeeps(e1, rest, skip, name);
      var r := SetEach(e1, rest, skip).value;
      forall i | 0 <= i < |pairs|
        ensures Get(r, pairs[i].0) == if skip(pairs[i].0) then Get(e, pairs[i].0) else Some(pairs[i].1)
      {
        if i > 0 {
          assert rest[i - 1] == pairs[i];
          assert !SameName(e, pairs[i].0, name);
        } else {
          assert forall k :: 0 <= k < |rest| ==> rest[k] == pairs[k + 1];
        }
      }
    }
  }

  /** The untouched half of `SetEachEffect`, for one name. */
  lemma {:induction false} SetEachKeeps(e: Environment, pairs: seq<(seq<char>, seq<char>)>, skip: seq<char> -> bool, other: seq<char>)
    requires Valid(e) && WellFormedPairs(e, pairs)
    requires forall i :: 0 <= i < |pairs| ==> !SameName(e, other, pairs[i].0)
    ensures SetEach(e, pairs, skip).Ok?
    ensures Get(SetEach(e, pairs, skip).value, other) == Get(e, other)
    decreases |pairs|
  {
    if |pairs| > 0 {
      var name := pairs[0].0;
      var e1 := if skip(name) then e else SetVariable(e, name, Some(pairs[0].1)).value;
      var rest := pairs[1..];
      SetEachStep(e, pairs, skip);
      assert forall k :: 0 <= k < |rest| ==> rest[k] == pairs[k + 1];
      SetEachKeeps(e1, rest, skip, other);
    }
  }

  /** With `overwrite`, every pair is written. */
  lemma SetAllOverwrites(e: Environment, pairs: seq<(seq<char>, seq<char>)>)
    requires Valid(e) && WellFormedPairs(e, pairs)
    ensures SetAll(e, pairs, true).Ok?
    ensures forall i :: 0 <= i < |pairs| ==> Get(SetAll(e, pairs, true).value, pairs[i].0) == Some(pairs[i].1)
  {
    SetEachEffect(e, pairs, _ => false);
  }

  /** Without `overwrite`, the corrected loop keeps every variable that was
      set and writes the others. */
  lemma SetAllFixedKeepsExisting(e: Environment, pairs: seq<(seq<char>, seq<char>)>)
    requires Valid(e) && WellFormedPairs(e, pairs)
    ensures SetAllFixed(e, pairs, false).Ok?
    ensures forall i :: 0 <= i < |pairs| ==>
              Get(SetAllFixed(e, pairs, false).value, pairs[i].0)
              == if Has(e, pairs[i].0) then Get(e, pairs[i].0) else Some(pairs[i].1)
  {
    SetEachEffect(e, pairs, name => Has(e, name));
  }

  /** The loop depends on `skip` only through its answers for the pairs'
      names. */
  lemma {:induction false} SetEachSkipCongruence(e: Environment, pairs: seq<(seq<char>, seq<char>)>,
                                                 skip1: seq<char> -> bool, skip2: seq<char> -> bool)
    requires Valid(e)
    requires forall i :: 0 <= i < |pairs| ==> skip1(pairs[i].0) == skip2(pairs[i].0)
    ensures SetEach(e, pairs, skip1) == SetEach(e, pairs, skip2)
    decreases |pairs|
  {
    if |pairs| > 0 {
      var e1 := if skip1(pairs[0].0) then Ok(e) else SetVariable(e, pairs[0].0, Some(pairs[0].1));
      if e1.Ok? {
        assert forall i :: 1 <= i < |pairs| ==> pairs[1..][i - 1] == pairs[i];
        SetEachSkipCongruence(e1.value, pairs[1..], skip1, skip2);
      }
    }
  }

  /** Where names are compared exactly, the code as written behaves like the
      corrected loop. */
  lemma SetAllAgreesOnUnix(e: Environment, pairs: seq<(seq<char>, seq<char>)>, overwrite: bool)
    requires Valid(e) && e.os == Unix
    ensures SetAll(e, pairs, overwrite) == SetAllFixed(e, pairs, overwrite)
  {
    if !overwrite {
      var existing := GetAll(e);
      var asWritten: seq<char> -> bool := name => name in existing;
      var fixed: seq<char> -> bool := name => Has(e, name);
      forall name ensures asWritten(name) == fixed(name) {
        if Has(e, name) {
          var n := KeyOf(e.vars.cmp, name);
          assert e.vars.entries[n].0 == name;
          assert name in Keys(e.vars);
        }
      }
      SetEachSkipCongruence(e, pairs, asWritten, fixed);
    }
  }

  /** On Windows, a variable stored as `Path` is overwritten by a pair named
      `PATH` even without `overwrite`. */
  lemma SetAllOverwritesOtherCaseOnWindows(e: Environment)
    requires e == Environment(Windows, Dict(OrdinalIgnoreCase, map["PATH" := ("Path", "x")]))
    ensures Valid(e)
    ensures SetAll(e, [("PATH", "y")], false).Ok?
    ensures Get(SetAll(e, [("PATH", "y")], false).value, "Path") == Some("y")
    ensures SetAllFixed(e, [("PATH", "y")], false).Ok?
    ensures Get(SetAllFixed(e, [("PATH", "y")], false).value, "Path") == Some("x")
  {
    SetAllExampleAsWritten(e);
    SetAllExampleFixed(e);
  }

  /** The stored name `Path` matches `PATH` only when case is ignored. */
  lemma PathStoredInOtherCase(e: Environment)
    requires e == Environment(Windows, Dict(OrdinalIgnoreCase, map["PATH" := ("Path", "x")]))
    ensures Valid(e) && "PATH" !in GetAll(e)
    ensures WellFormedPairs(e, [("PATH", "y")])
    ensures CaseFold.Fold("Path") == "PATH"
  {
    assert CaseFold.Fold("Path") == "PATH";
    assert CaseFold.Fold("PATH") == "PATH";
    assert "Path"[1] != "PATH"[1];
    forall n | n in e.vars.entries ensures e.vars.entries[n].0 != "PATH" {
    }
    assert "PATH" !in Keys(e.vars);
  }

  lemma SetAllExampleAsWritten(e: Environment)
    requires e == Environment(Windows, Dict(OrdinalIgnoreCase, map["PATH" := ("Path", "x")]))
    ensures Valid(e)
    ensures SetAll(e, [("PATH", "y")], false).Ok?
    ensures Get(SetAll(e, [("PATH", "y")], false).value, "Path") == Some("y")
  {
    PathStoredInOtherCase(e);
    SetEachEffect(e, [("PATH", "y")], name => name in GetAll(e));
  }

  lemma SetAllExampleFixed(e: Environment)
    requires e == Environment(Windows, Dict(OrdinalIgnoreCase, map["PATH" := ("Path", "x")]))
    ensures Valid(e)
    ensures SetAllFixed(e, [("PATH", "y")], false).Ok?
    ensures Get(SetAllFixed(e, [("PATH", "y")], false).value, "Path") == Some("x")
  {
    PathStoredInOtherCase(e);
    SetEachEffect(e, [("PATH", "y")], name => Has(e, name));
  }
}

=== FILE: fs_path.dfy ===
/** `FsPath.Resolve(path, basePath)`: turns a user-supplied path into an
    absolute one.

    The .NET primitives it calls (`Path.IsPathRooted`, `Path.Combine`,
    `Path.GetFullPath`) and the home directory are not interpreted: they are
    the fields of a `Host` value, so every statement here holds whatever
    those primitives do.
 */
module FsPath {
  import opened Wrappers

  datatype Host = Host(
    isPathRooted: seq<char> -> bool,
    combine: (seq<char>, seq<char>) -> seq<char>,
    getFullPath: seq<char> -> seq<char>,
    home: seq<char>)

  predicate IsSlash(c: char) {
    c == '/' || c == '\\'
  }

  /** `Resolve(path, basePath)`. A base that is not rooted throws
      InvalidOperationException. Otherwise, by the shape of `path`:
      the empty path and `.` (alone or with one trailing slash) give the base;
      `~` (alone or with one trailing slash) gives the home directory; `~/x`
      and `./x` resolve `x` against home and base; a path that starts with
      `..` is resolved against the base; any other one-character path is
      combined with the base but not normalised; any other longer path is
      normalised as is when rooted or when it starts with `.`, `~` or a
      slash, and is resolved against the base otherwise. */
  function Resolve(host: Host, path: seq<char>, basePath: seq<char>): (r: Result<seq<char>>)
    ensures r.Err? <==> !host.isPathRooted(basePath)
    ensures r.Err? ==> r.error == InvalidOperation
    ensures r.Ok? && (path == "" || path == "." || path == "./" || path == ".\\") ==> r.value == basePath
    ensures r.Ok? && (path == "~" || path == "~/" || path == "~\\") ==> r.value == host.home
    ensures r.Ok? && |path| > 2 && path[0] == '~' && IsSlash(path[1]) ==>
              r.value == host.getFullPath(host.combine(host.home, path[2..]))
    ensures r.Ok? && |path| > 2 && path[0] == '.' && IsSlash(path[1]) ==>
              r.value == host.getFullPath(host.combine(basePath, path[2..]))
    ensures r.Ok? && |path| >= 2 && path[..2] == ".." ==>
              r.value == host.getFullPath(host.combine(basePath, path))
    ensures r.Ok? && |path| == 1 && path[0] != '~' && path[0] != '.' ==>
              r.value == host.combine(basePath, path)
    ensures r.Ok? && |path| >= 2 && !((path[0] == '~' || path[0] == '.') && IsSlash(path[1])) && path[..2] != ".." ==>
              r.value == (if host.isPathRooted(path) then host.getFullPath(path)
                          else if path[0] in "~./\\" then host.getFullPath(path)
                          else host.getFullPath(host.combine(basePath, path)))
  {
    if !host.isPathRooted(basePath) then Err(InvalidOperation)
    else if |path| == 0 then Ok(basePath)
    else if |path| == 1 then
      var c := path[0];
      if c == '~' then Ok(host.home)
      else if c == '.' then Ok(basePath)
      else Ok(host.combine(basePath, path))
    else
      var c1 := path[0];
      var c2 := path[1];
      if c1 == '~' && IsSlash(c2) then
        if |path| == 2 then Ok(host.home)
        else Ok(host.getFullPath(host.combine(host.home, path[2..])))
      else if c1 == '.' && IsSlash(c2) then
        if |path| == 2 then Ok(basePath)
        else Ok(host.getFullPath(host.combine(basePath, path[2..])))
      else if c1 == '.' && c2 == '.' then
        Ok(host.getFullPath(host.combine(basePath, path)))
      else if host.isPathRooted(path) then Ok(host.getFullPath(path))
      else if c1 != '.' && c1 != '~' && c1 != '/' && c1 != '\\' then
        Ok(host.getFullPath(host.combine(basePath, path)))
      else Ok(host.getFullPath(path))
  }

  /** A plain relative name: at least two characters, not rooted, and not
      starting with `.`, `~` or a slash. */
  predicate PlainRelative(host: Host, name: seq<char>) {
    |name| >= 2 && !host.isPathRooted(name) && name[0] !in "~./\\"
  }

  /** A plain relative name resolves the same with or without a leading `./`. */
  lemma DotSlashIsCurrent(host: Host, name: seq<char>, basePath: seq<char>, slash: char)
    requires host.isPathRooted(basePath) && PlainRelative(host, name) && IsSlash(slash)
    ensures Resolve(host, ['.', slash] + name, basePath) == Resolve(host, name, basePath)
  {
    assert (['.', slash] + name)[2..] == name;
  }

  /** `~/name` resolves `name` with the home directory as the base. */
  lemma TildeSlashIsHome(host: Host, name: seq<char>, basePath: seq<char>, slash: char)
    requires host.isPathRooted(basePath) && host.isPathRooted(host.home)
    requires PlainRelative(host, name) && IsSlash(slash)
    ensures Resolve(host, ['~', slash] + name, basePath) == Resolve(host, name, host.home)
  {
    assert (['~', slash] + name)[2..] == name;
  }

  /** A rooted path does not depend on the base, as long as the base is
      rooted. */
  lemma RootedIgnoresBase(host: Host, path: seq<char>, base1: seq<char>, base2: seq<char>)
    requires host.isPathRooted(base1) && host.isPathRooted(base2)
    requires |path| >= 2 && host.isPathRooted(path)
    requires path[0] != '~' && path[0] != '.'
    ensures Resolve(host, path, base1) == Resolve(host, path, base2)
  {
  }

  /** The one-character case skips the normalisation that the same name gets
      once it is two characters or more. */
  lemma ShortNameNotNormalised(host: Host, c: char, basePath: seq<char>)
    requires host.isPathRooted(basePath) && c !in "~./\\"
    ensures Resolve(host, [c], basePath) == Ok(host.combine(basePath, [c]))
  {
  }
}

=== FILE: host_path.dfy ===
/** Path conventions of the .NET runtime that the modelled path code relies on.

    The operating system is a parameter (`Os`) rather than a detected value:
    on Windows the directory separator is `\` with `/` as the alternate, and
    PATH entries are separated by `;`; elsewhere both separators are `/` and
    PATH entries are separated by `:`. `GetExtension` is
    `System.IO.Path.GetExtension(ReadOnlySpan<char>)`.
 */
module HostPath {

  datatype Os = Windows | Unix

  /** `Path.DirectorySeparatorChar`. */
  function DirectorySeparator(os: Os): char {
    if os == Windows then '\\' else '/'
  }

  /** `Path.AltDirectorySeparatorChar`. */
  function AltDirectorySeparator(os: Os): char {
    '/'
  }

  /** `Path.PathSeparator`, the separator of PATH-style lists. */
  function PathSeparator(os: Os): char {
    if os == Windows then ';' else ':'
  }

  predicate IsSeparator(os: Os, c: char) {
    c == DirectorySeparator(os) || c == AltDirectorySeparator(os)
  }

  /** A well-formed extension: a dot and at least one more character, none of
      which is a dot or a directory separator. */
  predicate IsExtension(os: Os, e: seq<char>) {
    |e| >= 2 && e[0] == '.' &&
    forall k :: 1 <= k < |e| ==> e[k] != '.' && !IsSeparator(os, e[k])
  }

  predicate EndsWithDot(path: seq<char>) {
    |path| > 0 && path[|path| - 1] == '.'
  }

  /** The backward scan of `GetExtension`, looking at the characters before
      position `i`; everything from `i` on is already known to hold no dot
      and no separator. */
  function ExtensionBefore(os: Os, path: seq<char>, i: nat): (r: seq<char>)
    requires i <= |path|
    requires forall k :: i <= k < |path| ==> path[k] != '.' && !IsSeparator(os, path[k])
    ensures r == [] || IsExtension(os, r)
    ensures |r| <= |path| && r == path[|path| - |r|..]
    ensures r == [] ==> EndsWithDot(path) ||
                        forall k :: 0 <= k < |path| && path[k] == '.' ==>
                          exists j :: k < j < |path| && IsSeparator(os, path[j])
    decreases i
  {
    if i == 0 then []
    else if path[i - 1] == '.' then
      if i == |path| then [] else path[i - 1..]
    else if IsSeparator(os, path[i - 1]) then []
    else ExtensionBefore(os, path, i - 1)
  }

  /** `Path.GetExtension`: the last dot and what follows it, provided no
      separator follows the dot and the dot is not the last character;
      otherwise empty. */
  function GetExtension(os: Os, path: seq<char>): (r: seq<char>)
    ensures r == [] || IsExtension(os, r)
    ensures |r| <= |path| && r == path[|path| - |r|..]
    ensures r == [] ==> EndsWithDot(path) ||
                        forall k :: 0 <= k < |path| && path[k] == '.' ==>
                          exists j :: k < j < |path| && IsSeparator(os, path[j])
  {
    ExtensionBefore(os, path, |path|)
  }

  /** Whatever precedes it, a path that ends in a well-formed extension has
      exactly that extension. */
  lemma ExtensionOfSuffix(os: Os, stem: seq<char>, e: seq<char>)
    requires IsExtension(os, e)
    ensures GetExtension(os, stem + e) == e
  {
    var path := stem + e;
    assert forall k :: |stem| <= k < |path| ==> path[k] == e[k - |stem|];
    ScanToDot(os, path, |stem|, |path|);
    assert path[|stem|..] == e;
  }

  /** The scan walks back from `i` to the dot at `d`, after which the path
      holds no dot and no separator. */
  lemma {:induction false} ScanToDot(os: Os, path: seq<char>, d: nat, i: nat)
    requires d + 1 < |path| && path[d] == '.' && d < i <= |path|
    requires forall k :: d < k < |path| ==> path[k] != '.' && !IsSeparator(os, path[k])
    ensures ExtensionBefore(os, path, i) == path[d..]
    decreases i
  {
    if i > d + 1 {
      ScanToDot(os, path, d, i - 1);
    }
  }
}

=== FILE: path_buf.dfy ===
/** `PathBuf`: a growable character buffer with a logical `Length`, meant to
    build paths piece by piece.

    The struct is a value here: each member that mutates `this` and returns
    it becomes a function from the old buffer to the new one. The members
    are modelled as written; beside each defective one stands the evidently
    intended version (suffix `Fixed`), and a lemma shows an input on which
    the two differ. The invariant of the struct, `0 <= Length <=
    buffer.Length`, is `Valid`, and every operation keeps it.
 */
module PathBuf {
  import opened Wrappers
  import opened HostPath
  import Buffers
  import SpanExtensions
  import PathSpan

  /** `default(char)`. */
  const Nul: char := '\0'

  datatype Buf = Buf(buffer: seq<char>, length: int)

  predicate Valid(b: Buf) {
    0 <= b.length <= |b.buffer|
  }

  function Max(a: int, b: int): int {
    if a < b then b else a
  }

  /** The last position of `c` in `s`, or -1. */
  function LastIndexOf(s: seq<char>, c: char): (i: int)
    ensures -1 <= i < |s|
    ensures i >= 0 ==> s[i] == c
    ensures forall k :: i < k < |s| ==> s[k] != c
  {
    if |s| == 0 then -1
    else if s[|s| - 1] == c then |s| - 1
    else LastIndexOf(s[..|s| - 1], c)
  }

  // ------------------------------------------------------------ construction

  /** `new PathBuf()`. */
  function Empty(): (r: Buf)
    ensures Valid(r) && ToString(r) == []
  {
    Buf([], 0)
  }

  /** `new PathBuf(path)` as written: the characters are kept but `Length`
      stays 0, so the buffer reads as empty. */
  function FromSpan(path: seq<char>): (r: Buf)
    ensures Valid(r) && r.buffer == path
    ensures ToString(r) == []
  {
    Buf(path, 0)
  }

  /** `new PathBuf(path)` with `Length` set to the path's length. */
  function FromSpanFixed(path: seq<char>): (r: Buf)
    ensures Valid(r)
    ensures ToString(r) == path
  {
    Buf(path, |path|)
  }

  /** `ToString()` and the implicit conversion to a span: the first `Length`
      characters. */
  function ToString(b: Buf): (r: seq<char>)
    requires Valid(b)
    ensures |r| == b.length
    ensures forall i :: 0 <= i < b.length ==> r[i] == b.buffer[i]
  {
    b.buffer[..b.length]
  }

  // ------------------------------------------------------------------ resize

  /** `Resize(growth)` as written: nothing happens while `Length + growth` is
      below the capacity; otherwise the capacity doubles, which leaves an
      empty buffer empty and may still be too small. */
  function Resize(b: Buf, growth: int): (r: Buf)
    requires Valid(b)
    ensures Valid(r) && r.length == b.length && ToString(r) == ToString(b)
    ensures |r.buffer| >= |b.buffer| && r.buffer[..|b.buffer|] == b.buffer
    ensures b.length + growth < |b.buffer| ==> r == b
    ensures b.length + growth >= |b.buffer| ==> |r.buffer| == 2 * |b.buffer|
  {
    var size := b.length + growth;
    if size < |b.buffer| then b
    else
      var copy := Buffers.Filled(|b.buffer| * 2, Nul);
      var moved := Buffers.ArrayCopy(b.buffer, 0, copy, 0, |b.buffer|).value;
      assert moved[..b.length] == b.buffer[..b.length];
      Buf(moved, b.length)
  }

  /** `Resize(growth)` with a new capacity of at least `Length + growth`. */
  function ResizeFixed(b: Buf, growth: int): (r: Buf)
    requires Valid(b)
    ensures Valid(r) && r.length == b.length && ToString(r) == ToString(b)
    ensures |r.buffer| >= |b.buffer| && r.buffer[..|b.buffer|] == b.buffer
    ensures |r.buffer| >= b.length + growth
  {
    var size := b.length + growth;
    if size < |b.buffer| then b
    else
      var copy := Buffers.Filled(Max(|b.buffer| * 2, size), Nul);
      var moved := Buffers.ArrayCopy(b.buffer, 0, copy, 0, |b.buffer|).value;
      assert moved[..b.length] == b.buffer[..b.length];
      Buf(moved, b.length)
  }

  // --------------------------------------------------------------- add/join

  /** `Add(path)` as written: the characters are copied after `Length`, but
      `Length` is not advanced, so the text of the buffer does not change.
      The copy throws when the resized buffer has no room for them. */
  function Add(b: Buf, path: seq<char>): (r: Result<Buf>)
    requires Valid(b)
    ensures r.Ok? <==> b.length + |path| <= |Resize(b, |path|).buffer|
    ensures r.Err? ==> r.error == ArgumentError
    ensures r.Ok? ==> Valid(r.value) && ToString(r.value) == ToString(b)
    ensures r.Ok? ==> |r.value.buffer| >= b.length + |path| && r.value.buffer[b.length..b.length + |path|] == path
  {
    var b1 := Resize(b, |path|);
    var buf :- Buffers.CopyInto(path, b1.buffer, b1.length);
    assert buf[..b.length] == b1.buffer[..b.length];
    Ok(Buf(buf, b1.length))
  }

  /** `Add(path)` with `Length` advanced past the copied characters. */
  function AddFixed(b: Buf, path: seq<char>): (r: Buf)
    requires Valid(b)
    ensures Valid(r)
    ensures ToString(r) == ToString(b) + path
  {
    var b1 := ResizeFixed(b, |path|);
    var buf := Buffers.CopyInto(path, b1.buffer, b1.length).value;
    assert buf[..b.length + |path|] == b.buffer[..b.length] + path;
    Buf(buf, b1.length + |path|)
  }

  /** `Join(path1)` as written: a directory separator and `path1` are written
      at `Length`, and `Length` grows by `|path1| + 1`. Storing the separator
      throws IndexOutOfRangeException when the resized buffer is full, and
      the copy throws ArgumentException when it has room for the separator
      but not for `path1`. */
  function Join(os: Os, b: Buf, path1: seq<char>): (r: Result<Buf>)
    requires Valid(b)
    ensures var cap := |Resize(b, |path1| + 1).buffer|;
            (r.Ok? <==> b.length + |path1| + 1 <= cap) &&
            (r.Err? ==> r.error == (if b.length < cap then ArgumentError else IndexOutOfRange))
    ensures r.Ok? ==> Valid(r.value)
    ensures r.Ok? ==> ToString(r.value) == ToString(b) + [DirectorySeparator(os)] + path1
  {
    var b1 := Resize(b, |path1| + 1);
    var withSep :- Buffers.SetAt(b1.buffer, b1.length, DirectorySeparator(os));
    var buf :- Buffers.CopyInto(path1, withSep, b1.length + 1);
    assert buf[..b.length + |path1| + 1] == b.buffer[..b.length] + [DirectorySeparator(os)] + path1;
    Ok(Buf(buf, b1.length + |path1| + 1))
  }

  /** `Join(path1)` with a resize that always makes room. */
  function JoinFixed(os: Os, b: Buf, path1: seq<char>): (r: Buf)
    requires Valid(b)
    ensures Valid(r)
    ensures ToString(r) == ToString(b) + [DirectorySeparator(os)] + path1
  {
    var b1 := ResizeFixed(b, |path1| + 1);
    var withSep := Buffers.SetAt(b1.buffer, b1.length, DirectorySeparator(os)).value;
    var buf := Buffers.CopyInto(path1, withSep, b1.length + 1).value;
    assert buf[..b.length + |path1| + 1] == b.buffer[..b.length] + [DirectorySeparator(os)] + path1;
    Buf(buf, b1.length + |path1| + 1)
  }

  // --------------------------------------------------------------- extension

  /** `GetExtensionAsSpan()` as written. It starts the search for a dot at
      the FIRST `/` (or, failing that, the first `\`), and then uses the
      dot's position within that tail as a position in the whole text, so
      after a separator it returns too much. */
  function GetExtensionSpan(b: Buf): (r: seq<char>)
    requires Valid(b)
    ensures |r| <= b.length && r == ToString(b)[b.length - |r|..]
    ensures '.' !in ToString(b) ==> r == []
    ensures '/' !in ToString(b) && '\\' !in ToString(b) ==>
              r == [] || (r[0] == '.' && '.' !in r[1..])
  {
    var span := ToString(b);
    var slash := SpanExtensions.IndexOf(span, '/');
    var index := if slash == -1 then SpanExtensions.IndexOf(span, '\\') else slash;
    var start := if index == -1 then 0 else index;
    var dot := LastIndexOf(span[start..], '.');
    if dot == -1 then []
    else
      assert span[start..][dot] == span[start + dot];
      assert start == 0 ==> span[start..] == span;
      span[dot..]
  }

  /** `GetExtensionAsSpan()` searching after the last separator and keeping
      the dot's position in the whole text. */
  function GetExtensionSpanFixed(b: Buf): (r: seq<char>)
    requires Valid(b)
    ensures |r| <= b.length && r == ToString(b)[b.length - |r|..]
    ensures r == [] || (r[0] == '.' && '.' !in r[1..] && '/' !in r && '\\' !in r)
    ensures r == [] ==> forall k :: 0 <= k < b.length && ToString(b)[k] == '.' ==>
                          exists j :: k < j < b.length && (ToString(b)[j] == '/' || ToString(b)[j] == '\\')
  {
    var span := ToString(b);
    ExtensionAfter(span, LastSeparator(span))
  }

  /** The position of the last `/` or `\\`, or -1. */
  function LastSeparator(span: seq<char>): (last: int)
    ensures -1 <= last < |span|
    ensures last >= 0 ==> span[last] == '/' || span[last] == '\\'
    ensures forall k :: last < k < |span| ==> span[k] != '/' && span[k] != '\\'
  {
    Max(LastIndexOf(span, '/'), LastIndexOf(span, '\\'))
  }

  /** The extension of a text whose last separator is at `last` (-1 for
      none): from the last dot, when that dot comes after it, or empty. */
  function ExtensionAfter(span: seq<char>, last: int): (r: seq<char>)
    requires -1 <= last < |span|
    requires last >= 0 ==> span[last] == '/' || span[last] == '\\'
    requires forall k :: last < k < |span| ==> span[k] != '/' && span[k] != '\\'
    ensures |r| <= |span| && r == span[|span| - |r|..]
    ensures r == [] || (r[0] == '.' && '.' !in r[1..] && '/' !in r && '\\' !in r)
    ensures r == [] ==> forall k :: 0 <= k < |span| && span[k] == '.' ==>
                          exists j :: k < j < |span| && (span[j] == '/' || span[j] == '\\')
  {
    var dot := LastIndexOf(span, '.');
    if dot <= last then
      DotsBeforeSeparator(span, last);
      []
    else
      var r := span[dot..];
      assert forall k :: 0 <= k < |r| ==> r[k] == span[dot + k];
      r
  }

  /** With no dot after the last separator, every dot has a separator after
      it. */
  lemma DotsBeforeSeparator(span: seq<char>, last: int)
    requires -1 <= last < |span|
    requires last >= 0 ==> span[last] == '/' || span[last] == '\\'
    requires forall k :: last < k < |span| ==> span[k] != '.'
    ensures forall k :: 0 <= k < |span| && span[k] == '.' ==>
              exists j :: k < j < |span| && (span[j] == '/' || span[j] == '\\')
  {
    forall k | 0 <= k < |span| && span[k] == '.'
      ensures exists j :: k < j < |span| && (span[j] == '/' || span[j] == '\\')
    {
      assert k < last && span[last] != '.';
    }
  }

  /** `GetExtension()`: the extension as a string, empty when there is none. */
  function GetExtension(b: Buf): (r: seq<char>)
    requires Valid(b)
    ensures r == GetExtensionSpan(b)
    ensures '/' !in ToString(b) && '\\' !in ToString(b) ==>
              r == [] || (r[0] == '.' && '.' !in r[1..])
  {
    var ext := GetExtensionSpan(b);
    if |ext| == 0 then [] else ext
  }

  /** `ChangeExtension(extension)` as written: the tail of the text the size
      of the current extension is copied onto the extension itself, which is
      that same tail, and `extension` is never read. */
  function ChangeExtension(b: Buf, extension: seq<char>): (r: Buf)
    requires Valid(b)
    ensures Valid(r)
  {
    var ext := GetExtensionSpan(b);
    if |ext| == 0 then b else CopyTailOnto(b, |ext|)
  }

  /** The copy `ChangeExtension` performs: the last `n` characters of the
      text onto the last `n` characters of the text. */
  function CopyTailOnto(b: Buf, n: nat): (r: Buf)
    requires Valid(b) && n <= b.length
    ensures Valid(r) && r.length == b.length
  {
    var span := ToString(b);
    var source := span[|span| - n..];
    Buf(Buffers.CopyInto(source, b.buffer, |span| - n).value, b.length)
  }

  /** `ChangeExtension(extension)` replacing the current extension, as found
      by `GetExtensionSpanFixed`, with `extension`. */
  function ChangeExtensionFixed(b: Buf, extension: seq<char>): (r: Buf)
    requires Valid(b)
    ensures Valid(r)
    ensures GetExtensionSpanFixed(b) == [] ==> r == b
    ensures GetExtensionSpanFixed(b) != [] ==>
              ToString(r) == ToString(b)[..b.length - |GetExtensionSpanFixed(b)|] + extension
  {
    var ext := GetExtensionSpanFixed(b);
    if |ext| == 0 then b
    else
      var stem := ToString(b)[..b.length - |ext|];
      AddFixed(FromSpanFixed(stem), extension)
  }

  // --------------------------------------------------------------- findings

  /** The constructor loses the path it is given. */
  lemma ConstructorLosesPath()
    ensures ToString(FromSpan("abc")) == []
    ensures ToString(FromSpanFixed("abc")) == "abc"
  {
  }

  /** `Join` never succeeds on a buffer with no capacity, and doubling can
      leave too little room for a long segment. */
  lemma JoinOutgrowsDoubling()
    ensures Join(Unix, Empty(), "a") == Err(IndexOutOfRange)
    ensures Join(Unix, FromSpanFixed("ab"), "cdefg") == Err(ArgumentError)
    ensures ToString(JoinFixed(Unix, Empty(), "a")) == "/a"
    ensures ToString(JoinFixed(Unix, FromSpanFixed("ab"), "cdefg")) == "ab/cdefg"
  {
    assert "ab" + ['/'] + "cdefg" == "ab/cdefg";
  }

  /** What `Add` copies is not part of the text afterwards. */
  lemma AddIsLost()
    ensures Add(FromSpanFixed("ab"), "c").Ok?
    ensures ToString(Add(FromSpanFixed("ab"), "c").value) == "ab"
    ensures ToString(AddFixed(FromSpanFixed("ab"), "c")) == "abc"
  {
  }

  /** After a separator the extension as written starts too early. */
  lemma ExtensionAfterSeparator()
    ensures GetExtension(FromSpanFixed("a/b.txt")) == "b.txt"
    ensures GetExtensionSpanFixed(FromSpanFixed("a/b.txt")) == ".txt"
  {
    ExtensionAsWrittenExample();
    ExtensionFixedExample();
  }

  lemma ExtensionAsWrittenExample()
    ensures GetExtension(FromSpanFixed("a/b.txt")) == "b.txt"
  {
    var span := "a/b.txt";
    assert ToString(FromSpanFixed(span)) == span;
    assert SpanExtensions.IndexOf(span, '/') == 1;
    LastIndexOfIs(span[1..], '.', 2);
    assert span[2..] == "b.txt";
  }

  lemma ExtensionFixedExample()
    ensures GetExtensionSpanFixed(FromSpanFixed("a/b.txt")) == ".txt"
  {
    var span := "a/b.txt";
    assert ToString(FromSpanFixed(span)) == span;
    LastIndexOfIs(span, '/', 1);
    LastIndexOfIs(span, '\\', -1);
    LastIndexOfIs(span, '.', 3);
    assert span[3..] == ".txt";
  }

  /** `LastIndexOf` is determined by its contract. */
  lemma LastIndexOfIs(s: seq<char>, c: char, i: int)
    requires -1 <= i < |s| && (i >= 0 ==> s[i] == c)
    requires forall k :: i < k < |s| ==> s[k] != c
    ensures LastIndexOf(s, c) == i
  {
    var j := LastIndexOf(s, c);
    assert i >= 0 ==> s[i] == c;
    assert j >= 0 ==> s[j] == c;
  }

  /** Copying a stretch of a buffer onto itself changes nothing. */
  lemma CopyOntoItself(s: seq<char>, at: nat, end: nat)
    requires at <= end <= |s|
    ensures Buffers.CopyInto(s[at..end], s, at) == Ok(s)
  {
    var r := Buffers.CopyInto(s[at..end], s, at);
    assert r.Ok? && |r.value| == |s|;
    assert forall i :: 0 <= i < |s| ==> r.value[i] == s[i] by {
      forall i | 0 <= i < |s|
        ensures r.value[i] == s[i]
      {
        if at <= i < end {
          assert r.value[at + (i - at)] == s[at..end][i - at];
        }
      }
    }
    assert r.value == s;
  }

  /** `ChangeExtension` as written leaves every buffer exactly as it was. */
  lemma ChangeExtensionIsNoOp(b: Buf, extension: seq<char>)
    requires Valid(b)
    ensures ChangeExtension(b, extension) == b
  {
    var ext := GetExtensionSpan(b);
    if |ext| > 0 {
      CopyTailOntoIsNoOp(b, |ext|);
    }
  }

  /** Copying the tail of the text onto itself changes nothing. */
  lemma CopyTailOntoIsNoOp(b: Buf, n: nat)
    requires Valid(b) && n <= b.length
    ensures CopyTailOnto(b, n) == b
  {
    var at := b.length - n;
    assert ToString(b)[at..] == b.buffer[at..b.length];
    CopyOntoItself(b.buffer, at, b.length);
  }

  // ------------------------------------------------------------------ laws

  /** The corrected buffer builds the same text as `PathSpan.Join` when no
      segment carries a separator at the seam. */
  lemma JoinFixedAgreesWithPathSpan(os: Os, path: seq<char>, path1: seq<char>)
    requires PathSpan.NoSeam(os, path) && PathSpan.NoSeam(os, path1)
    ensures ToString(JoinFixed(os, FromSpanFixed(path), path1)) == PathSpan.Join1(os, path, path1)
  {
    PathSpan.JoinPlain(os, path, path1, path1);
  }

  /** Whenever the buffer as written does join, it produces the corrected
      text. */
  lemma JoinAgreesWhenItSucceeds(os: Os, b: Buf, path1: seq<char>)
    requires Valid(b)
    requires Join(os, b, path1).Ok?
    ensures ToString(Join(os, b, path1).value) == ToString(JoinFixed(os, b, path1))
  {
  }
}

=== FILE: path_span.dfy ===
/** `PathSpan`: a read-only character span that joins path segments and
    swaps extensions.

    `Join` trims one separator at each seam and puts the primary directory
    separator between the pieces, using the span `Join` of `SpanExtensions`.
    The first two `Join` overloads are modelled as written; the three- and
    four-segment overloads are modelled as written and, beside them, with the
    evidently intended trimming of the second segment (`Join3Fixed`,
    `Join4Fixed`). Reading the first or last character of an empty segment
    throws IndexOutOfRangeException, and trimming both ends of a lone
    separator (`Slice(1, -1)`) throws ArgumentOutOfRangeException.
 */
module PathSpan {
  import opened Wrappers
  import opened HostPath
  import Buffers
  import SpanExtensions

  /** `default(char)`, the fill value of a fresh `char[]`. */
  const Nul: char := '\0'

  /** The path without one trailing directory separator. */
  function DropLastSeparator(os: Os, p: seq<char>): seq<char> {
    if |p| > 0 && IsSeparator(os, p[|p| - 1]) then p[..|p| - 1] else p
  }

  /** The path without one leading directory separator. */
  function DropFirstSeparator(os: Os, p: seq<char>): seq<char> {
    if |p| > 0 && IsSeparator(os, p[0]) then p[1..] else p
  }

  predicate NoSeam(os: Os, p: seq<char>) {
    |p| > 0 && !IsSeparator(os, p[0]) && !IsSeparator(os, p[|p| - 1])
  }

  predicate LoneSeparator(os: Os, p: seq<char>) {
    |p| == 1 && IsSeparator(os, p[0])
  }

  // ------------------------------------------------------------------ join

  /** `Join(path1)`. */
  function Join1(os: Os, path: seq<char>, path1: seq<char>): (r: seq<char>)
    ensures |path1| == 0 ==> r == path
    ensures |path1| > 0 && |path| == 0 ==> r == path1
    ensures |path1| > 0 && |path| > 0 ==>
              r == DropLastSeparator(os, path) + [DirectorySeparator(os)] + DropFirstSeparator(os, path1)
  {
    if |path1| == 0 then path
    else if |path| == 0 then path1
    else
      var last := path[|path| - 1];
      var first1 := path1[0];
      var p := if IsSeparator(os, last) then path[..|path| - 1] else path;
      var p1 := if IsSeparator(os, first1) then path1[1..] else path1;
      SpanExtensions.JoinUnfold1(DirectorySeparator(os), p, p1);
      SpanExtensions.Join1(p, p1, DirectorySeparator(os), Nul)
  }

  /** The trimming applied to a middle segment: one leading and one trailing
      separator go; a lone separator makes `Slice(1, -1)` throw. */
  function TrimSeparators(os: Os, p: seq<char>): (r: Result<seq<char>>)
    requires |p| > 0
    ensures r.Err? <==> LoneSeparator(os, p)
    ensures r.Err? ==> r.error == ArgumentOutOfRange
    ensures r.Ok? ==> r.value == DropLastSeparator(os, DropFirstSeparator(os, p))
  {
    var first := p[0];
    var last := p[|p| - 1];
    if IsSeparator(os, first) then
      if IsSeparator(os, last) then Buffers.SpanSlice(p, 1, |p| - 2)
      else Ok(p[1..])
    else if IsSeparator(os, last) then Ok(p[..|p| - 1])
    else Ok(p)
  }

  /** `Join(path1, path2)`. */
  function Join2(os: Os, path: seq<char>, path1: seq<char>, path2: seq<char>): (r: Result<seq<char>>)
    ensures |path1| == 0 ==> r == Ok(path)
    ensures |path1| > 0 && |path| == 0 ==> r == Ok(path1)
    ensures |path1| > 0 && |path| > 0 ==>
              (r.Ok? <==> |path2| > 0 && !LoneSeparator(os, path1))
    ensures |path1| > 0 && |path| > 0 && r.Err? ==>
              r.error == (if |path2| == 0 then IndexOutOfRange else ArgumentOutOfRange)
    ensures |path1| > 0 && |path| > 0 && r.Ok? ==>
              r.value == DropLastSeparator(os, path) + [DirectorySeparator(os)]
                         + DropLastSeparator(os, DropFirstSeparator(os, path1)) + [DirectorySeparator(os)]
                         + DropFirstSeparator(os, path2)
  {
    if |path1| == 0 then Ok(path)
    else if |path| == 0 then Ok(path1)
    else if |path2| == 0 then Err(IndexOutOfRange)
    else
      var p := DropLastSeparator(os, path);
      var p1 :- TrimSeparators(os, path1);
      var p2 := DropFirstSeparator(os, path2);
      SpanExtensions.JoinUnfold2(DirectorySeparator(os), p, p1, p2);
      Ok(SpanExtensions.Join2(p, p1, p2, DirectorySeparator(os), Nul))
  }

  /** The trimming of the second segment in the three- and four-segment
      overloads as written: with no leading separator but a trailing one, the
      code slices the already trimmed FIRST segment to the second segment's
      length minus one and leaves the second segment alone. */
  function TrimSecondAsWritten(os: Os, p1: seq<char>, path2: seq<char>): (r: Result<(seq<char>, seq<char>)>)
    requires |path2| > 0
    ensures !IsSeparator(os, path2[0]) && IsSeparator(os, path2[|path2| - 1]) ==>
              r == (if |path2| - 1 <= |p1| then Ok((p1[..|path2| - 1], path2)) else Err(ArgumentOutOfRange))
    ensures !(!IsSeparator(os, path2[0]) && IsSeparator(os, path2[|path2| - 1])) ==>
              r == (match TrimSeparators(os, path2)
                    case Ok(p2) => Ok((p1, p2))
                    case Err(e) => Err(e))
  {
    var first2 := path2[0];
    var last2 := path2[|path2| - 1];
    if IsSeparator(os, first2) then
      var p2 :- TrimSeparators(os, path2);
      Ok((p1, p2))
    else if IsSeparator(os, last2) then
      var q1 :- Buffers.SpanSlice(p1, 0, |path2| - 1);
      Ok((q1, path2))
    else Ok((p1, path2))
  }

  /** `Join(path1, path2, path3)` as written. */
  function Join3(os: Os, path: seq<char>, path1: seq<char>, path2: seq<char>, path3: seq<char>): (r: Result<seq<char>>)
    ensures |path1| == 0 ==> r == Ok(path)
    ensures |path1| > 0 && |path| == 0 ==> r == Ok(path1)
    ensures |path1| > 0 && |path| > 0 && (|path2| == 0 || |path3| == 0) ==> r == Err(IndexOutOfRange)
    ensures |path2| > 0 && !(!IsSeparator(os, path2[0]) && IsSeparator(os, path2[|path2| - 1])) ==>
              r == Join3Fixed(os, path, path1, path2, path3)
  {
    if |path1| == 0 then Ok(path)
    else if |path| == 0 then Ok(path1)
    else if |path2| == 0 || |path3| == 0 then Err(IndexOutOfRange)
    else
      var p := DropLastSeparator(os, path);
      var p1 :- TrimSeparators(os, path1);
      var pair :- TrimSecondAsWritten(os, p1, path2);
      var p3 := DropFirstSeparator(os, path3);
      Ok(SpanExtensions.Join3(p, pair.0, pair.1, p3, DirectorySeparator(os), Nul))
  }

  /** `Join(path1, path2, path3)` with the second segment trimmed like the
      first. */
  function Join3Fixed(os: Os, path: seq<char>, path1: seq<char>, path2: seq<char>, path3: seq<char>): (r: Result<seq<char>>)
    ensures |path1| == 0 ==> r == Ok(path)
    ensures |path1| > 0 && |path| == 0 ==> r == Ok(path1)
    ensures |path1| > 0 && |path| > 0 ==>
              (r.Ok? <==> |path2| > 0 && |path3| > 0 && !LoneSeparator(os, path1) && !LoneSeparator(os, path2))
    ensures |path1| > 0 && |path| > 0 && r.Ok? ==>
              r.value == DropLastSeparator(os, path) + [DirectorySeparator(os)]
                         + DropLastSeparator(os, DropFirstSeparator(os, path1)) + [DirectorySeparator(os)]
                         + DropLastSeparator(os, DropFirstSeparator(os, path2)) + [DirectorySeparator(os)]
                         + DropFirstSeparator(os, path3)
  {
    if |path1| == 0 then Ok(path)
    else if |path| == 0 then Ok(path1)
    else if |path2| == 0 || |path3| == 0 then Err(IndexOutOfRange)
    else
      var p := DropLastSeparator(os, path);
      var p1 :- TrimSeparators(os, path1);
      var p2 :- TrimSeparators(os, path2);
      var p3 := DropFirstSeparator(os, path3);
      SpanExtensions.JoinUnfold3(DirectorySeparator(os), p, p1, p2, p3);
      Ok(SpanExtensions.Join3(p, p1, p2, p3, DirectorySeparator(os), Nul))
  }

  /** `Join(path1, path2, path3, path4)` as written. */
  function Join4(os: Os, path: seq<char>, path1: seq<char>, path2: seq<char>, path3: seq<char>, path4: seq<char>): (r: Result<seq<char>>)
    ensures |path1| == 0 ==> r == Ok(path)
    ensures |path1| > 0 && |path| == 0 ==> r == Ok(path1)
    ensures |path1| > 0 && |path| > 0 && (|path2| == 0 || |path3| == 0 || |path4| == 0) ==> r == Err(IndexOutOfRange)
    ensures |path2| > 0 && !(!IsSeparator(os, path2[0]) && IsSeparator(os, path2[|path2| - 1])) ==>
              r == Join4Fixed(os, path, path1, path2, path3, path4)
  {
    if |path1| == 0 then Ok(path)
    else if |path| == 0 then Ok(path1)
    else if |path2| == 0 || |path3| == 0 || |path4| == 0 then Err(IndexOutOfRange)
    else
      var p := DropLastSeparator(os, path);
      var p1 :- TrimSeparators(os, path1);
      var pair :- TrimSecondAsWritten(os, p1, path2);
      var p3 :- TrimSeparators(os, path3);
      var p4 := DropFirstSeparator(os, path4);
      Ok(SpanExtensions.Join4(p, pair.0, pair.1, p3, p4, DirectorySeparator(os), Nul))
  }

  /** `Join(path1, path2, path3, path4)` with the second segment trimmed like
      the first and third. */
  function Join4Fixed(os: Os, path: seq<char>, path1: seq<char>, path2: seq<char>, path3: seq<char>, path4: seq<char>): (r: Result<seq<char>>)
    ensures |path1| == 0 ==> r == Ok(path)
    ensures |path1| > 0 && |path| == 0 ==> r == Ok(path1)
    ensures |path1| > 0 && |path| > 0 ==>
              (r.Ok? <==> |path2| > 0 && |path3| > 0 && |path4| > 0 && !LoneSeparator(os, path1)
                          && !LoneSeparator(os, path2) && !LoneSeparator(os, path3))
    ensures |path1| > 0 && |path| > 0 && r.Ok? ==>
              r.value == DropLastSeparator(os, path) + [DirectorySeparator(os)]
                         + DropLastSeparator(os, DropFirstSeparator(os, path1)) + [DirectorySeparator(os)]
                         + DropLastSeparator(os, DropFirstSeparator(os, path2)) + [DirectorySeparator(os)]
                         + DropLastSeparator(os, DropFirstSeparator(os, path3)) + [DirectorySeparator(os)]
                         + DropFirstSeparator(os, path4)
  {
    if |path1| == 0 then Ok(path)
    else if |path| == 0 then Ok(path1)
    else if |path2| == 0 || |path3| == 0 || |path4| == 0 then Err(IndexOutOfRange)
    else
      var p := DropLastSeparator(os, path);
      var p1 :- TrimSeparators(os, path1);
      var p2 :- TrimSeparators(os, path2);
      var p3 :- TrimSeparators(os, path3);
      var p4 := DropFirstSeparator(os, path4);
      SpanExtensions.JoinUnfold4(DirectorySeparator(os), p, p1, p2, p3, p4);
      Ok(SpanExtensions.Join4(p, p1, p2, p3, p4, DirectorySeparator(os), Nul))
  }

  // ------------------------------------------------------------- join laws

  /** Segments without separators at their ends are joined with exactly one
      separator between each pair. */
  lemma JoinPlain(os: Os, path: seq<char>, path1: seq<char>, path2: seq<char>)
    requires NoSeam(os, path) && NoSeam(os, path1) && NoSeam(os, path2)
    ensures Join1(os, path, path1) == path + [DirectorySeparator(os)] + path1
    ensures Join2(os, path, path1, path2) == Ok(path + [DirectorySeparator(os)] + path1 + [DirectorySeparator(os)] + path2)
  {
    assert DropLastSeparator(os, path) == path;
    assert DropFirstSeparator(os, path1) == path1;
    assert DropLastSeparator(os, path1) == path1;
    assert DropFirstSeparator(os, path2) == path2;
  }

  /** A separator already present at the seam is not doubled. */
  lemma SeamSeparatorOnce(os: Os, path: seq<char>, path1: seq<char>, s: char, t: char)
    requires NoSeam(os, path) && NoSeam(os, path1)
    requires IsSeparator(os, s) && IsSeparator(os, t)
    ensures Join1(os, path + [s], path1) == Join1(os, path, path1)
    ensures Join1(os, path, [t] + path1) == Join1(os, path, path1)
    ensures Join1(os, path + [s], [t] + path1) == Join1(os, path, path1)
  {
    assert (path + [s])[..|path|] == path;
    assert ([t] + path1)[1..] == path1;
  }

  /** Dropping a trailing separator only looks at the last piece. */
  lemma DropLastOfAppend(os: Os, x: seq<char>, m: seq<char>)
    requires |m| > 0
    ensures DropLastSeparator(os, x + m) == x + DropLastSeparator(os, m)
  {
    assert (x + m)[|x + m| - 1] == m[|m| - 1];
    if IsSeparator(os, m[|m| - 1]) {
      assert (x + m)[..|x + m| - 1] == x + m[..|m| - 1];
    }
  }

  /** Joining two segments at once is joining them one after the other. */
  lemma {:induction false} Join2IsJoinTwice(os: Os, path: seq<char>, path1: seq<char>, path2: seq<char>)
    requires |path| > 0 && |path1| > 0 && |path2| > 0 && !LoneSeparator(os, path1)
    ensures Join2(os, path, path1, path2) == Ok(Join1(os, Join1(os, path, path1), path2))
  {
    var sep := [DirectorySeparator(os)];
    var b := DropLastSeparator(os, path);
    var m := DropFirstSeparator(os, path1);
    assert |m| > 0;
    var once := Join1(os, path, path1);
    assert once == (b + sep) + m;
    DropLastOfAppend(os, b + sep, m);
    assert Join1(os, once, path2) == (b + sep) + DropLastSeparator(os, m) + sep + DropFirstSeparator(os, path2);
  }

  /** With the second segment trimmed like the first, three segments are
      joined one after the other. */
  lemma {:induction false} Join3FixedIsJoinThrice(os: Os, path: seq<char>, path1: seq<char>, path2: seq<char>, path3: seq<char>)
    requires |path| > 0 && |path1| > 0 && |path2| > 0 && |path3| > 0
    requires !LoneSeparator(os, path1) && !LoneSeparator(os, path2)
    ensures Join3Fixed(os, path, path1, path2, path3)
            == Ok(Join1(os, Join1(os, Join1(os, path, path1), path2), path3))
  {
    Join2IsJoinTwice(os, path, path1, path2);
    var sep := [DirectorySeparator(os)];
    var b := DropLastSeparator(os, path);
    var m1 := DropLastSeparator(os, DropFirstSeparator(os, path1));
    var m := DropFirstSeparator(os, path2);
    assert |m| > 0;
    var twice := Join1(os, Join1(os, path, path1), path2);
    assert twice == (b + sep + m1 + sep) + m;
    DropLastOfAppend(os, b + sep + m1 + sep, m);
    assert Join1(os, twice, path3)
        == (b + sep + m1 + sep) + DropLastSeparator(os, m) + sep + DropFirstSeparator(os, path3);
  }

  /** In the three-segment code as written, a second segment that ends (but
      does not start) with a separator keeps that separator, which doubles
      the separator after it, and the first segment is cut to the second
      one's length less one; when the first is shorter than that, the code
      throws. The corrected overload drops the separator and keeps the first
      segment whole. */
  lemma Join3SecondSegment(os: Os, path: seq<char>, path1: seq<char>, q: seq<char>, s: char, path3: seq<char>)
    requires NoSeam(os, path) && NoSeam(os, path1) && NoSeam(os, q) && NoSeam(os, path3)
    requires IsSeparator(os, s)
    ensures var sep := [DirectorySeparator(os)];
            Join3(os, path, path1, q + [s], path3)
            == if |q| <= |path1| then Ok(path + sep + path1[..|q|] + sep + (q + [s]) + sep + path3)
               else Err(ArgumentOutOfRange)
    ensures var sep := [DirectorySeparator(os)];
            Join3Fixed(os, path, path1, q + [s], path3) == Ok(path + sep + path1 + sep + q + sep + path3)
  {
    var sep := DirectorySeparator(os);
    var p2 := q + [s];
    assert p2[0] == q[0] && p2[|p2| - 1] == s;
    assert DropLastSeparator(os, path) == path;
    assert DropFirstSeparator(os, path3) == path3;
    assert TrimSeparators(os, path1) == Ok(path1);
    assert TrimSeparators(os, p2) == Ok(q) by {
      assert p2[..|p2| - 1] == q;
    }
    if |q| <= |path1| {
      assert TrimSecondAsWritten(os, path1, p2) == Ok((path1[..|q|], p2));
      SpanExtensions.JoinUnfold3(sep, path, path1[..|q|], p2, path3);
    } else {
      assert TrimSecondAsWritten(os, path1, p2) == Err(ArgumentOutOfRange);
    }
  }

  /** The same defect in the four-segment code as written. */
  lemma Join4SecondSegment(os: Os, path: seq<char>, path1: seq<char>, q: seq<char>, s: char, path3: seq<char>, path4: seq<char>)
    requires NoSeam(os, path) && NoSeam(os, path1) && NoSeam(os, q) && NoSeam(os, path3) && NoSeam(os, path4)
    requires IsSeparator(os, s)
    ensures var sep := [DirectorySeparator(os)];
            Join4(os, path, path1, q + [s], path3, path4)
            == if |q| <= |path1| then Ok(path + sep + path1[..|q|] + sep + (q + [s]) + sep + path3 + sep + path4)
               else Err(ArgumentOutOfRange)
    ensures var sep := [DirectorySeparator(os)];
            Join4Fixed(os, path, path1, q + [s], path3, path4)
            == Ok(path + sep + path1 + sep + q + sep + path3 + sep + path4)
  {
    var sep := DirectorySeparator(os);
    var p2 := q + [s];
    assert p2[0] == q[0] && p2[|p2| - 1] == s;
    assert DropLastSeparator(os, path) == path;
    assert DropFirstSeparator(os, path4) == path4;
    assert TrimSeparators(os, path1) == Ok(path1);
    assert TrimSeparators(os, path3) == Ok(path3);
    assert TrimSeparators(os, p2) == Ok(q) by {
      assert p2[..|p2| - 1] == q;
    }
    if |q| <= |path1| {
      assert TrimSecondAsWritten(os, path1, p2) == Ok((path1[..|q|], p2));
      SpanExtensions.JoinUnfold4(sep, path, path1[..|q|], p2, path3, path4);
    } else {
      assert TrimSecondAsWritten(os, path1, p2) == Err(ArgumentOutOfRange);
    }
  }

  // ------------------------------------------------------------- extension

  /** `ChangeExtension(ReadOnlySpan<char>)`: the current extension (dot
      included) is replaced by `extension`, which must bring its own dot; a
      path with no extension gets `extension` appended. */
  function ChangeExtension(os: Os, path: seq<char>, extension: seq<char>): (r: seq<char>)
    ensures var ext := GetExtension(os, path);
            r == path[..|path| - |ext|] + extension
  {
    var ext := GetExtension(os, path);
    if |ext| == 0 then SpanExtensions.Concat(path, extension, Nul)
    else
      var result := Buffers.Filled(|path| - |ext| + |extension|, Nul);
      var r1 := Buffers.CopyInto(path[..|path| - |ext|], result, 0).value;
      Buffers.CopyInto(extension, r1, |path| - |ext|).value
  }

  /** After the change the path has the new extension. */
  lemma ChangeExtensionSets(os: Os, path: seq<char>, extension: seq<char>)
    requires IsExtension(os, extension)
    ensures GetExtension(os, ChangeExtension(os, path, extension)) == extension
  {
    var stem := path[..|path| - |GetExtension(os, path)|];
    assert ChangeExtension(os, path, extension) == stem + extension;
    ExtensionOfSuffix(os, stem, extension);
  }

  /** Changing the extension twice is changing it once to the second one. */
  lemma ChangeExtensionTwice(os: Os, path: seq<char>, e1: seq<char>, e2: seq<char>)
    requires IsExtension(os, e1)
    ensures ChangeExtension(os, ChangeExtension(os, path, e1), e2) == ChangeExtension(os, path, e2)
  {
    var stem := path[..|path| - |GetExtension(os, path)|];
    ExtensionOfSuffix(os, stem, e1);
    assert (stem + e1)[..|stem|] == stem;
  }
}

=== FILE: scope_bag.dfy ===
/** `ScopeBag`: the named values attached to a logging scope, with names
    compared without regard to case.

    The bag's `object?` values are `Value`s; `Null` is `null`. The members
    that read the clock, an HTTP response or a stopwatch are left out.
 */
module ScopeBag {
  import opened Wrappers
  import opened CaseFold
  import opened Dictionaries

  datatype Value = Null | Text(text: seq<char>) | Object(id: nat)

  datatype Bag = Bag(bag: Dict<Value>)

  predicate Valid(b: Bag) {
    Dictionaries.Valid(b.bag) && b.bag.cmp == OrdinalIgnoreCase
  }

  /** `new ScopeBag()`. */
  function Empty(): (r: Bag)
    ensures Valid(r)
    ensures forall name :: Get(r, name) == Null
  {
    Bag(Dictionaries.Empty(OrdinalIgnoreCase))
  }

  /** The indexer's getter: a missing name reads as `null`. */
  function Get(b: Bag, name: seq<char>): (r: Value)
    requires Valid(b)
    ensures ContainsKey(b.bag, name) ==> r == TryGetValue(b.bag, name).value
    ensures !ContainsKey(b.bag, name) ==> r == Null
  {
    TryGetValue(b.bag, name).GetOr(Null)
  }

  /** The indexer's setter, `Add` and `Set`: each stores the value, replacing
      one stored under the same name in any case. */
  function Set(b: Bag, name: seq<char>, value: Value): (r: Bag)
    requires Valid(b)
    ensures Valid(r)
    ensures ContainsKey(r.bag, name) && Get(r, name) == value
    ensures forall other :: !EqualsIgnoreCase(other, name) ==> TryGetValue(r.bag, other) == TryGetValue(b.bag, other)
  {
    Bag(Put(b.bag, name, value))
  }

  /** `Remove(name)`. */
  function Remove(b: Bag, name: seq<char>): (r: Bag)
    requires Valid(b)
    ensures Valid(r)
    ensures !ContainsKey(r.bag, name)
    ensures forall other :: !EqualsIgnoreCase(other, name) ==> TryGetValue(r.bag, other) == TryGetValue(b.bag, other)
  {
    Bag(Dictionaries.Remove(b.bag, name))
  }

  /** `Remove(params names)`: every named entry is gone, and entries no name
      matches are kept. */
  function RemoveAll(b: Bag, names: seq<seq<char>>): (r: Bag)
    requires Valid(b)
    ensures Valid(r)
    ensures forall i :: 0 <= i < |names| ==> !ContainsKey(r.bag, names[i])
    ensures forall other :: (forall i :: 0 <= i < |names| ==> !EqualsIgnoreCase(other, names[i])) ==>
              TryGetValue(r.bag, other) == TryGetValue(b.bag, other)
    decreases |names|
  {
    if |names| == 0 then b
    else
      var b1 := Remove(b, names[0]);
      var r := RemoveAll(b1, names[1..]);
      RemoveAllStep(b, names, b1, r);
      r
  }

  /** One step of `RemoveAll`: removing the first name, then the rest. */
  lemma RemoveAllStep(b: Bag, names: seq<seq<char>>, b1: Bag, r: Bag)
    requires Valid(b) && |names| > 0 && b1 == Remove(b, names[0]) && Valid(r)
    requires forall i :: 0 <= i < |names[1..]| ==> !ContainsKey(r.bag, names[1..][i])
    requires forall other :: (forall i :: 0 <= i < |names[1..]| ==> !EqualsIgnoreCase(other, names[1..][i])) ==>
               TryGetValue(r.bag, other) == TryGetValue(b1.bag, other)
    ensures forall i :: 0 <= i < |names| ==> !ContainsKey(r.bag, names[i])
    ensures forall other :: (forall i :: 0 <= i < |names| ==> !EqualsIgnoreCase(other, names[i])) ==>
              TryGetValue(r.bag, other) == TryGetValue(b.bag, other)
  {
    var rest := names[1..];
    assert forall i :: 1 <= i < |names| ==> rest[i - 1] == names[i];
    GoneAfterward(b1, rest, r, names[0]);
    forall other | forall i :: 0 <= i < |names| ==> !EqualsIgnoreCase(other, names[i])
      ensures TryGetValue(r.bag, other) == TryGetValue(b.bag, other)
    {
      assert forall i :: 0 <= i < |rest| ==> !EqualsIgnoreCase(other, rest[i]);
      assert !EqualsIgnoreCase(other, names[0]);
    }
  }

  /** A name already missing stays missing after removing more names: a later
      name that matches it removes it again, and otherwise it is untouched. */
  lemma GoneAfterward(b1: Bag, rest: seq<seq<char>>, r: Bag, name: seq<char>)
    requires Valid(b1) && Valid(r) && !ContainsKey(b1.bag, name)
    requires forall i :: 0 <= i < |rest| ==> !ContainsKey(r.bag, rest[i])
    requires forall other :: (forall i :: 0 <= i < |rest| ==> !EqualsIgnoreCase(other, rest[i])) ==>
               TryGetValue(r.bag, other) == TryGetValue(b1.bag, other)
    ensures !ContainsKey(r.bag, name)
  {
    if j :| 0 <= j < |rest| && EqualsIgnoreCase(name, rest[j]) {
      LookupIgnoresCase(r.bag, name, rest[j]);
    }
  }

  /** `WithUser(userName)`. */
  function WithUser(b: Bag, userName: seq<char>): (r: Bag)
    requires Valid(b)
    ensures Valid(r) && Get(r, "user") == Text(userName)
    ensures forall other :: !EqualsIgnoreCase(other, "user") ==> TryGetValue(r.bag, other) == TryGetValue(b.bag, other)
  {
    Set(b, "user", Text(userName))
  }

  /** `WithUserId(id)`. */
  function WithUserId(b: Bag, id: Value): (r: Bag)
    requires Valid(b)
    ensures Valid(r) && Get(r, "userId") == id
    ensures forall other :: !EqualsIgnoreCase(other, "userId") ==> TryGetValue(r.bag, other) == TryGetValue(b.bag, other)
  {
    Set(b, "userId", id)
  }

  /** `WithOs(platform, version, name)`: the platform's name always goes in
      `os.type`; `os.version` and `os.name` are written only when given. */
  function WithOs(b: Bag, platform: seq<char>, version: Option<seq<char>>, name: Option<seq<char>>): (r: Bag)
    requires Valid(b)
    ensures Valid(r)
    ensures Get(r, "os.type") == Text(platform)
    ensures Get(r, "os.version") == if version.Some? then Text(version.value) else Get(b, "os.version")
    ensures Get(r, "os.name") == if name.Some? then Text(name.value) else Get(b, "os.name")
    ensures forall other ::
              (!EqualsIgnoreCase(other, "os.type") && !EqualsIgnoreCase(other, "os.version") && !EqualsIgnoreCase(other, "os.name")) ==>
              TryGetValue(r.bag, other) == TryGetValue(b.bag, other)
  {
    OsKeysDiffer();
    var b1 := Set(b, "os.type", Text(platform));
    var b2 := if version.Some? then Set(b1, "os.version", Text(version.value)) else b1;
    if name.Some? then Set(b2, "os.name", Text(name.value)) else b2
  }

  /** `WithDictionary(dictionary)`: every entry is written in order, so a
      later entry overwrites an earlier one with the same name in any case. */
  function WithDictionary(b: Bag, entries: seq<(seq<char>, Value)>): (r: Bag)
    requires Valid(b)
    ensures Valid(r)
    ensures forall other :: (forall i :: 0 <= i < |entries| ==> !EqualsIgnoreCase(other, entries[i].0)) ==>
              TryGetValue(r.bag, other) == TryGetValue(b.bag, other)
    decreases |entries|
  {
    if |entries| == 0 then b
    else
      var r := WithDictionary(Set(b, entries[0].0, entries[0].1), entries[1..]);
      assert forall i :: 1 <= i < |entries| ==> entries[1..][i - 1] == entries[i];
      r
  }

  /** `ToDictionary()`: a new dictionary, compared exactly, from each stored
      name to its value. */
  function ToDictionary(b: Bag): (r: map<seq<char>, Value>)
    requires Valid(b)
    ensures r.Keys == Keys(b.bag)
    ensures forall name :: name in r ==> Get(b, name) == r[name]
  {
    ToMap(b.bag)
  }

  // ------------------------------------------------------------------- laws

  /** The three `os.*` names are different names. */
  lemma OsKeysDiffer()
    ensures !EqualsIgnoreCase("os.type", "os.version")
    ensures !EqualsIgnoreCase("os.type", "os.name")
    ensures !EqualsIgnoreCase("os.version", "os.name")
  {
    assert Fold("os.type")[3] != Fold("os.version")[3];
    assert Fold("os.type")[3] != Fold("os.name")[3];
    assert |Fold("os.version")| != |Fold("os.name")|;
  }

  /** After `WithDictionary`, a name holds the value of the last entry that
      names it. */
  lemma {:induction false} WithDictionaryLastWins(b: Bag, entries: seq<(seq<char>, Value)>, i: int)
    requires Valid(b) && 0 <= i < |entries|
    requires forall j :: i < j < |entries| ==> !EqualsIgnoreCase(entries[j].0, entries[i].0)
    ensures Get(WithDictionary(b, entries), entries[i].0) == entries[i].1
    decreases |entries|
  {
    var b1 := Set(b, entries[0].0, entries[0].1);
    var rest := entries[1..];
    assert forall j :: 1 <= j < |entries| ==> rest[j - 1] == entries[j];
    if i == 0 {
      assert forall j :: 0 <= j < |rest| ==> !EqualsIgnoreCase(entries[i].0, rest[j].0);
    } else {
      WithDictionaryLastWins(b1, rest, i - 1);
    }
  }

  /** Setting the same value twice is setting it once. */
  lemma SetIsIdempotent(b: Bag, name: seq<char>, value: Value)
    requires Valid(b)
    ensures Set(Set(b, name, value), name, value) == Set(b, name, value)
  {
  }

  /** The copy reads the same as the bag for the stored names, but is compared
      exactly: a name in another case is not found in it. */
  lemma ToDictionaryIsCaseSensitive(b: Bag, name: seq<char>)
    requires Valid(b) && name in Keys(b.bag) && Fold(name) != name
    ensures name in ToDictionary(b)
    ensures Fold(name) !in ToDictionary(b)
    ensures Get(b, Fold(name)) == Get(b, name)
  {
    FoldIdempotent(name);
  }
}

=== FILE: span_extensions.dfy ===
/** `SpanExtensions`: extension methods that build a new span from an old one.

    Most operations come in two forms: one that writes into a caller-supplied
    `destination` span (modelled as a function from the destination's old
    contents to its new contents, or the exception), and one that allocates
    the destination itself and returns it. The `Span<T>` and `ReadOnlySpan<T>`
    overloads share their bodies and are one function each here. When a
    destination form throws after writing part of the destination, the model
    reports only the exception.
 */
module SpanExtensions {
  import opened Wrappers
  import opened Buffers

  // -------------------------------------------------------------------- pop

  /** `self.Pop(out value)`: the span without its last element, and that element. */
  function Pop<T>(self: seq<T>): (r: Result<(seq<T>, T)>)
    ensures r.Ok? <==> |self| > 0
    ensures r.Ok? ==> r.value.0 + [r.value.1] == self
    ensures r.Err? ==> r.error == ArgumentError
  {
    if |self| == 0 then Err(ArgumentError)
    else Ok((self[..|self| - 1], self[|self| - 1]))
  }

  // ---------------------------------------------------------------- prepend

  /** `self.Prepend(destination, value)`: the destination must be exactly one
      longer than `self`; it then holds `value` followed by `self`. */
  function PrependInto<T>(self: seq<T>, destination: seq<T>, value: T): (r: Result<seq<T>>)
    ensures r.Ok? <==> |destination| == |self| + 1
    ensures r.Ok? ==> r.value == [value] + self
    ensures r.Err? ==> r.error == ArgumentOutOfRange
  {
    if |self| + 1 != |destination| then Err(ArgumentOutOfRange)
    else
      var d1 := destination[0 := value];
      CopyInto(self, d1, 1)
  }

  /** `self.Prepend(value)`. */
  function Prepend<T>(self: seq<T>, value: T, dflt: T): (r: seq<T>)
    ensures r == [value] + self
  {
    PrependInto(self, Filled(|self| + 1, dflt), value).value
  }

  /** `self.PrependRange(destination, items)`: the destination must be exactly
      as long as both; it then holds the items followed by `self`. */
  function PrependRangeInto<T>(self: seq<T>, destination: seq<T>, items: seq<T>): (r: Result<seq<T>>)
    ensures r.Ok? <==> |destination| == |self| + |items|
    ensures r.Ok? ==> r.value == items + self
    ensures r.Err? ==> r.error == ArgumentOutOfRange
  {
    if |self| + |items| != |destination| then Err(ArgumentOutOfRange)
    else
      var d1 := CopyInto(items, destination, 0).value;
      CopyInto(self, d1, |items|)
  }

  /** `self.PrependRange(items)`. */
  function PrependRange<T>(self: seq<T>, items: seq<T>, dflt: T): (r: seq<T>)
    ensures r == items + self
  {
    PrependRangeInto(self, Filled(|self| + |items|, dflt), items).value
  }

  // ----------------------------------------------------------------- append

  /** `self.AppendRange(destination, items)`. */
  function AppendRangeInto<T>(self: seq<T>, destination: seq<T>, items: seq<T>): (r: Result<seq<T>>)
    ensures r.Ok? <==> |destination| == |self| + |items|
    ensures r.Ok? ==> r.value == self + items
    ensures r.Err? ==> r.error == ArgumentOutOfRange
  {
    if |self| + |items| != |destination| then Err(ArgumentOutOfRange)
    else
      var d1 := CopyInto(self, destination, 0).value;
      CopyInto(items, d1, |self|)
  }

  /** `self.AppendRange(items)`. */
  function AppendRange<T>(self: seq<T>, items: seq<T>, dflt: T): (r: seq<T>)
    ensures r == self + items
  {
    AppendRangeInto(self, Filled(|self| + |items|, dflt), items).value
  }

  /** `self.Append(destination, value)`: the destination must be exactly one
      longer than `self`. */
  function AppendInto<T>(self: seq<T>, destination: seq<T>, value: T): (r: Result<seq<T>>)
    ensures r.Ok? <==> |destination| == |self| + 1
    ensures r.Ok? ==> r.value == self + [value]
    ensures r.Err? ==> r.error == ArgumentOutOfRange
  {
    if |self| != |destination| - 1 then Err(ArgumentOutOfRange)
    else
      var d1 := CopyInto(self, destination, 0).value;
      SetAt(d1, |d1| - 1, value)
  }

  /** `self.Append(value)`. */
  function Append<T>(self: seq<T>, value: T, dflt: T): (r: seq<T>)
    ensures r == self + [value]
  {
    AppendInto(self, Filled(|self| + 1, dflt), value).value
  }

  /** `self.Append(index, value)` on a `Span<T>`: the index is not used; the
      value is appended. */
  function AppendIgnoringIndex<T>(self: seq<T>, index: int, value: T, dflt: T): (r: seq<T>)
    ensures r == self + [value]
  {
    AppendInto(self, Filled(|self| + 1, dflt), value).value
  }

  // ----------------------------------------------------------------- insert

  /** `self.InsertRange(destination, index, items)`: the index must address an
      existing element of `self` (so it is below `self.Length`) and lie inside
      the destination, else ArgumentOutOfRangeException; a destination too
      short for the result makes `CopyTo` throw ArgumentException. On success
      the destination starts with `self` with the items inserted at the index. */
  function InsertRangeInto<T>(self: seq<T>, destination: seq<T>, index: int, items: seq<T>): (r: Result<seq<T>>)
    ensures r.Ok? <==> 0 <= index < |self| && |self| + |items| <= |destination|
    ensures r.Ok? ==> r.value == self[..index] + items + self[index..] + destination[|self| + |items|..]
    ensures r.Err? ==> r.error == (if index < 0 || index >= |self| || index >= |destination|
                                   then ArgumentOutOfRange else ArgumentError)
  {
    if index < 0 || index >= |self| || index >= |destination| then Err(ArgumentOutOfRange)
    else if index == 0 then
      CopyPair(items, self, destination)
    else if index == |self| then
      match CopyInto(self, destination, 0)
      case Err(e) => Err(e)
      case Ok(d1) => CopyInto(items, d1, |self|)
    else
      CopyTriple(self[..index], items, self[index..], destination)
  }

  /** `self.InsertRange(index, items)`: into a fresh destination of the exact size. */
  function InsertRange<T>(self: seq<T>, index: int, items: seq<T>, dflt: T): (r: Result<seq<T>>)
    ensures r.Ok? <==> 0 <= index < |self|
    ensures r.Ok? ==> r.value == self[..index] + items + self[index..]
    ensures r.Err? ==> r.error == ArgumentOutOfRange
  {
    var copy := Filled(|self| + |items|, dflt);
    var d :- InsertRangeInto(self, copy, index, items);
    assert copy[|self| + |items|..] == [];
    Ok(d)
  }

  /** `self.Insert(destination, index, value)`: as `InsertRangeInto` with a
      single item, written with element stores. */
  function InsertInto<T>(self: seq<T>, destination: seq<T>, index: int, value: T): (r: Result<seq<T>>)
    ensures r.Ok? <==> 0 <= index < |self| && |self| + 1 <= |destination|
    ensures r.Ok? ==> r.value == self[..index] + [value] + self[index..] + destination[|self| + 1..]
    ensures r.Err? ==> r.error == (if index < 0 || index >= |self| || index >= |destination|
                                   then ArgumentOutOfRange else ArgumentError)
  {
    if index < 0 || index >= |self| || index >= |destination| then Err(ArgumentOutOfRange)
    else if index == 0 then
      var d1 := destination[0 := value];
      CopyInto(self, d1, 1)
    else if index == |self| then
      match CopyInto(self, destination, 0)
      case Err(e) => Err(e)
      case Ok(d1) => SetAt(d1, |d1| - 1, value)
    else
      var d1 := CopyInto(self[..index], destination, 0).value;
      var d2 := d1[index := value];
      CopyInto(self[index..], d2, index + 1)
  }

  /** `self.Insert(index, value)` on a `ReadOnlySpan<T>`, as written: the
      destination it allocates has room for `self` only, so the call always
      throws. */
  function InsertNew<T>(self: seq<T>, index: int, value: T, dflt: T): (r: Result<seq<T>>)
    ensures r.Err?
    ensures r.error == (if index < 0 || index >= |self| then ArgumentOutOfRange else ArgumentError)
  {
    var copy := Filled(|self|, dflt);
    InsertInto(self, copy, index, value)
  }

  /** `InsertNew` with the destination one element longer than `self`. */
  function InsertNewFixed<T>(self: seq<T>, index: int, value: T, dflt: T): (r: Result<seq<T>>)
    ensures r.Ok? <==> 0 <= index < |self|
    ensures r.Ok? ==> r.value == self[..index] + [value] + self[index..]
    ensures r.Err? ==> r.error == ArgumentOutOfRange
  {
    var copy := Filled(|self| + 1, dflt);
    var d :- InsertInto(self, copy, index, value);
    assert copy[|self| + 1..] == [];
    Ok(d)
  }

  /** Every call of `InsertNew` fails, including the simplest one. */
  lemma InsertNewNeverSucceeds(dflt: int)
    ensures InsertNew([1, 2], 1, 9, dflt) == Err(ArgumentError)
    ensures InsertNewFixed([1, 2], 1, 9, dflt) == Ok([1, 9, 2])
  {
    assert [1, 2][..1] + [9] + [1, 2][1..] == [1, 9, 2];
  }

  /** `InsertRangeInto` with the index bound checks relaxed to `index > Length`,
      so that its `index == self.Length` branch can run. */
  function InsertRangeIntoFixed<T>(self: seq<T>, destination: seq<T>, index: int, items: seq<T>): (r: Result<seq<T>>)
    ensures r.Ok? <==> 0 <= index <= |self| && |self| + |items| <= |destination|
    ensures r.Ok? ==> r.value == self[..index] + items + self[index..] + destination[|self| + |items|..]
    ensures r.Err? ==> r.error == (if index < 0 || index > |self| || index > |destination|
                                   then ArgumentOutOfRange else ArgumentError)
  {
    if index < 0 || index > |self| || index > |destination| then Err(ArgumentOutOfRange)
    else if index == 0 then
      CopyPair(items, self, destination)
    else if index == |self| then
      var d1 := CopyInto(self, destination, 0).value;
      CopyInto(items, d1, |self|)
    else
      CopyTriple(self[..index], items, self[index..], destination)
  }

  /** `InsertRange(index, items)` over the relaxed bound check. */
  function InsertRangeFixed<T>(self: seq<T>, index: int, items: seq<T>, dflt: T): (r: Result<seq<T>>)
    ensures r.Ok? <==> 0 <= index <= |self|
    ensures r.Ok? ==> r.value == self[..index] + items + self[index..]
    ensures r.Err? ==> r.error == ArgumentOutOfRange
  {
    var copy := Filled(|self| + |items|, dflt);
    var d :- InsertRangeIntoFixed(self, copy, index, items);
    assert copy[|self| + |items|..] == [];
    Ok(d)
  }

  /** Inserting at the end of a span (or into an empty one) is rejected as
      written; with the relaxed bound it appends. */
  lemma InsertRangeAtEnd(dflt: int)
    ensures InsertRange([1, 2], 2, [3], dflt) == Err(ArgumentOutOfRange)
    ensures InsertRange([], 0, [3], dflt) == Err(ArgumentOutOfRange)
    ensures InsertRangeFixed([1, 2], 2, [3], dflt) == Ok([1, 2, 3])
  {
    assert [1, 2][..2] + [3] + [1, 2][2..] == [1, 2, 3];
  }

  /** With the relaxed bound, inserting at the end is appending and inserting
      at the front is prepending. */
  lemma InsertRangeFixedAtEnds<T>(self: seq<T>, items: seq<T>, dflt: T)
    ensures InsertRangeFixed(self, |self|, items, dflt) == Ok(AppendRange(self, items, dflt))
    ensures InsertRangeFixed(self, 0, items, dflt) == Ok(PrependRange(self, items, dflt))
  {
    assert self[..|self|] + items + self[|self|..] == self + items;
    assert self[..0] + items + self[0..] == items + self;
  }

  // ----------------------------------------------------------------- splice

  /** `self.Splice(index, deleteCount, items)`: replaces `deleteCount` elements
      at the index by the items. A zero count is `InsertRange`; otherwise the
      index must address an element and the count must fit after it. The
      source's `index == Length` branch follows the index check and cannot
      run, so it has no counterpart here. */
  function Splice<T>(self: seq<T>, index: int, deleteCount: int, items: seq<T>, dflt: T): (r: Result<seq<T>>)
    ensures r.Ok? <==> 0 <= index < |self| && 0 <= deleteCount <= |self| - index
    ensures r.Ok? ==> r.value == self[..index] + items + self[index + deleteCount..]
    ensures r.Err? ==> r.error == ArgumentOutOfRange
  {
    if deleteCount == 0 then
      assert 0 <= index <= |self| ==> self[index + deleteCount..] == self[index..];
      InsertRange(self, index, items, dflt)
    else if index < 0 || index >= |self| then Err(ArgumentOutOfRange)
    else if deleteCount < 0 || deleteCount > |self| - index then Err(ArgumentOutOfRange)
    else
      var copy := Filled(|self| - deleteCount + |items|, dflt);
      if index == 0 then Ok(CopyPair(items, self[deleteCount..], copy).value)
      else Ok(CopyTriple(self[..index], items, self[index + deleteCount..], copy).value)
  }

  /** `self.Splice(destination, index, deleteCount, items)`: as `Splice`, into
      a caller's destination, which must also contain the index and the
      deleted range, and have room for the result. As in `Splice`, the
      unreachable `index == Length` branch is not modelled. */
  function SpliceInto<T>(self: seq<T>, destination: seq<T>, index: int, deleteCount: int, items: seq<T>): (r: Result<seq<T>>)
    ensures r.Ok? <==> (0 <= index < |self| && 0 <= deleteCount <= |self| - index
                        && (deleteCount != 0 ==> deleteCount <= |destination| - index)
                        && |self| - deleteCount + |items| <= |destination|)
    ensures r.Ok? ==> r.value == self[..index] + items + self[index + deleteCount..]
                                 + destination[|self| - deleteCount + |items|..]
    ensures r.Err? ==> r.error == (if index < 0 || index >= |self| || index >= |destination|
                                      || (deleteCount != 0 && (deleteCount < 0 || deleteCount > |self| - index
                                                               || deleteCount > |destination| - index))
                                   then ArgumentOutOfRange else ArgumentError)
  {
    if deleteCount == 0 then
      assert 0 <= index <= |self| ==> self[index + deleteCount..] == self[index..];
      InsertRangeInto(self, destination, index, items)
    else if index < 0 || index >= |self| || index >= |destination| then Err(ArgumentOutOfRange)
    else if deleteCount < 0 || deleteCount > |self| - index || deleteCount > |destination| - index then
      Err(ArgumentOutOfRange)
    else if index == 0 then CopyPair(items, self[deleteCount..], destination)
    else CopyTriple(self[..index], items, self[index + deleteCount..], destination)
  }

  /** Two `CopyTo` calls laid end to end from the start of `dst`: the second
      part goes right after the first. */
  function CopyPair<T>(a: seq<T>, b: seq<T>, dst: seq<T>): (r: Result<seq<T>>)
    ensures r.Ok? <==> |a| + |b| <= |dst|
    ensures r.Ok? ==> r.value == a + b + dst[|a| + |b|..]
    ensures r.Err? ==> r.error == ArgumentError
  {
    var d1 :- CopyInto(a, dst, 0);
    assert d1[..|a|] == a;
    assert |a| + |b| <= |dst| ==> d1[|a| + |b|..] == dst[|a| + |b|..];
    CopyInto(b, d1, |a|)
  }

  /** Three `CopyTo` calls laid end to end from the start of `dst`, the first
      of which is known to fit. */
  function CopyTriple<T>(a: seq<T>, b: seq<T>, c: seq<T>, dst: seq<T>): (r: Result<seq<T>>)
    requires |a| <= |dst|
    ensures r.Ok? <==> |a| + |b| + |c| <= |dst|
    ensures r.Ok? ==> r.value == a + b + c + dst[|a| + |b| + |c|..]
    ensures r.Err? ==> r.error == ArgumentError
  {
    var d1 := CopyInto(a, dst, 0).value;
    var d2 :- CopyInto(b, d1, |a|);
    assert d2 == a + b + dst[|a| + |b|..] by {
      assert d1[..|a|] == a;
      assert d1[|a| + |b|..] == dst[|a| + |b|..];
    }
    assert d2[..|a| + |b|] == a + b;
    assert |a| + |b| + |c| <= |dst| ==> d2[|a| + |b| + |c|..] == dst[|a| + |b| + |c|..];
    CopyInto(c, d2, |a| + |b|)
  }

  /** Splicing back the elements that are deleted leaves the span unchanged. */
  lemma SpliceSameIsIdentity<T>(self: seq<T>, index: int, deleteCount: int, dflt: T)
    requires 0 <= index < |self| && 0 <= deleteCount <= |self| - index
    ensures Splice(self, index, deleteCount, self[index..index + deleteCount], dflt) == Ok(self)
  {
    assert self[..index] + self[index..index + deleteCount] + self[index + deleteCount..] == self;
  }

  /** Whenever the destination form succeeds, the allocating form does too,
      and the destination starts with its result. */
  lemma SpliceIntoAgrees<T>(self: seq<T>, destination: seq<T>, index: int, deleteCount: int, items: seq<T>, dflt: T)
    requires SpliceInto(self, destination, index, deleteCount, items).Ok?
    ensures Splice(self, index, deleteCount, items, dflt).Ok?
    ensures var n := |Splice(self, index, deleteCount, items, dflt).value|;
            SpliceInto(self, destination, index, deleteCount, items).value[..n]
              == Splice(self, index, deleteCount, items, dflt).value
  {
    var a := Splice(self, index, deleteCount, items, dflt).value;
    var b := SpliceInto(self, destination, index, deleteCount, items).value;
    assert b == a + destination[|self| - deleteCount + |items|..];
    assert b[..|a|] == a;
  }

  // --------------------------------------------------------------- removeAt

  /** `self.RemoveAt(index)`, as written: after the index check it slices
      `self[..index]` from `index + 1`, past that slice's end, so every call
      throws ArgumentOutOfRangeException. */
  function RemoveAt<T>(self: seq<T>, index: int): (r: Result<seq<T>>)
    ensures r == Err(ArgumentOutOfRange)
  {
    if index < 0 || index >= |self| then Err(ArgumentOutOfRange)
    else
      var head := self[..index];
      SpanSliceFrom(head, index + 1)
  }

  /** `self.RemoveAt(index, deleteCount)`, as written: a zero count returns
      `self`; any other call throws, for the same reason as `RemoveAt`. */
  function RemoveRange<T>(self: seq<T>, index: int, deleteCount: int): (r: Result<seq<T>>)
    ensures deleteCount == 0 ==> r == Ok(self)
    ensures deleteCount != 0 ==> r == Err(ArgumentOutOfRange)
  {
    if deleteCount == 0 then Ok(self)
    else if index < 0 || index >= |self| then Err(ArgumentOutOfRange)
    else if deleteCount < 0 || deleteCount > |self| - index then Err(ArgumentOutOfRange)
    else
      var head := self[..index];
      SpanSliceFrom(head, index + deleteCount)
  }

  /** `RemoveAt(index)` as evidently intended: `self` without the element at the index. */
  function RemoveAtFixed<T>(self: seq<T>, index: int): (r: Result<seq<T>>)
    ensures r.Ok? <==> 0 <= index < |self|
    ensures r.Ok? ==> |r.value| == |self| - 1
    ensures r.Ok? ==> forall i :: 0 <= i < |r.value| ==> r.value[i] == (if i < index then self[i] else self[i + 1])
    ensures r.Err? ==> r.error == ArgumentOutOfRange
  {
    if index < 0 || index >= |self| then Err(ArgumentOutOfRange)
    else Ok(self[..index] + self[index + 1..])
  }

  /** `RemoveAt(index, deleteCount)` as evidently intended. */
  function RemoveRangeFixed<T>(self: seq<T>, index: int, deleteCount: int): (r: Result<seq<T>>)
    ensures r.Ok? <==> deleteCount == 0 || (0 <= index < |self| && 0 <= deleteCount <= |self| - index)
    ensures r.Ok? && deleteCount != 0 ==> r.value == self[..index] + self[index + deleteCount..]
    ensures deleteCount == 0 ==> r == Ok(self)
    ensures r.Err? ==> r.error == ArgumentOutOfRange
  {
    if deleteCount == 0 then Ok(self)
    else if index < 0 || index >= |self| then Err(ArgumentOutOfRange)
    else if deleteCount < 0 || deleteCount > |self| - index then Err(ArgumentOutOfRange)
    else Ok(self[..index] + self[index + deleteCount..])
  }

  /** The failing call, and the intended round trip: removing what was just
      inserted gives the span back. */
  lemma RemoveAtRoundTrip<T>(self: seq<T>, index: int, value: T, dflt: T)
    requires 0 <= index < |self|
    ensures RemoveAt(self, index).Err?
    ensures RemoveAtFixed(InsertNewFixed(self, index, value, dflt).value, index) == Ok(self)
  {
    var s := InsertNewFixed(self, index, value, dflt).value;
    assert s[..index] == self[..index];
    assert s[index + 1..] == self[index..];
    assert self[..index] + self[index..] == self;
  }

  /** `self.RemoveAt(destination, index, deleteCount)`: a zero count leaves the
      destination alone; otherwise the destination starts with `self` minus
      the deleted range. */
  function RemoveRangeInto<T>(self: seq<T>, destination: seq<T>, index: int, deleteCount: int): (r: Result<seq<T>>)
    ensures r.Ok? <==> (deleteCount == 0
                        || (0 <= index < |self| && index < |destination|
                            && 0 <= deleteCount <= |self| - index && deleteCount <= |destination| - index
                            && |self| - deleteCount <= |destination|))
    ensures r.Ok? && deleteCount != 0 ==>
      r.value == self[..index] + self[index + deleteCount..] + destination[|self| - deleteCount..]
    ensures deleteCount == 0 ==> r == Ok(destination)
    ensures r.Err? ==> r.error == (if index < 0 || index >= |self| || index >= |destination|
                                      || deleteCount < 0 || deleteCount > |self| - index
                                      || deleteCount > |destination| - index
                                   then ArgumentOutOfRange else ArgumentError)
  {
    if deleteCount == 0 then Ok(destination)
    else if index < 0 || index >= |self| || index >= |destination| then Err(ArgumentOutOfRange)
    else if deleteCount < 0 || deleteCount > |self| - index || deleteCount > |destination| - index then
      Err(ArgumentOutOfRange)
    else if index == 0 then
      var rest := SpanSliceFrom(self, deleteCount).value;
      CopyInto(rest, destination, 0)
    else if index == |self| - deleteCount then
      assert self[index + deleteCount..] == [];
      CopyInto(self[..index], destination, 0)
    else
      var d1 := CopyInto(self[..index], destination, 0).value;
      CopyInto(self[index + deleteCount..], d1, index)
  }

  /** The destination form of `RemoveAt` produces what the corrected
      allocating form evidently meant to return. */
  lemma RemoveRangeIntoAgrees<T>(self: seq<T>, destination: seq<T>, index: int, deleteCount: int)
    requires RemoveRangeInto(self, destination, index, deleteCount).Ok?
    ensures RemoveRangeFixed(self, index, deleteCount).Ok?
    ensures var a := RemoveRangeFixed(self, index, deleteCount).value;
            deleteCount != 0 ==> RemoveRangeInto(self, destination, index, deleteCount).value[..|a|] == a
  {
    if deleteCount != 0 {
      var a := RemoveRangeFixed(self, index, deleteCount).value;
      var b := RemoveRangeInto(self, destination, index, deleteCount).value;
      assert b == a + destination[|self| - deleteCount..];
      assert b[..|a|] == a;
    }
  }

  // ----------------------------------------------------------------- concat

  /** `self.Concat(other)` for a span or an array `other`. */
  function Concat<T>(self: seq<T>, other: seq<T>, dflt: T): (r: seq<T>)
    ensures r == self + other
  {
    var result := Filled(|self| + |other|, dflt);
    var r1 := CopyInto(self, result, 0).value;
    CopyInto(other, r1, |self|).value
  }

  /** `self.Concat(T other)`. */
  function ConcatValue<T>(self: seq<T>, other: T, dflt: T): (r: seq<T>)
    ensures r == self + [other]
  {
    var result := Filled(|self| + 1, dflt);
    var r1 := CopyInto(self, result, 0).value;
    r1[|self| := other]
  }

  // ------------------------------------------------------------------- join

  /** The parts with one delimiter between neighbours. */
  function JoinWith<T>(delimiter: T, parts: seq<seq<T>>): seq<T>
  {
    if |parts| == 0 then []
    else if |parts| == 1 then parts[0]
    else JoinWith(delimiter, parts[..|parts| - 1]) + [delimiter] + parts[|parts| - 1]
  }

  /** `JoinWith` peeled from the front. */
  lemma {:induction false} JoinWithCons<T>(d: T, p: seq<T>, ps: seq<seq<T>>)
    requires |ps| > 0
    ensures JoinWith(d, [p] + ps) == p + [d] + JoinWith(d, ps)
    decreases |ps|
  {
    var parts := [p] + ps;
    if |ps| > 1 {
      var init := ps[..|ps| - 1];
      var last := ps[|ps| - 1];
      assert parts[..|parts| - 1] == [p] + init;
      assert parts[|parts| - 1] == last;
      JoinWithCons(d, p, init);
      assert JoinWith(d, parts) == (p + [d] + JoinWith(d, init)) + [d] + last;
      assert JoinWith(d, ps) == JoinWith(d, init) + [d] + last;
    } else {
      assert parts[..|parts| - 1] == [p];
    }
  }

  /** One step of filling a buffer front to back: after `acc` is in place,
      copying `x` right behind it leaves `acc + x` in place. */
  lemma PlaceAfter<T>(buffer: seq<T>, acc: seq<T>, x: seq<T>)
    requires |acc| + |x| <= |buffer| && buffer[..|acc|] == acc
    ensures CopyInto(x, buffer, |acc|).Ok?
    ensures CopyInto(x, buffer, |acc|).value[..|acc| + |x|] == acc + x
  {
  }

  /** The same step for a single stored element. */
  lemma StoreAfter<T>(buffer: seq<T>, acc: seq<T>, d: T)
    requires |acc| < |buffer| && buffer[..|acc|] == acc
    ensures buffer[|acc| := d][..|acc| + 1] == acc + [d]
  {
    assert buffer[|acc| := d][..|acc|] == acc;
  }

  /** Copying the first part to the start of the buffer. */
  function FirstCopy<T>(buffer: seq<T>, part: seq<T>): (r: seq<T>)
    requires |part| <= |buffer|
    ensures |r| == |buffer| && r[..|part|] == part
  {
    PlaceAfter(buffer, [], part);
    CopyInto(part, buffer, 0).value
  }

  /** Storing the delimiter after what is already in place, then copying the
      next part after it. */
  function DelimitedCopy<T>(buffer: seq<T>, acc: seq<T>, d: T, part: seq<T>): (r: seq<T>)
    requires |acc| + 1 + |part| <= |buffer| && buffer[..|acc|] == acc
    ensures |r| == |buffer| && r[..|acc| + 1 + |part|] == acc + [d] + part
  {
    StoreAfter(buffer, acc, d);
    var b := buffer[|acc| := d];
    PlaceAfter(b, acc + [d], part);
    CopyInto(part, b, |acc| + 1).value
  }

  /** `self.Join(value, other)`: each part copied and each delimiter stored at its offset in
      a buffer of the exact total length. */
  function Join1<T>(self: seq<T>, o1: seq<T>, d: T, dflt: T): (r: seq<T>)
    ensures r == JoinWith(d, [self, o1])
  {
    var r0 := Filled(|self| + |o1| + 1, dflt);
    var r1 := FirstCopy(r0, self);
    var r2 := DelimitedCopy(r1, self, d, o1);
    assert r2 == r2[..|r2|];
    JoinUnfold1(d, self, o1);
    r2
  }

  /** `self.Join(delimiter, other1, other2)`: each part copied and each delimiter stored at its offset in
      a buffer of the exact total length. */
  function Join2<T>(self: seq<T>, o1: seq<T>, o2: seq<T>, d: T, dflt: T): (r: seq<T>)
    ensures r == JoinWith(d, [self, o1, o2])
  {
    var r0 := Filled(|self| + |o1| + |o2| + 2, dflt);
    var r1 := FirstCopy(r0, self);
    var r2 := DelimitedCopy(r1, self, d, o1);
    var r3 := DelimitedCopy(r2, self + [d] + o1, d, o2);
    assert r3 == r3[..|r3|];
    JoinUnfold2(d, self, o1, o2);
    r3
  }

  /** `self.Join(delimiter, other1, other2, other3)`: each part copied and each delimiter stored at its offset in
      a buffer of the exact total length. */
  function Join3<T>(self: seq<T>, o1: seq<T>, o2: seq<T>, o3: seq<T>, d: T, dflt: T): (r: seq<T>)
    ensures r == JoinWith(d, [self, o1, o2, o3])
  {
    var r0 := Filled(|self| + |o1| + |o2| + |o3| + 3, dflt);
    var r1 := FirstCopy(r0, self);
    var r2 := DelimitedCopy(r1, self, d, o1);
    var r3 := DelimitedCopy(r2, self + [d] + o1, d, o2);
    var r4 := DelimitedCopy(r3, self + [d] + o1 + [d] + o2, d, o3);
    assert r4 == r4[..|r4|];
    JoinUnfold3(d, self, o1, o2, o3);
    r4
  }

  /** `self.Join(delimiter, other1, other2, other3, other4)`: each part copied and each delimiter stored at its offset in
      a buffer of the exact total length. */
  function Join4<T>(self: seq<T>, o1: seq<T>, o2: seq<T>, o3: seq<T>, o4: seq<T>, d: T, dflt: T): (r: seq<T>)
    ensures r == JoinWith(d, [self, o1, o2, o3, o4])
  {
    var r0 := Filled(|self| + |o1| + |o2| + |o3| + |o4| + 4, dflt);
    var r1 := FirstCopy(r0, self);
    var r2 := DelimitedCopy(r1, self, d, o1);
    var r3 := DelimitedCopy(r2, self + [d] + o1, d, o2);
    var r4 := DelimitedCopy(r3, self + [d] + o1 + [d] + o2, d, o3);
    var r5 := DelimitedCopy(r4, self + [d] + o1 + [d] + o2 + [d] + o3, d, o4);
    assert r5 == r5[..|r5|];
    JoinUnfold4(d, self, o1, o2, o3, o4);
    r5
  }

  /** `self.Join(delimiter, other1, other2, other3, other4, other5)`: each part copied and each delimiter stored at its offset in
      a buffer of the exact total length. */
  function Join5<T>(self: seq<T>, o1: seq<T>, o2: seq<T>, o3: seq<T>, o4: seq<T>, o5: seq<T>, d: T, dflt: T): (r: seq<T>)
    ensures r == JoinWith(d, [self, o1, o2, o3, o4, o5])
  {
    var r0 := Filled(|self| + |o1| + |o2| + |o3| + |o4| + |o5| + 5, dflt);
    var r1 := FirstCopy(r0, self);
    var r2 := DelimitedCopy(r1, self, d, o1);
    var r3 := DelimitedCopy(r2, self + [d] + o1, d, o2);
    var r4 := DelimitedCopy(r3, self + [d] + o1 + [d] + o2, d, o3);
    var r5 := DelimitedCopy(r4, self + [d] + o1 + [d] + o2 + [d] + o3, d, o4);
    var r6 := DelimitedCopy(r5, self + [d] + o1 + [d] + o2 + [d] + o3 + [d] + o4, d, o5);
    assert r6 == r6[..|r6|];
    JoinUnfold5(d, self, o1, o2, o3, o4, o5);
    r6
  }

  lemma JoinUnfold1<T>(d: T, p0: seq<T>, p1: seq<T>)
    ensures JoinWith(d, [p0, p1]) == p0 + [d] + p1
  {
    assert [p0, p1][..1] == [p0];
  }

  lemma JoinUnfold2<T>(d: T, p0: seq<T>, p1: seq<T>, p2: seq<T>)
    ensures JoinWith(d, [p0, p1, p2]) == p0 + [d] + p1 + [d] + p2
  {
    assert [p0, p1, p2][..2] == [p0, p1];
    JoinUnfold1(d, p0, p1);
  }

  lemma JoinUnfold3<T>(d: T, p0: seq<T>, p1: seq<T>, p2: seq<T>, p3: seq<T>)
    ensures JoinWith(d, [p0, p1, p2, p3]) == p0 + [d] + p1 + [d] + p2 + [d] + p3
  {
    assert [p0, p1, p2, p3][..3] == [p0, p1, p2];
    JoinUnfold2(d, p0, p1, p2);
  }

  lemma JoinUnfold4<T>(d: T, p0: seq<T>, p1: seq<T>, p2: seq<T>, p3: seq<T>, p4: seq<T>)
    ensures JoinWith(d, [p0, p1, p2, p3, p4]) == p0 + [d] + p1 + [d] + p2 + [d] + p3 + [d] + p4
  {
    assert [p0, p1, p2, p3, p4][..4] == [p0, p1, p2, p3];
    JoinUnfold3(d, p0, p1, p2, p3);
  }

  lemma JoinUnfold5<T>(d: T, p0: seq<T>, p1: seq<T>, p2: seq<T>, p3: seq<T>, p4: seq<T>, p5: seq<T>)
    ensures JoinWith(d, [p0, p1, p2, p3, p4, p5]) == p0 + [d] + p1 + [d] + p2 + [d] + p3 + [d] + p4 + [d] + p5
  {
    assert [p0, p1, p2, p3, p4, p5][..5] == [p0, p1, p2, p3, p4];
    JoinUnfold4(d, p0, p1, p2, p3, p4);
  }

  /** The position of the first `d` in `s`, or -1. */
  function IndexOf<T(==)>(s: seq<T>, d: T): (i: int)
    ensures -1 <= i < |s|
    ensures i >= 0 ==> s[i] == d && d !in s[..i]
    ensures i == -1 ==> d !in s
  {
    if |s| == 0 then -1
    else if s[0] == d then 0
    else
      var j := IndexOf(s[1..], d);
      if j < 0 then -1
      else
        assert s[..j + 1] == [s[0]] + s[1..][..j];
        j + 1
  }

  /** The pieces of `s` between occurrences of `d`. */
  function SplitOn<T(==)>(s: seq<T>, d: T): seq<seq<T>>
    decreases |s|
  {
    var i := IndexOf(s, d);
    if i < 0 then [s] else [s[..i]] + SplitOn(s[i + 1..], d)
  }

  /** Joining parts that do not contain the delimiter can be undone by
      splitting on it. */
  lemma {:induction false} SplitUndoesJoin<T>(d: T, parts: seq<seq<T>>)
    requires |parts| > 0
    requires forall k :: 0 <= k < |parts| ==> d !in parts[k]
    ensures SplitOn(JoinWith(d, parts), d) == parts
    decreases |parts|
  {
    if |parts| > 1 {
      assert [parts[0]] + parts[1..] == parts;
      JoinWithCons(d, parts[0], parts[1..]);
      var rest := JoinWith(d, parts[1..]);
      var s := parts[0] + [d] + rest;
      assert JoinWith(d, parts) == s;
      assert s[|parts[0]|] == d;
      assert s[..|parts[0]|] == parts[0];
      assert IndexOf(s, d) == |parts[0]|;
      assert s[|parts[0]| + 1..] == rest;
      SplitUndoesJoin(d, parts[1..]);
    }
  }
}

=== FILE: span_ops.dfy ===
/** `SpanOps`: list-style helpers over `ref Span<T>` and `ref ReadOnlySpan<T>`.

    Growing operations allocate a new array and rebind the span to it; `Pop`
    and `Shift` only narrow the span. The `Span<T>` and `ReadOnlySpan<T>`
    overloads have identical bodies, so each pair is one function here that
    returns the span the `ref` parameter holds afterwards. `dflt` stands for
    `default(T)`.
 */
module SpanOps {
  import opened Wrappers
  import opened Buffers

  // ----------------------------------------------------------------- append

  /** `Append(ref span, ReadOnlySpan<T> value)` and `Append(ref span, params T[] value)`. */
  function AppendSpan<T>(span: seq<T>, value: seq<T>, dflt: T): (r: seq<T>)
    ensures r == span + value
  {
    var copy := Filled(|span| + |value|, dflt);
    var c1 := CopyInto(span, copy, 0).value;
    CopyInto(value, c1, |span|).value
  }

  /** `Append(ref span, T value)`. */
  function AppendValue<T>(span: seq<T>, value: T, dflt: T): (r: seq<T>)
    ensures r == span + [value]
  {
    var copy := Filled(|span| + 1, dflt);
    var c1 := CopyInto(span, copy, 0).value;
    c1[|c1| - 1 := value]
  }

  /** `Append(ref span, IEnumerable<T> value)`: arrays and lists are copied in
      one call, other read-only collections item by item, anything else is
      first materialised with `ToArray`. */
  function AppendEnumerable<T>(span: seq<T>, value: Enumerable<T>, dflt: T): (r: seq<T>)
    ensures r == span + value.items
  {
    var items := value.items;
    var copy := Filled(|items| + |span|, dflt);
    if value.kind == ArrayKind then
      var c1 := CopyInto(span, copy, 0).value;
      CopyInto(items, c1, |span|).value
    else if IsIList(value.kind) then
      var c1 := CopyInto(span, copy, 0).value;
      CopyInto(items, c1, |span|).value
    else if IsReadOnlyCollection(value.kind) then
      var c1 := CopyInto(span, copy, 0).value;
      WriteEachIsSplice(c1, |span|, items);
      WriteEach(c1, |span|, items)
    else AppendSpan(span, items, dflt)
  }

  // ----------------------------------------------------------------- insert

  /** `Insert(ref span, index, T value)`: `span.Slice(0, index)` throws
      ArgumentOutOfRangeException unless `0 <= index <= Length`. */
  function InsertValue<T>(span: seq<T>, index: int, value: T, dflt: T): (r: Result<seq<T>>)
    ensures r.Ok? <==> 0 <= index <= |span|
    ensures r.Ok? ==> r.value == span[..index] + [value] + span[index..]
    ensures r.Err? ==> r.error == ArgumentOutOfRange
  {
    var copy := Filled(|span| + 1, dflt);
    var prefix :- SpanSlice(span, 0, index);
    var c1 := CopyInto(prefix, copy, 0).value;
    var c2 := c1[index := value];
    var suffix := SpanSliceFrom(span, index).value;
    Ok(CopyInto(suffix, c2, index + 1).value)
  }

  /** `Insert(ref span, index, ReadOnlySpan<T> value)` and the `params T[]` overload. */
  function InsertSpan<T>(span: seq<T>, index: int, value: seq<T>, dflt: T): (r: Result<seq<T>>)
    ensures r.Ok? <==> 0 <= index <= |span|
    ensures r.Ok? ==> r.value == span[..index] + value + span[index..]
    ensures r.Err? ==> r.error == ArgumentOutOfRange
  {
    var copy := Filled(|span| + |value|, dflt);
    var prefix :- SpanSlice(span, 0, index);
    var c1 := CopyInto(prefix, copy, 0).value;
    var c2 := CopyInto(value, c1, index).value;
    var suffix := SpanSliceFrom(span, index).value;
    Ok(CopyInto(suffix, c2, index + |value|).value)
  }

  /** `Insert(ref span, index, IEnumerable<T> value)`. The branch for other
      read-only collections stores the items before it slices the span, so
      there a bad index with at least one item fails on the store, with
      IndexOutOfRangeException. */
  function InsertEnumerable<T>(span: seq<T>, index: int, value: Enumerable<T>, dflt: T): (r: Result<seq<T>>)
    ensures r.Ok? <==> 0 <= index <= |span|
    ensures r.Ok? ==> r.value == span[..index] + value.items + span[index..]
    ensures r.Err? ==> r.error == (if value.kind == ReadOnlyCollectionKind && |value.items| > 0
                                   then IndexOutOfRange else ArgumentOutOfRange)
  {
    var items := value.items;
    if value.kind == ArrayKind then InsertSpan(span, index, items, dflt)
    else if IsIList(value.kind) then InsertList(span, index, items, dflt)
    else if IsReadOnlyCollection(value.kind) then InsertCollection(span, index, items, dflt)
    else InsertSpan(span, index, items, dflt)
  }

  /** The list branch of `Insert(ref span, index, IEnumerable<T> value)`:
      slice, copy the items with `CopyTo`, then the rest. */
  function InsertList<T>(span: seq<T>, index: int, items: seq<T>, dflt: T): (r: Result<seq<T>>)
    ensures r.Ok? <==> 0 <= index <= |span|
    ensures r.Ok? ==> r.value == span[..index] + items + span[index..]
    ensures r.Err? ==> r.error == ArgumentOutOfRange
  {
    var copy := Filled(|items| + |span|, dflt);
    var prefix :- SpanSlice(span, 0, index);
    var c1 := CopyInto(prefix, copy, 0).value;
    var c2 := CopyInto(items, c1, index).value;
    var suffix := SpanSliceFrom(span, index).value;
    Ok(CopyInto(suffix, c2, index + |items|).value)
  }

  /** The read-only collection branch: the items are stored one by one
      before the span is sliced. */
  function InsertCollection<T>(span: seq<T>, index: int, items: seq<T>, dflt: T): (r: Result<seq<T>>)
    ensures r.Ok? <==> 0 <= index <= |span|
    ensures r.Ok? ==> r.value == span[..index] + items + span[index..]
    ensures r.Err? ==> r.error == (if |items| > 0 then IndexOutOfRange else ArgumentOutOfRange)
  {
    var copy := Filled(|items| + |span|, dflt);
    var c1 :- WriteEachChecked(copy, index, items);
    var prefix :- SpanSlice(span, 0, index);
    var c2 := CopyInto(prefix, c1, 0).value;
    var suffix := SpanSliceFrom(span, index).value;
    Ok(CopyInto(suffix, c2, index + |items|).value)
  }

  // ---------------------------------------------------------------- prepend

  /** `Prepend(ref span, ReadOnlySpan<T> value)` and the `params T[]` overload. */
  function PrependSpan<T>(span: seq<T>, value: seq<T>, dflt: T): (r: seq<T>)
    ensures r == value + span
  {
    var copy := Filled(|span| + |value|, dflt);
    var c1 := CopyInto(value, copy, 0).value;
    CopyInto(span, c1, |value|).value
  }

  /** `Prepend(ref span, T value)`. */
  function PrependValue<T>(span: seq<T>, value: T, dflt: T): (r: seq<T>)
    ensures r == [value] + span
  {
    var copy := Filled(|span| + 1, dflt)[0 := value];
    CopyInto(span, copy, 1).value
  }

  /** `Prepend(ref span, IEnumerable<T> value)`. */
  function PrependEnumerable<T>(span: seq<T>, value: Enumerable<T>, dflt: T): (r: seq<T>)
    ensures r == value.items + span
  {
    var items := value.items;
    if value.kind == ArrayKind then PrependSpan(span, items, dflt)
    else if IsIList(value.kind) then
      var copy := Filled(|items| + |span|, dflt);
      var c1 := CopyInto(items, copy, 0).value;
      CopyInto(span, c1, |items|).value
    else if IsReadOnlyCollection(value.kind) then
      var copy := Filled(|items| + |span|, dflt);
      WriteEachIsSplice(copy, 0, items);
      var c1 := WriteEach(copy, 0, items);
      CopyInto(span, c1, |items|).value
    else PrependSpan(span, items, dflt)
  }

  // ------------------------------------------------------------ pop / shift

  /** `Pop(ref span)`: the last element, and the span narrowed to exclude it;
      an empty span throws ArgumentException. */
  function Pop<T>(span: seq<T>): (r: Result<(T, seq<T>)>)
    ensures r.Ok? <==> |span| > 0
    ensures r.Ok? ==> r.value.1 + [r.value.0] == span
    ensures r.Err? ==> r.error == ArgumentError
  {
    if |span| == 0 then Err(ArgumentError)
    else Ok((span[|span| - 1], span[..|span| - 1]))
  }

  /** `Shift(ref span)`: the first element, and the span narrowed past it. */
  function Shift<T>(span: seq<T>): (r: Result<(T, seq<T>)>)
    ensures r.Ok? <==> |span| > 0
    ensures r.Ok? ==> [r.value.0] + r.value.1 == span
    ensures r.Err? ==> r.error == ArgumentError
  {
    if |span| == 0 then Err(ArgumentError)
    else Ok((span[0], span[1..]))
  }

  /** `TryPop(ref span, out value)`. */
  function TryPop<T>(span: seq<T>, dflt: T): (r: (bool, T, seq<T>))
    ensures r.0 <==> |span| > 0
    ensures r.0 ==> r.2 + [r.1] == span
    ensures !r.0 ==> r.1 == dflt && r.2 == span
  {
    if |span| == 0 then (false, dflt, span)
    else (true, span[|span| - 1], span[..|span| - 1])
  }

  /** `TryShift(ref span, out value)`. */
  function TryShift<T>(span: seq<T>, dflt: T): (r: (bool, T, seq<T>))
    ensures r.0 <==> |span| > 0
    ensures r.0 ==> [r.1] + r.2 == span
    ensures !r.0 ==> r.1 == dflt && r.2 == span
  {
    var value := dflt;
    if |span| == 0 then (false, value, span)
    else (true, span[0], span[1..])
  }

  // --------------------------------------------------------------- partners

  /** The elements in reverse order. */
  function Reverse<T>(s: seq<T>): seq<T>
  {
    if |s| == 0 then [] else [s[|s| - 1]] + Reverse(s[..|s| - 1])
  }

  /** The values a caller collects by popping until `Pop` throws. */
  function PopAll<T>(span: seq<T>): seq<T>
    decreases |span|
  {
    match Pop(span)
    case Err(_) => []
    case Ok((v, rest)) => [v] + PopAll(rest)
  }

  /** The values a caller collects by shifting until `Shift` throws. */
  function ShiftAll<T>(span: seq<T>): seq<T>
    decreases |span|
  {
    match Shift(span)
    case Err(_) => []
    case Ok((v, rest)) => [v] + ShiftAll(rest)
  }

  /** Popping a span empty yields its elements last to first. */
  lemma {:induction false} PopAllReverses<T>(span: seq<T>)
    ensures PopAll(span) == Reverse(span)
    decreases |span|
  {
    if |span| > 0 {
      PopAllReverses(span[..|span| - 1]);
    }
  }

  /** Shifting a span empty yields its elements first to last. */
  lemma {:induction false} ShiftAllInOrder<T>(span: seq<T>)
    ensures ShiftAll(span) == span
    decreases |span|
  {
    if |span| > 0 {
      ShiftAllInOrder(span[1..]);
    }
  }

  /** `Pop` takes back what `Append` added, `Shift` what `Prepend` added. */
  lemma PopAndShiftUndo<T>(span: seq<T>, x: T, dflt: T)
    ensures Pop(AppendValue(span, x, dflt)) == Ok((x, span))
    ensures Shift(PrependValue(span, x, dflt)) == Ok((x, span))
  {
    assert (span + [x])[..|span|] == span;
    assert ([x] + span)[1..] == span;
  }

  /** Inserting at either end of a span is appending or prepending. */
  lemma InsertAtEnds<T>(span: seq<T>, value: seq<T>, dflt: T)
    ensures InsertSpan(span, |span|, value, dflt) == Ok(AppendSpan(span, value, dflt))
    ensures InsertSpan(span, 0, value, dflt) == Ok(PrependSpan(span, value, dflt))
  {
    assert span[..|span|] + value + span[|span|..] == span + value;
    assert span[..0] + value + span[0..] == value + span;
  }
}

=== FILE: text_reader.dfy ===
/** `TextReaderExtensions.ReadLineAsArray`: reads the characters up to the
    next line terminator and consumes the terminator.

    The reader is its remaining input: a character sequence and a cursor.
    `\r`, `\n` and `\r\n` each end a line; at the end of the input the
    characters read so far are the line, and an exhausted reader gives an
    empty line.
 */
module TextReader {

  predicate IsTerminator(c: char) {
    c == '\r' || c == '\n'
  }

  /** A line's content: no terminator inside. */
  predicate IsLine(s: seq<char>) {
    forall k :: 0 <= k < |s| ==> !IsTerminator(s[k])
  }

  /** Where the line that starts at `pos` ends: the first terminator at or
      after `pos`, or the end of the input. */
  function LineEnd(input: seq<char>, pos: nat): (e: nat)
    requires pos <= |input|
    ensures pos <= e <= |input|
    ensures forall k :: pos <= k < e ==> !IsTerminator(input[k])
    ensures e < |input| ==> IsTerminator(input[e])
    decreases |input| - pos
  {
    if pos == |input| || IsTerminator(input[pos]) then pos else LineEnd(input, pos + 1)
  }

  /** The reference reading: the line from `pos` and the cursor after its
      terminator, where `\r\n` is one terminator. */
  function ReadLine(input: seq<char>, pos: nat): (r: (seq<char>, nat))
    requires pos <= |input|
    ensures IsLine(r.0)
    ensures pos + |r.0| <= r.1 <= |input|
    ensures r.0 == input[pos..pos + |r.0|]
  {
    var e := LineEnd(input, pos);
    var next :=
      if e == |input| then e
      else if input[e] == '\r' && e + 1 < |input| && input[e + 1] == '\n' then e + 2
      else e + 1;
    (input[pos..e], next)
  }

  /** `reader.ReadLineAsArray()` on the input from `pos`. */
  method ReadLineAsArray(input: seq<char>, pos: nat) returns (line: seq<char>, next: nat)
    requires pos <= |input|
    ensures (line, next) == ReadLine(input, pos)
    ensures IsLine(line) && line == input[pos..pos + |line|]
    ensures next == pos + |line| ==> next == |input|
    ensures next == pos + |line| + 1 ==> IsTerminator(input[pos + |line|])
    ensures next == pos + |line| + 2 ==> input[pos + |line|..next] == "\r\n"
    ensures pos + |line| <= next <= pos + |line| + 2 && next <= |input|
  {
    var sb: seq<char> := [];
    var cursor := pos;
    while cursor < |input|
      invariant pos <= cursor <= |input|
      invariant sb == input[pos..cursor]
      invariant forall k :: pos <= k < cursor ==> !IsTerminator(input[k])
      decreases |input| - cursor
    {
      var ch := input[cursor];
      if IsTerminator(ch) {
        LineEndAt(input, pos, cursor);
        next := cursor + 1;
        if ch == '\r' && next < |input| && input[next] == '\n' {
          next := next + 1;
        }
        line := sb;
        return;
      }
      sb := sb + [ch];
      cursor := cursor + 1;
    }
    LineEndAt(input, pos, |input|);
    line := sb;
    next := cursor;
  }

  /** `LineEnd` is the first terminator. */
  lemma LineEndAt(input: seq<char>, pos: nat, e: nat)
    requires pos <= e <= |input|
    requires forall k :: pos <= k < e ==> !IsTerminator(input[k])
    requires e < |input| ==> IsTerminator(input[e])
    ensures LineEnd(input, pos) == e
  {
  }

  // ------------------------------------------------------------------- laws

  /** A line followed by a terminator reads back as that line, and the
      cursor lands after the terminator. A lone `\r` must not be followed by
      `\n`, which would make the two one terminator. */
  lemma ReadLineOfTerminated(line: seq<char>, term: seq<char>, rest: seq<char>)
    requires IsLine(line)
    requires term == "\n" || term == "\r" || term == "\r\n"
    requires term == "\r" && |rest| > 0 ==> rest[0] != '\n'
    ensures ReadLine(line + term + rest, 0) == (line, |line| + |term|)
  {
    var input := line + term + rest;
    LineEndAt(input, 0, |line|);
    assert input[..|line|] == line;
    assert input[|line|] == term[0];
    if term == "\r" && |rest| > 0 {
      assert input[|line| + 1] == rest[0];
    }
    if term == "\r\n" {
      assert input[|line| + 1] == '\n';
    }
  }

  /** At the end of the input the remaining characters are the line. */
  lemma ReadLineAtEnd(line: seq<char>)
    requires IsLine(line)
    ensures ReadLine(line, 0) == (line, |line|)
  {
    LineEndAt(line, 0, |line|);
    assert line[0..|line|] == line;
  }

  /** An exhausted reader and an empty line both read as the empty array;
      only the cursor tells them apart. */
  lemma EmptyLineLooksLikeEnd(input: seq<char>)
    requires |input| > 0 && input[0] == '\n'
    ensures ReadLine(input, 0).0 == ReadLine([], 0).0 == []
    ensures ReadLine(input, 0).1 == 1 && ReadLine([], 0).1 == 0
  {
  }
}

=== FILE: virtual_environment.dfy ===
/** `VirtualEnvironment`: an in-memory set of environment variables whose
    names are compared without regard to case, with a secret masker that
    collects the values marked secret.

    The masker is modelled as the list of values added to it; the current
    directory, OS flags and special directories are left out.
 */
module VirtualEnv {
  import opened Wrappers
  import opened CaseFold
  import opened Dictionaries

  datatype VirtualEnvironment = VirtualEnvironment(env: Dict<seq<char>>, secrets: seq<seq<char>>)

  predicate Valid(v: VirtualEnvironment) {
    Dictionaries.Valid(v.env) && v.env.cmp == OrdinalIgnoreCase
  }

  /** `new VirtualEnvironment(env, masker)`: the variables are copied into a
      case-insensitive dictionary, which throws ArgumentException when two
      names differ only in case. */
  function Create(pairs: seq<(seq<char>, seq<char>)>, masker: seq<seq<char>>): (r: Result<VirtualEnvironment>)
    ensures r.Ok? <==> forall i, j :: 0 <= i < j < |pairs| ==> !EqualsIgnoreCase(pairs[i].0, pairs[j].0)
    ensures r.Err? ==> r.error == ArgumentError
    ensures r.Ok? ==> Valid(r.value) && r.value.secrets == masker
    ensures r.Ok? ==> forall i :: 0 <= i < |pairs| ==> Get(r.value, pairs[i].0) == Some(pairs[i].1)
  {
    var env :- FromPairs(OrdinalIgnoreCase, pairs);
    Ok(VirtualEnvironment(env, masker))
  }

  /** `Get(name)`: `None` is `null`. */
  function Get(v: VirtualEnvironment, name: seq<char>): (r: Option<seq<char>>)
    requires Valid(v)
    ensures r.Some? <==> exists stored :: stored in Keys(v.env) && EqualsIgnoreCase(stored, name)
  {
    var r := TryGetValue(v.env, name);
    var n := Fold(name);
    if r.Some? then
      assert v.env.entries[n].0 in Keys(v.env);
      r
    else
      assert forall stored :: stored in Keys(v.env) ==> !EqualsIgnoreCase(stored, name) by {
        forall stored | stored in Keys(v.env) ensures !EqualsIgnoreCase(stored, name) {
          var m :| m in v.env.entries && v.env.entries[m].0 == stored;
        }
      }
      r
  }

  /** Names that differ only in case read the same variable. */
  lemma GetIgnoresCase(v: VirtualEnvironment, a: seq<char>, b: seq<char>)
    requires Valid(v) && EqualsIgnoreCase(a, b)
    ensures Get(v, a) == Get(v, b)
  {
  }

  /** `Has(name)`. */
  function Has(v: VirtualEnvironment, name: seq<char>): (r: bool)
    requires Valid(v)
    ensures r <==> Get(v, name).Some?
  {
    ContainsKey(v.env, name)
  }

  /** `TryGet(name, out value)`: false with a `null` value when unset. */
  function TryGet(v: VirtualEnvironment, name: seq<char>): (r: (bool, Option<seq<char>>))
    requires Valid(v)
    ensures r.0 <==> Has(v, name)
    ensures r.1 == Get(v, name)
    ensures !r.0 ==> r.1 == None
  {
    var found := TryGetValue(v.env, name);
    if found.Some? then (true, found) else (false, None)
  }

  /** The indexer's setter: `null` deletes the variable, anything else stores
      it. The masker is not touched. */
  function SetIndexer(v: VirtualEnvironment, name: seq<char>, value: Option<seq<char>>): (r: VirtualEnvironment)
    requires Valid(v)
    ensures Valid(r) && r.secrets == v.secrets
    ensures Get(r, name) == value
    ensures forall other :: !EqualsIgnoreCase(other, name) ==> Get(r, other) == Get(v, other)
  {
    if value.None? then VirtualEnvironment(Dictionaries.Remove(v.env, name), v.secrets)
    else VirtualEnvironment(Put(v.env, name, value.value), v.secrets)
  }

  /** `Delete(name)`. */
  function Delete(v: VirtualEnvironment, name: seq<char>): (r: VirtualEnvironment)
    requires Valid(v)
    ensures Valid(r) && r.secrets == v.secrets
    ensures !Has(r, name)
    ensures forall other :: !EqualsIgnoreCase(other, name) ==> Get(r, other) == Get(v, other)
  {
    VirtualEnvironment(Dictionaries.Remove(v.env, name), v.secrets)
  }

  /** `Set(name, value)`. */
  function Set(v: VirtualEnvironment, name: seq<char>, value: seq<char>): (r: VirtualEnvironment)
    requires Valid(v)
    ensures Valid(r) && r.secrets == v.secrets
    ensures Get(r, name) == Some(value)
    ensures forall other :: !EqualsIgnoreCase(other, name) ==> Get(r, other) == Get(v, other)
  {
    VirtualEnvironment(Put(v.env, name, value), v.secrets)
  }

  /** `Set(name, value, secret)`: the value goes to the masker exactly when
      it is secret. */
  function SetSecret(v: VirtualEnvironment, name: seq<char>, value: seq<char>, secret: bool): (r: VirtualEnvironment)
    requires Valid(v)
    ensures Valid(r)
    ensures r.secrets == if secret then v.secrets + [value] else v.secrets
    ensures Get(r, name) == Some(value)
    ensures forall other :: !EqualsIgnoreCase(other, name) ==> Get(r, other) == Get(v, other)
  {
    var masked := if secret then v.secrets + [value] else v.secrets;
    VirtualEnvironment(Put(v.env, name, value), masked)
  }

  /** `List()`: a new case-insensitive dictionary with the same entries.
      Being a value, changing it cannot change the environment. */
  function List(v: VirtualEnvironment): (r: Dict<seq<char>>)
    requires Valid(v)
    ensures Dictionaries.Valid(r) && r.cmp == OrdinalIgnoreCase
    ensures Keys(r) == Keys(v.env)
    ensures forall name :: TryGetValue(r, name) == Get(v, name)
  {
    Dict(OrdinalIgnoreCase, v.env.entries)
  }

  // ----------------------------------------------------------------- Expand

  /** The two callbacks of `EnvSubstitutionOptions` that `Expand` fills in;
      `None` is a callback the caller left `null`. */
  datatype SubstitutionOptions = SubstitutionOptions(
    getVariable: Option<seq<char> -> Option<seq<char>>>,
    setVariable: Option<(seq<char>, seq<char>) -> VirtualEnvironment>)

  /** The options `Expand(template, options)` hands to the evaluator: missing
      options become a fresh set, and each callback left `null` becomes this
      environment's `Get` or `Set`. */
  function ExpandOptions(v: VirtualEnvironment, options: Option<SubstitutionOptions>): (r: SubstitutionOptions)
    requires Valid(v)
    ensures r.getVariable.Some? && r.setVariable.Some?
    ensures options.Some? && options.value.getVariable.Some? ==>
              forall name :: r.getVariable.value(name) == options.value.getVariable.value(name)
    ensures (options.None? || options.value.getVariable.None?) ==>
              forall name :: r.getVariable.value(name) == Get(v, name)
    ensures options.Some? && options.value.setVariable.Some? ==>
              forall name, value :: r.setVariable.value(name, value) == options.value.setVariable.value(name, value)
    ensures (options.None? || options.value.setVariable.None?) ==>
              forall name, value :: r.setVariable.value(name, value) == Set(v, name, value)
  {
    var given := options.GetOr(SubstitutionOptions(None, None));
    var getter := if given.getVariable.Some? then given.getVariable.value else name => Get(v, name);
    var setter := if given.setVariable.Some? then given.setVariable.value else (name, value) => Set(v, name, value);
    SubstitutionOptions(Some(getter), Some(setter))
  }

  /** The `??=` assignments only fill in what is missing: expanding options
      that were already expanded changes nothing. */
  lemma ExpandOptionsIsStable(v: VirtualEnvironment, options: Option<SubstitutionOptions>)
    requires Valid(v)
    ensures ExpandOptions(v, Some(ExpandOptions(v, options))) == ExpandOptions(v, options)
  {
  }

  /** A variable written through the default setter is read back by the
      default getter of the environment that write produced. */
  lemma ExpandedSetIsSeenByGet(v: VirtualEnvironment, name: seq<char>, value: seq<char>)
    requires Valid(v)
    ensures var w := ExpandOptions(v, None).setVariable.value(name, value);
            Valid(w) && ExpandOptions(w, None).getVariable.value(name) == Some(value)
  {
  }

  // ------------------------------------------------------------------- laws

  /** Deleting a variable that was just set to a new name restores the
      environment. */
  lemma DeleteUndoesSet(v: VirtualEnvironment, name: seq<char>, value: seq<char>)
    requires Valid(v) && !Has(v, name)
    ensures Delete(Set(v, name, value), name) == v
  {
    RemoveUndoesPut(v.env, name, value);
  }

  /** Setting through the indexer with a value is `Set`, and with `null` is
      `Delete`. */
  lemma IndexerIsSetOrDelete(v: VirtualEnvironment, name: seq<char>, value: Option<seq<char>>)
    requires Valid(v)
    ensures value.Some? ==> SetIndexer(v, name, value) == Set(v, name, value.value)
    ensures value.None? ==> SetIndexer(v, name, value) == Delete(v, name)
  {
  }

  /** A secret set is an ordinary set plus one masked value. */
  lemma SecretOnlyAddsToMasker(v: VirtualEnvironment, name: seq<char>, value: seq<char>, secret: bool)
    requires Valid(v)
    ensures SetSecret(v, name, value, secret).env == Set(v, name, value).env
    ensures |SetSecret(v, name, value, secret).secrets| == |v.secrets| + (if secret then 1 else 0)
  {
  }

  /** Names that differ only in case make the constructor throw. */
  lemma CreateRejectsCaseDuplicates(a: seq<char>, b: seq<char>, x: seq<char>, y: seq<char>, masker: seq<seq<char>>)
    requires EqualsIgnoreCase(a, b)
    ensures Create([(a, x), (b, y)], masker) == Err(ArgumentError)
  {
    var pairs := [(a, x), (b, y)];
    assert pairs[0].0 == a && pairs[1].0 == b;
  }
}

=== FILE: wrappers.dfy ===
/** Failure-compatible datatypes shared by every module of the model.

    The modelled library reports failure by throwing .NET exceptions; each
    exception type that the modelled code can raise is one `Error` value, and an
    operation that may throw returns a `Result`.
 */
module Wrappers {

  /** The .NET exception types raised by the modelled code (directly or by the
      runtime primitives it calls). */
  datatype Error =
    | ArgumentError            // System.ArgumentException
    | ArgumentOutOfRange       // System.ArgumentOutOfRangeException
    | IndexOutOfRange          // System.IndexOutOfRangeException
    | InvalidOperation         // System.InvalidOperationException
    | NotSupported             // System.NotSupportedException
    | PlatformNotSupported     // System.PlatformNotSupportedException
    | Overflow                 // System.OverflowException (`new T[n]` with n < 0)

  /** Either a value or the exception that was thrown instead. */
  datatype Result<+T> = Ok(value: T) | Err(error: Error) {

    predicate IsFailure() {
      Err?
    }

    function PropagateFailure<U>(): Result<U>
      requires Err?
    {
      Err(error)
    }

    function Extract(): T
      requires Ok?
    {
      value
    }
  }

  /** A value that may be absent: a C# `null` reference or a missing entry. */
  datatype Option<+T> = None | Some(value: T) {

    function GetOr(default: T): T {
      match this
      case Some(v) => v
      case None => default
    }
  }
}
